=== FILE: README.md ===
# WatchParty room synchronisation, in Dafny

WatchParty lets a group of people watch a video together in a "room". A
room has a host, a capacity, a list of participants, the video currently
loaded with its playback position and pause flag, and an optional access
code that makes it private.

The project models the path a room operation takes through the system:

- **the store** (`RoomsRepo`) keeps the `Rooms` documents in a MongoDB
  collection;
- **the room service** (`RoomsServices`) validates arguments and wraps the
  store's answers in an `OperationResult`;
- **the gRPC front** (`RoomGrpcService`) turns those results into replies
  or `RpcException` statuses;
- **the sync service** (`RoomSyncService`) calls the room service over
  gRPC and adds host checks;
- **the real-time hub** (`RoomSyncHub`) registers connections, keeps room
  groups, and relays joins, video changes and playback positions to the
  group.

It also models the client's `JwtParser`, which reads the user id, role,
user name, room id and expiry out of the client's access token.

## Module layout

| file | module | what it holds |
|---|---|---|
| `wrappers.dfy` | `Wrappers` | `Option` |
| `text.dfy` | `Text` | the .NET string operations the core uses (white-space tests, `Replace`, `Split`, `Trim`, the `\s+` collapse, ASCII upper-casing) |
| `rooms.dfy` | `Rooms` | the `Rooms` document and its invariants |
| `room_collection.dfy` | `RoomCollection` | filters, updates, the collection calls, and every store operation as a function from the documents before to the documents after, with its properties |
| `room_store.dfy` | `RoomStore` | class `RoomsRepo`: the collection as a mutable `seq<Room>` and the store's methods |
| `operation_result.dfy` | `OperationResults` | `OperationResult<T>` and its three factories |
| `rooms_services.dfy` | `RoomsServices` | DTO mapping, access-code generation, class `RoomsServices` |
| `room_grpc.dfy` | `RoomGrpc` | status codes, wire messages, class `RoomGrpcService` |
| `room_sync_service.dfy` | `RoomSync` | class `RoomSyncService` and the readable error translation |
| `room_sync_hub.dfy` | `RoomHub` | class `RoomSyncHub`: connection table, groups, sent messages |
| `jwt_parser.dfy` | `JwtParser` | the token reader, as pure functions |

### How the layers compose

Each layer is a class that holds the layer below it as a `const`. The chain
runs `RoomSyncService` → `RoomGrpcService` → `RoomsServices` → `RoomsRepo`.
Only the repository's `rooms` field changes. Every method states its
effect end to end, as a function of the rooms before the call. Those
functions are in `RoomCollection` (`JoinRoom`, `LeaveRoom`, `MakeRoomPrivate`
and so on). Their properties are proved once, as lemmas, and every layer's
method contract reuses them.

The gRPC hop between the sync service and the room service is collapsed. The
sync service's client is the `RoomGrpcService` object, and an `RpcException`
is the `RpcError` alternative of `RpcResult`.

### Representation choices

- **The store is a sequence.** The store never enforces unique room ids:
  `CreateRoomAsync` checks only the name. Every by-id operation acts on the
  first matching document. A `map` keyed by id would hide both facts.
- **`UpdateOneAsync` answers whether the document changed.** The source
  tests `ModifiedCount > 0`, which is false when an update writes the values
  a document already has. The model keeps this exactly. For example,
  re-issuing the same access code answers "failed".
- **Outside inputs are parameters.** Fresh GUIDs (`roomGuid`, `codeGuid`,
  as 32 lower-case hex digits), the clock (`now`), the case-insensitive
  regular-expression match of the search (`isMatch`), and the base64/JSON
  decoding of a token (`decode`) are all parameters.
- **Strings cannot be null.** Protocol strings are never null. "Null or
  empty" is `s == []` and "null or white space" is `IsBlank(s)`.
- **The hub is one object.** The hub's static connection table is the
  `connections` field of one hub object. `sent` records every `SendAsync`
  in order, with the connections the audience held when it was sent.

## Model

| member | source | states |
|---|---|---|
| Rooms.NewRoom | Services/RoomService/Domain/Entities/Rooms.cs:11-32 | a new room's id is the first 7 hex digits of a GUID; it starts empty, public, with capacity 20, no video, position 0, paused, stamped with the clock |
| OperationResults.Success | Services/SyncService/Domain/UtilModels/OperationResult.cs:11-19 | a success carries the given data and message |
| OperationResults.Failure | Services/SyncService/Domain/UtilModels/OperationResult.cs:21-29 | a failure carries the given data and message |
| OperationResults.Error | Services/SyncService/Domain/UtilModels/OperationResult.cs:31-39 | an error is a failure whose data is `default(T)`, named by the caller; its message is the context, ": ", then the exception message |
| Text.Replace | Services/SyncService/Core/Services/RoomSyncService.cs:1023-1025 | ordinal replacement never introduces a character absent from the input and the replacement; a one-character pattern not in the replacement disappears |
| Text.ReplaceEach | Services/SyncService/Core/Services/RoomSyncService.cs:1026-1031 | a chain of replacements introduces no character absent from the input and every replacement text |
| Text.Split | client/WatchPartyClient/Utilities/JwtParser.cs:12 | splitting gives one more piece than there are separators, and no piece contains the separator |
| Text.JoinSplit | client/WatchPartyClient/Utilities/JwtParser.cs:12 | joining the pieces of a split with the separator gives back the string |
| Text.SplitJoin | client/WatchPartyClient/Utilities/JwtParser.cs:12 | splitting a join of separator-free pieces gives back the pieces |
| Text.Trim | Services/SyncService/Core/Services/RoomSyncService.cs:1035 | the result is a slice of the input with only white space cut off before and after it; it has no white space at either end, is empty exactly for a blank input, and keeps "no two adjacent white spaces" |
| Text.CollapseWhiteSpace | Services/SyncService/Core/Services/RoomSyncService.cs:1033 | after collapsing, no two adjacent characters are white space, and nothing is introduced but spaces |
| Text.CollapseKeepsText | Services/SyncService/Core/Services/RoomSyncService.cs:1033 | every white-space character left is a space, and the other characters are exactly those of the input, in order |
| Text.CollapseIsScan | Services/SyncService/Core/Services/RoomSyncService.cs:1033 | the collapse equals a left-to-right scan that writes one space for the first white-space character of each run and copies every other character |
| RoomCollection.RemoveAll | Services/RoomService/Data/Repos/RoomsRepo.cs:258 | `$pull` removes exactly the user's entries, keeps the list duplicate-free, and changes nothing when the user is absent |
| RoomCollection.FirstMatch | Services/RoomService/Data/Repos/RoomsRepo.cs:169 | the position found matches the filter and no earlier document does; none means no document matches |
| RoomCollection.FindFirst | Services/RoomService/Data/Repos/RoomsRepo.cs:169 | the room found is stored and matches; none exactly when no stored room matches |
| RoomCollection.FindAll | Services/RoomService/Data/Repos/RoomsRepo.cs:136 | the list holds exactly the stored rooms that match |
| RoomCollection.FindByNameOrHost | Services/RoomService/Data/Repos/RoomsRepo.cs:325-331 | the list holds exactly the stored rooms whose name or host matches the term |
| RoomCollection.Page | Services/RoomService/Data/Repos/RoomsRepo.cs:152 | a page holds at most `pageSize` items, the ones that follow the first `(page-1)*pageSize`, in order |
| RoomCollection.Wrap32 | Services/RoomService/Data/Repos/RoomsRepo.cs:152 | the result is a 32-bit `int` congruent to the input modulo 2^32 |
| RoomCollection.SkipAsWritten | Services/RoomService/Data/Repos/RoomsRepo.cs:152 | the skip as computed in unchecked 32-bit arithmetic; it equals the intended skip whenever that fits in an `int` |
| RoomCollection.SkipWrapsToFour | Services/RoomService/Data/Repos/RoomsRepo.cs:152 | page 42949674 of size 100 is empty for any shorter collection, but the 32-bit skip is 4 |
| RoomCollection.SkipWrapsNegative | Services/RoomService/Data/Repos/RoomsRepo.cs:334 | page 21474838 of size 100 has a positive skip, but the 32-bit skip is negative |
| RoomCollection.CreateRoomOutcome | Services/RoomService/Data/Repos/RoomsRepo.cs:19-45 | creation is refused exactly when a stored room has the name; otherwise the room is appended and returned |
| RoomCollection.CreateRoomKeepsInvariant | Services/RoomService/Data/Repos/RoomsRepo.cs:19-45 | creating a well-formed room keeps names unique and every room well-formed |
| RoomCollection.DeleteRoomOutcome | Services/RoomService/Data/Repos/RoomsRepo.cs:47-73 | delete answers true exactly when a room has the id, and then removes exactly that first room |
| RoomCollection.DeleteRoomKeepsInvariant | Services/RoomService/Data/Repos/RoomsRepo.cs:47-73 | deleting keeps the store invariant |
| RoomCollection.JoinRoomOutcome | Services/RoomService/Data/Repos/RoomsRepo.cs:197-248 | missing room: false; user present: true, unchanged; full: false, unchanged; otherwise the user is appended to that room only |
| RoomCollection.JoinRoomKeepsInvariant | Services/RoomService/Data/Repos/RoomsRepo.cs:197-248 | joining never duplicates a participant or exceeds capacity |
| RoomCollection.JoinRoomIdempotent | Services/RoomService/Data/Repos/RoomsRepo.cs:214-218 | joining twice has the effect and answer of joining once |
| RoomCollection.JoinRoomKeepsPlayback | Services/RoomService/Data/Repos/RoomsRepo.cs:227-229 | a successful join changes only the room's participants, so its playback state is unchanged |
| RoomCollection.JoinRoomWhenNotFull | Services/RoomService/Data/Repos/RoomsRepo.cs:205-235 | an existing room that is not full admits the user |
| RoomCollection.LeaveRoomOutcome | Services/RoomService/Data/Repos/RoomsRepo.cs:250-278 | leaving pulls the user from the first room with the id and answers whether the user was listed |
| RoomCollection.LeaveRoomKeepsInvariant | Services/RoomService/Data/Repos/RoomsRepo.cs:250-278 | leaving keeps the store invariant |
| RoomCollection.LeaveRoomTwice | Services/RoomService/Data/Repos/RoomsRepo.cs:258-270 | a second leave answers false and changes nothing |
| RoomCollection.UpdatePlaybackStateOutcome | Services/RoomService/Data/Repos/RoomsRepo.cs:347-383 | only the first room with the id and that current video changes, and only position, pause flag and sync time |
| RoomCollection.StalePlaybackUpdateIgnored | Services/RoomService/Data/Repos/RoomsRepo.cs:353-356 | an update naming a video that is not the room's current one changes nothing and answers false |
| RoomCollection.UpdatePlaybackStateKeepsInvariant | Services/RoomService/Data/Repos/RoomsRepo.cs:347-383 | playback updates keep the store invariant |
| RoomCollection.UpdateCurrentVideoIdOutcome | Services/RoomService/Data/Repos/RoomsRepo.cs:599-631 | loading a video sets it, rewinds to 0, pauses, stamps the time, and changes nothing else |
| RoomCollection.UpdateCurrentVideoIdKeepsInvariant | Services/RoomService/Data/Repos/RoomsRepo.cs:599-631 | loading a video keeps the store invariant |
| RoomCollection.MakeRoomPrivateOutcome | Services/RoomService/Data/Repos/RoomsRepo.cs:472-509 | only a public room with the id changes; it becomes private with the new code, which is answered |
| RoomCollection.MakeRoomPublicOutcome | Services/RoomService/Data/Repos/RoomsRepo.cs:511-544 | only a private room with the id changes; it becomes public without a code |
| RoomCollection.GenerateNewRoomPassOutcome | Services/RoomService/Data/Repos/RoomsRepo.cs:75-111 | a private room with the id gets the new code; re-issuing its current code answers null |
| RoomCollection.PrivacyOperationsKeepInvariant | Services/RoomService/Data/Repos/RoomsRepo.cs:75-111 | the three privacy operations keep "a code exactly when private" and the rest of the invariant |
| RoomCollection.MakeRoomPrivateTwice | Services/RoomService/Data/Repos/RoomsRepo.cs:479-488 | with unique ids, a second make-private answers null and changes nothing |
| RoomCollection.MakeRoomPublicTwice | Services/RoomService/Data/Repos/RoomsRepo.cs:517-526 | with unique ids, a second make-public answers false and changes nothing |
| RoomCollection.GetAccessCodeOutcome | Services/RoomService/Data/Repos/RoomsRepo.cs:568-597 | null for a missing room or a private room asked by a non-host; otherwise the room's code, "" for a public room |
| RoomCollection.UpdateRoomOutcome | Services/RoomService/Data/Repos/RoomsRepo.cs:385-443 | only the first room matching id and host changes, and only the supplied name and capacity; nothing supplied or no match answers null |
| RoomCollection.UpdateRoomKeepsParticipantsAndPrivacy | Services/RoomService/Data/Repos/RoomsRepo.cs:385-443 | an update never touches participants or privacy |
| RoomCollection.UpdateRoomMayOverfill | Services/RoomService/Data/Repos/RoomsRepo.cs:385-443 | a lowered capacity is accepted even below the current participant count |
| RoomCollection.UpdateRoomMayDuplicateName | Services/RoomService/Data/Repos/RoomsRepo.cs:385-443 | a new name is accepted even when another room already has it |
| RoomStore.RoomsRepo.constructor | Services/RoomService/Data/Repos/RoomsRepo.cs:13-17 | the collection starts empty |
| RoomStore.RoomsRepo.FirstOrDefault | Services/RoomService/Data/Repos/RoomsRepo.cs:169 | answers the first stored room the filter matches |
| RoomStore.RoomsRepo.Any | Services/RoomService/Data/Repos/RoomsRepo.cs:291 | answers whether any stored room matches |
| RoomStore.RoomsRepo.ToList | Services/RoomService/Data/Repos/RoomsRepo.cs:136 | answers the matching rooms in order |
| RoomStore.RoomsRepo.InsertOne | Services/RoomService/Data/Repos/RoomsRepo.cs:35 | appends the room |
| RoomStore.RoomsRepo.UpdateOne | Services/RoomService/Data/Repos/RoomsRepo.cs:229-231 | updates the first match and answers whether it changed |
| RoomStore.RoomsRepo.FindOneAndUpdate | Services/RoomService/Data/Repos/RoomsRepo.cs:420-421 | updates the first match and answers the updated room |
| RoomStore.RoomsRepo.DeleteOne | Services/RoomService/Data/Repos/RoomsRepo.cs:55-57 | removes the first match and answers whether there was one |
| RoomStore.RoomsRepo.CreateRoom | Services/RoomService/Data/Repos/RoomsRepo.cs:19-45 | refuses exactly a taken name; otherwise appends; keeps the store invariant |
| RoomStore.RoomsRepo.DeleteRoom | Services/RoomService/Data/Repos/RoomsRepo.cs:47-73 | answers true exactly when a room has the id; keeps the invariant |
| RoomStore.RoomsRepo.GenerateNewRoomPass | Services/RoomService/Data/Repos/RoomsRepo.cs:75-111 | the answer, when there is one, is the new code; keeps the invariant |
| RoomStore.RoomsRepo.GetAllRooms | Services/RoomService/Data/Repos/RoomsRepo.cs:113-126 | answers every stored room |
| RoomStore.RoomsRepo.GetPrivateRooms | Services/RoomService/Data/Repos/RoomsRepo.cs:128-143 | answers exactly the private rooms |
| RoomStore.RoomsRepo.GetPublicRooms | Services/RoomService/Data/Repos/RoomsRepo.cs:145-159 | answers one page of the public rooms, at most `pageSize` of them |
| RoomStore.RoomsRepo.GetRoomById | Services/RoomService/Data/Repos/RoomsRepo.cs:161-178 | answers the first room with the id; none exactly when no room has it |
| RoomStore.RoomsRepo.GetRoomsByHost | Services/RoomService/Data/Repos/RoomsRepo.cs:180-195 | answers exactly the host's rooms |
| RoomStore.RoomsRepo.JoinRoom | Services/RoomService/Data/Repos/RoomsRepo.cs:197-248 | has the effect of `RoomCollection.JoinRoom`; keeps the invariant |
| RoomStore.RoomsRepo.LeaveRoom | Services/RoomService/Data/Repos/RoomsRepo.cs:250-278 | has the effect of `RoomCollection.LeaveRoom`; keeps the invariant |
| RoomStore.RoomsRepo.ValidateRoomPass | Services/RoomService/Data/Repos/RoomsRepo.cs:280-300 | true exactly when some room with the id carries the code |
| RoomStore.RoomsRepo.RoomExists | Services/RoomService/Data/Repos/RoomsRepo.cs:302-319 | true exactly when some room has the id |
| RoomStore.RoomsRepo.SearchRooms | Services/RoomService/Data/Repos/RoomsRepo.cs:321-345 | one page of the rooms whose name or host matches, each of them matching |
| RoomStore.RoomsRepo.UpdatePlaybackState | Services/RoomService/Data/Repos/RoomsRepo.cs:347-383 | has the effect of `RoomCollection.UpdatePlaybackState`; keeps the invariant |
| RoomStore.RoomsRepo.UpdateRoom | Services/RoomService/Data/Repos/RoomsRepo.cs:385-443 | has the effect of `RoomCollection.UpdateRoom`; an answered room has the requested id and host |
| RoomStore.RoomsRepo.IsRoomFull | Services/RoomService/Data/Repos/RoomsRepo.cs:445-470 | true only when a room with the id holds at least its capacity |
| RoomStore.RoomsRepo.MakeRoomPrivate | Services/RoomService/Data/Repos/RoomsRepo.cs:472-509 | the answer, when there is one, is the new code; keeps the invariant |
| RoomStore.RoomsRepo.MakeRoomPublic | Services/RoomService/Data/Repos/RoomsRepo.cs:511-544 | has the effect of `RoomCollection.MakeRoomPublic`; keeps the invariant |
| RoomStore.RoomsRepo.IsUserInRoom | Services/RoomService/Data/Repos/RoomsRepo.cs:546-566 | true exactly when some room with the id lists the user |
| RoomStore.RoomsRepo.GetAccessCode | Services/RoomService/Data/Repos/RoomsRepo.cs:568-597 | an answered code belongs to a stored room with the id |
| RoomStore.RoomsRepo.UpdateCurrentVideoId | Services/RoomService/Data/Repos/RoomsRepo.cs:599-631 | has the effect of `RoomCollection.UpdateCurrentVideoId`; keeps the invariant |
| RoomsServices.DtoHidesOnlyAccessCode | Services/RoomService/Core/Services/RoomsServices.cs:723-753 | two rooms have the same DTO exactly when they differ at most in their access code |
| RoomsServices.GenerateRandomAccessCode | Services/RoomService/Core/Services/RoomsServices.cs:698-703 | a code is six upper-case hex digits, the GUID's first six up to case, never blank |
| RoomsServices.RoomFromRequest | Services/RoomService/Core/Services/RoomsServices.cs:40-51 | the new room has the request's name, host, capacity and privacy, no participants, playback at rest, and a six-digit code exactly when private |
| RoomsServices.NewRoomName | Services/RoomService/Core/Services/RoomsServices.cs:577 | no name for a blank one; otherwise the name with the white space at both ends cut off, non-empty and with no white space at either end |
| RoomsServices.NewMaxOccupancy | Services/RoomService/Core/Services/RoomsServices.cs:578 | a capacity is passed on exactly when positive |
| RoomsServices.RoomsServices.constructor | Services/RoomService/Core/Services/RoomsServices.cs:15-19 | holds the repository |
| RoomsServices.RoomsServices.CreateRoom | Services/RoomService/Core/Services/RoomsServices.cs:21-71 | success exactly for a non-blank name and host, a positive capacity and a free name; then the stored room is built from the request |
| RoomsServices.RoomsServices.DeleteRoom | Services/RoomService/Core/Services/RoomsServices.cs:73-97 | success exactly when the id is non-blank and stored |
| RoomsServices.RoomsServices.GenerateNewRoomPass | Services/RoomService/Core/Services/RoomsServices.cs:99-127 | a success carries the freshly generated code |
| RoomsServices.RoomsServices.GetAccessCode | Services/RoomService/Core/Services/RoomsServices.cs:129-154 | under the store invariant a success is the code of a private room asked by its host |
| RoomsServices.RoomsServices.GetAllRooms | Services/RoomService/Core/Services/RoomsServices.cs:156-178 | always succeeds with every room's DTO |
| RoomsServices.RoomsServices.GetPrivateRooms | Services/RoomService/Core/Services/RoomsServices.cs:180-202 | succeeds with exactly the private rooms' DTOs |
| RoomsServices.RoomsServices.GetPublicRooms | Services/RoomService/Core/Services/RoomsServices.cs:204-232 | rejects a page or size below 1; otherwise one page of public rooms only |
| RoomsServices.RoomsServices.GetRoomById | Services/RoomService/Core/Services/RoomsServices.cs:234-261 | success carries the room with that id; failure on a non-blank id means no room has it |
| RoomsServices.RoomsServices.GetRoomsByHost | Services/RoomService/Core/Services/RoomsServices.cs:263-288 | succeeds with exactly the host's rooms |
| RoomsServices.RoomsServices.IsRoomFull | Services/RoomService/Core/Services/RoomsServices.cs:290-319 | answers whether the first room with the id is at capacity |
| RoomsServices.RoomsServices.IsUserInRoom | Services/RoomService/Core/Services/RoomsServices.cs:321-349 | answers true exactly when some room with the id lists the user |
| RoomsServices.RoomsServices.JoinRoom | Services/RoomService/Core/Services/RoomsServices.cs:351-378 | has the store's join effect; success exactly when the store admits; keeps the invariant |
| RoomsServices.RoomsServices.LeaveRoom | Services/RoomService/Core/Services/RoomsServices.cs:380-406 | has the store's leave effect; success exactly when the user was listed |
| RoomsServices.RoomsServices.MakeRoomPrivate | Services/RoomService/Core/Services/RoomsServices.cs:408-436 | a success carries the freshly generated code; keeps the invariant |
| RoomsServices.RoomsServices.MakeRoomPublic | Services/RoomService/Core/Services/RoomsServices.cs:438-462 | has the store's make-public effect; keeps the invariant |
| RoomsServices.RoomsServices.RoomExists | Services/RoomService/Core/Services/RoomsServices.cs:464-491 | answers true exactly when some room has the id |
| RoomsServices.RoomsServices.SearchRooms | Services/RoomService/Core/Services/RoomsServices.cs:493-517 | rejects a blank term; otherwise one page of matching rooms, each matching |
| RoomsServices.RoomsServices.UpdatePlaybackState | Services/RoomService/Core/Services/RoomsServices.cs:519-549 | rejects blank room or video ids; otherwise the store's playback effect |
| RoomsServices.RoomsServices.UpdateRoom | Services/RoomService/Core/Services/RoomsServices.cs:551-602 | a success is the room with the requested id and host, with the requested capacity when positive |
| RoomsServices.RoomsServices.ValidateRoomPass | Services/RoomService/Core/Services/RoomsServices.cs:604-627 | success exactly when some room with the id carries the code |
| RoomsServices.RoomsServices.UpdateCurrentVideoId | Services/RoomService/Core/Services/RoomsServices.cs:629-660 | a blank video id unloads the video; otherwise the store's load effect; keeps the invariant |
| RoomsServices.RoomsServices.GetPlaybackStateForRoom | Services/RoomService/Core/Services/RoomsServices.cs:662-696 | the playback part of the first room with the id, or "Room not found" |
| RoomGrpc.RoomGrpcService.constructor | Services/RoomService/Core/Grpc/RoomGrpcService.cs:16-20 | holds the room service |
| RoomGrpc.RoomGrpcService.CreateRoom | Services/RoomService/Core/Grpc/RoomGrpcService.cs:22-95 | invalid arguments before the store is touched; otherwise the created room on the wire or `Internal` |
| RoomGrpc.RoomGrpcService.DeleteRoom | Services/RoomService/Core/Grpc/RoomGrpcService.cs:97-134 | an empty id is `InvalidArgument`; a blank one is `Internal`; otherwise the delete effect |
| RoomGrpc.RoomGrpcService.GetPublicRooms | Services/RoomService/Core/Grpc/RoomGrpcService.cs:136-187 | the page size is capped at 100; only public rooms; the count is the page's length |
| RoomGrpc.RoomGrpcService.GenerateNewRoomPass | Services/RoomService/Core/Grpc/RoomGrpcService.cs:189-223 | a reply is six upper-case hex digits, the code now stored |
| RoomGrpc.RoomGrpcService.GetAccessCode | Services/RoomService/Core/Grpc/RoomGrpcService.cs:225-259 | replies the room's non-blank code for its host; otherwise `Internal` |
| RoomGrpc.RoomGrpcService.GetRoomById | Services/RoomService/Core/Grpc/RoomGrpcService.cs:261-310 | replies the first room with the id on the wire, or `Internal` "Room not found" |
| RoomGrpc.RoomGrpcService.UpdateRoom | Services/RoomService/Core/Grpc/RoomGrpcService.cs:312-372 | a reply is the updated room with the requested id and host |
| RoomGrpc.RoomGrpcService.JoinRoom | Services/RoomService/Core/Grpc/RoomGrpcService.cs:374-409 | replies true exactly when the store admits the user; keeps the invariant |
| RoomGrpc.RoomGrpcService.LeaveRoom | Services/RoomService/Core/Grpc/RoomGrpcService.cs:411-446 | replies true exactly when the user was listed; keeps the invariant |
| RoomGrpc.RoomGrpcService.GetRoomsByHost | Services/RoomService/Core/Grpc/RoomGrpcService.cs:448-502 | replies exactly the host's rooms |
| RoomGrpc.RoomGrpcService.IsRoomFull | Services/RoomService/Core/Grpc/RoomGrpcService.cs:504-538 | replies whether the first room with the id is at capacity |
| RoomGrpc.RoomGrpcService.IsUserInRoom | Services/RoomService/Core/Grpc/RoomGrpcService.cs:540-574 | replies whether some room with the id lists the user |
| RoomGrpc.RoomGrpcService.MakeRoomPrivate | Services/RoomService/Core/Grpc/RoomGrpcService.cs:576-611 | replies success with the new code exactly when a public room with the id became private |
| RoomGrpc.RoomGrpcService.MakeRoomPublic | Services/RoomService/Core/Grpc/RoomGrpcService.cs:613-646 | replies true exactly when a private room with the id became public |
| RoomGrpc.RoomGrpcService.RoomExists | Services/RoomService/Core/Grpc/RoomGrpcService.cs:648-681 | replies whether some room has the id |
| RoomGrpc.RoomGrpcService.UpdateCurrentVideoId | Services/RoomService/Core/Grpc/RoomGrpcService.cs:683-718 | the load-video effect; keeps the invariant |
| RoomGrpc.RoomGrpcService.UpdatePlaybackState | Services/RoomService/Core/Grpc/RoomGrpcService.cs:720-755 | the playback effect; keeps the invariant |
| RoomGrpc.RoomGrpcService.GetPlaybackState | Services/RoomService/Core/Grpc/RoomGrpcService.cs:757-804 | the room's playback state on the wire; the `NotFound` status is never produced |
| RoomGrpc.RoomGrpcService.ValidateRoomPass | Services/RoomService/Core/Grpc/RoomGrpcService.cs:806-839 | every reply says true; a wrong code is `Internal` "Invalid access code" |
| RoomGrpc.RoomGrpcService.SearchRoom | Services/RoomService/Core/Grpc/RoomGrpcService.cs:841-901 | a page of at most 100 matching rooms |
| RoomSync.RpcExceptionMessage | Services/SyncService/Core/Services/RoomSyncService.cs:1021-1025 | an exception message starts with "Status(" and ends with ")" |
| RoomSync.Unwrap | Services/SyncService/Core/Services/RoomSyncService.cs:1023-1025 | unwrapping leaves no ")" |
| RoomSync.SpellOutStatusNames | Services/SyncService/Core/Services/RoomSyncService.cs:1026-1031 | spelling out status names brings no ")" back |
| RoomSync.TranslateRpcErrorMessage | Services/SyncService/Core/Services/RoomSyncService.cs:1021-1040 | the readable message has no ")", no white space at either end and no two adjacent white spaces |
| RoomSync.RoomSyncService.constructor | Services/SyncService/Core/Services/RoomSyncService.cs:16-20 | holds the gRPC client |
| RoomSync.RoomSyncService.CreateRoom | Services/SyncService/Core/Services/RoomSyncService.cs:22-86 | blank name or host refused before the call; otherwise the room service's creation, answered on the wire |
| RoomSync.RoomSyncService.GetRoomById | Services/SyncService/Core/Services/RoomSyncService.cs:291-342 | a success is the room with the id |
| RoomSync.RoomSyncService.DeleteRoom | Services/SyncService/Core/Services/RoomSyncService.cs:88-140 | only the room's host or an administrator deletes; anyone else leaves the store unchanged |
| RoomSync.RoomSyncService.GenerateNewRoomPass | Services/SyncService/Core/Services/RoomSyncService.cs:142-193 | only the host gets a new code; a success carries the code now stored |
| RoomSync.RoomSyncService.GetAccessCode | Services/SyncService/Core/Services/RoomSyncService.cs:195-236 | the room's non-blank code for its host, otherwise a failure |
| RoomSync.RoomSyncService.GetPublicRooms | Services/SyncService/Core/Services/RoomSyncService.cs:238-289 | at most 100 rooms, all public; an empty page is still a success |
| RoomSync.RoomSyncService.GetRoomsByHost | Services/SyncService/Core/Services/RoomSyncService.cs:344-391 | exactly the host's rooms |
| RoomSync.RoomSyncService.IsRoomFull | Services/SyncService/Core/Services/RoomSyncService.cs:393-423 | whether the first room with the id is at capacity |
| RoomSync.RoomSyncService.IsUserInRoom | Services/SyncService/Core/Services/RoomSyncService.cs:425-464 | true exactly when some room with the id lists the user |
| RoomSync.RoomSyncService.JoinRoom | Services/SyncService/Core/Services/RoomSyncService.cs:466-515 | the store's join effect; success exactly when admitted; keeps the invariant |
| RoomSync.RoomSyncService.LeaveRoom | Services/SyncService/Core/Services/RoomSyncService.cs:517-556 | the store's leave effect; keeps the invariant |
| RoomSync.RoomSyncService.MakeRoomPrivate | Services/SyncService/Core/Services/RoomSyncService.cs:558-617 | only the host makes the room private; keeps the invariant |
| RoomSync.RoomSyncService.MakeRoomPublic | Services/SyncService/Core/Services/RoomSyncService.cs:619-673 | only the host makes the room public; keeps the invariant |
| RoomSync.RoomSyncService.RoomExists | Services/SyncService/Core/Services/RoomSyncService.cs:675-711 | true exactly when some room has the id |
| RoomSync.RoomSyncService.SearchRooms | Services/SyncService/Core/Services/RoomSyncService.cs:713-772 | a success holds at most 100 matching rooms; an empty result is a failure with an empty list |
| RoomSync.RoomSyncService.UpdateCurrentVideoId | Services/SyncService/Core/Services/RoomSyncService.cs:774-827 | only the host loads a video; keeps the invariant |
| RoomSync.RoomSyncService.UpdatePlaybackState | Services/SyncService/Core/Services/RoomSyncService.cs:829-872 | a negative position is refused; otherwise the store's playback effect; keeps the invariant |
| RoomSync.RoomSyncService.GetPlaybackStateForRoom | Services/SyncService/Core/Services/RoomSyncService.cs:874-916 | the first room's playback state, with no video read as "" |
| RoomSync.RoomSyncService.UpdateRoom | Services/SyncService/Core/Services/RoomSyncService.cs:925-978 | a success is the room with the requested id and host; every refusal has one message |
| RoomSync.RoomSyncService.ValidateRoomPass | Services/SyncService/Core/Services/RoomSyncService.cs:980-1019 | success exactly when some room with the id carries the code, and then the data is true |
| RoomHub.RoomSyncHub.constructor | Services/SyncService/Hubs/RoomSyncHub.cs:12-18 | no connections, groups or messages yet |
| RoomHub.RoomSyncHub.JoinRoom | Services/SyncService/Hubs/RoomSyncHub.cs:20-63 | registers the connection and its group, announces the user, records the join; on success sends the unchanged playback state to the caller, otherwise throws |
| RoomHub.RoomSyncHub.Register | Services/SyncService/Hubs/RoomSyncHub.cs:26-32 | the connection is recorded as declared, joins the room's group, and the whole group, the newcomer included, is told who joined |
| RoomHub.RoomSyncHub.SendPlayback | Services/SyncService/Hubs/RoomSyncHub.cs:48-55 | for a stored room, the caller alone receives its video, position and pause flag; nothing else changes |
| RoomHub.RoomSyncHub.HostSetVideo | Services/SyncService/Hubs/RoomSyncHub.cs:65-91 | a non-host changes nothing and throws; a host's video reaches the whole group, rewound and paused |
| RoomHub.RoomSyncHub.UpdatePlaybackState | Services/SyncService/Hubs/RoomSyncHub.cs:93-120 | a non-host is ignored; a host's position reaches every other member |
| RoomHub.RoomSyncHub.OnDisconnected | Services/SyncService/Hubs/RoomSyncHub.cs:122-156 | a known connection is forgotten, leaves the room and group, and the group hears of it, and of the host leaving; an unknown one changes nothing |
| JwtParser.ToBase64Alphabet | client/WatchPartyClient/Utilities/JwtParser.cs:36 | '-' and '_' become '+' and '/', every other character stays |
| JwtParser.PadBase64 | client/WatchPartyClient/Utilities/JwtParser.cs:28-37 | the result's length is a multiple of 4, it holds no '-' or '_', and it is the mapped input followed by `(4 - len % 4) % 4` '=' |
| JwtParser.RepadPayload | client/WatchPartyClient/Utilities/JwtParser.cs:62-70 | equal to `PadBase64` unless the length is 1 mod 4, where no padding is added |
| JwtParser.ParsePayload | client/WatchPartyClient/Utilities/JwtParser.cs:8-26 | a decoded payload requires a non-empty token with exactly two dots |
| JwtParser.FirstPresent | client/WatchPartyClient/Utilities/JwtParser.cs:83-91 | the key found is present and no earlier key is; none exactly when no key is present |
| JwtParser.CaughtString | client/WatchPartyClient/Utilities/JwtParser.cs:85-99 | a value exactly for a JSON string |
| JwtParser.GetUserId | client/WatchPartyClient/Utilities/JwtParser.cs:51-100 | an id requires a non-blank token with exactly two dots; `UndecodableIsExpired` gives none for a payload that is not a JSON object |
| JwtParser.GetRole | client/WatchPartyClient/Utilities/JwtParser.cs:146-165 | no payload gives no role; a payload that is not an object throws; a role is the string of one of the three role claims |
| JwtParser.IsAnon | client/WatchPartyClient/Utilities/JwtParser.cs:39-43 | throws exactly when reading the role throws; with no role it is true; with a role it is true exactly when the role is blank or "Anon", ignoring the case of ASCII letters |
| JwtParser.IsUser | client/WatchPartyClient/Utilities/JwtParser.cs:45-49 | throws exactly when reading the role throws; true exactly when a role is present and is "User", ignoring the case of ASCII letters |
| JwtParser.GetUsername | client/WatchPartyClient/Utilities/JwtParser.cs:135-144 | the user name is exactly the "Username" string claim; no payload, no such claim or a null claim give null; a payload that is not an object or a claim that is not a string throw |
| JwtParser.ClaimString | client/WatchPartyClient/Utilities/JwtParser.cs:137-143 | a returned value is the claim's JSON string, and a string claim is always returned; no payload, an absent claim or a null claim give null; a payload that is not an object, or a claim that is neither string nor null, throws |
| JwtParser.GetRoomId | client/WatchPartyClient/Utilities/JwtParser.cs:184-193 | the room id is exactly the "CurrentRoomId" string claim; no payload, no such claim or a null claim give null; a payload that is not an object or a claim that is not a string throw |
| JwtParser.GetAnonUserId | client/WatchPartyClient/Utilities/JwtParser.cs:167-182 | an anonymous id needs the role "Anon", ignoring the case of ASCII letters, and is the "AnonUserID" string claim; conversely, with that role and that string claim the id is returned; with no role or another role it is null; it throws when reading the role throws; with the role "Anon" it reads "AnonUserID" as `ClaimString` does, so an absent or null claim gives null and a non-string one throws |
| JwtParser.IsTokenExpired | client/WatchPartyClient/Utilities/JwtParser.cs:102-107 | a token without exactly two dots is expired |
| JwtParser.UndecodableIsExpired | client/WatchPartyClient/Utilities/JwtParser.cs:118-131 | a three-part token whose payload fails to decode, or is not a JSON object, is expired and has no user id |
| JwtParser.BadExpIsExpired | client/WatchPartyClient/Utilities/JwtParser.cs:121-131 | an "exp" that is not a 64-bit integer makes the token expired |
| JwtParser.SplitCompactToken | client/WatchPartyClient/Utilities/JwtParser.cs:12-13 | a token of three dot-free parts splits back into them and is not blank |
| JwtParser.ParsePayloadOfCompactToken | client/WatchPartyClient/Utilities/JwtParser.cs:8-26 | the payload read from such a token is the decoded, re-padded middle part |
| JwtParser.GetUserIdClaimPriority | client/WatchPartyClient/Utilities/JwtParser.cs:76-93 | the id comes from "UserID", else the name-identifier claim, else "sub", else none |
| JwtParser.GetRoleClaimPriority | client/WatchPartyClient/Utilities/JwtParser.cs:152-164 | the role comes from "role", else "Role", else the role-claim URI, else none |
| JwtParser.AnonAndUserExclusive | client/WatchPartyClient/Utilities/JwtParser.cs:39-49 | no token is both anonymous and a user's |
| JwtParser.RoleClaimDecidesKind | client/WatchPartyClient/Utilities/JwtParser.cs:39-49 | for a token whose only claim is "role" set to a string, `IsUser` is true exactly when it is "User" and `IsAnon` exactly when it is blank or "Anon", in any ASCII case |
| JwtParser.UserIsNotBlank | client/WatchPartyClient/Utilities/JwtParser.cs:45-49 | a role equal to "User" in any ASCII case is not blank, so the blank test in `IsUser` never decides |
| JwtParser.AnonUserIdOnlyForAnon | client/WatchPartyClient/Utilities/JwtParser.cs:167-182 | a token that yields an anonymous id is anonymous and not a user's |
| JwtParser.NoRoleIsAnon | client/WatchPartyClient/Utilities/JwtParser.cs:39-43 | a decodable token with no role claim is anonymous and not a user's |
| JwtParser.ExpiryIsMonotonic | client/WatchPartyClient/Utilities/JwtParser.cs:121-126 | an expired token stays expired as time goes on |
| JwtParser.ExpiryComparesExp | client/WatchPartyClient/Utilities/JwtParser.cs:121-126 | with a 64-bit "exp", the token has expired exactly when `exp < now` |
| JwtParser.NoExpNeverExpires | client/WatchPartyClient/Utilities/JwtParser.cs:121-127 | a well-formed token without "exp" never expires |

## Left out

- Concurrency is left out: async/await, cancellation tokens, and the check-then-act gap in `JoinRoomAsync` between reading the room and pushing the user. Every operation is one atomic step.
- Logging is left out, and so is the client-side `Console.WriteLine`.
- MongoDB is left out. The `Rooms` collection is an in-memory sequence, and there is no `_id`/`Id` field, which nothing in the core reads.
- Case-insensitive regular-expression matching is left out. It is the parameter `isMatch`.
- Exceptions the store or the driver might throw are left out, and so are the `Error(...)` results the layers build from them. Only the `RpcException` path between sync service and room service is modelled.
- Null request objects and null strings are left out. The unreachable `result == null` branches are left out too, since the layer below never returns null.
- Instants are clock readings of type `int`. `DateTime` and its arithmetic are not modelled.
- `RoomsRepo.GenerateRandomAccessCode` is not modelled because no core caller uses it; the services' copy is.
- Base64 decoding and JSON parsing are left out. They are the parameter `decode`: a failure is `None` and a non-object root is `NotObject`. JSON numbers are `JInteger` or `JOther`; duplicate keys are not modelled.
- RoomStore.RoomsRepo.GetPublicRooms: requires page >= 1 and pageSize >= 1, which every caller checks first. The driver's behaviour for a negative skip is not modelled.
- RoomStore.RoomsRepo.SearchRooms: requires page >= 1 and pageSize >= 1 for the same reason.
- RoomsServices.RoomsServices.SearchRooms: requires page >= 1 and pageSize >= 1. The gRPC handler checks both before calling it.
- RoomCollection.Page: uses the intended skip `(page - 1) * pageSize` as an unbounded integer. The repository computes it in unchecked 32-bit arithmetic, which wraps for large pages (see "## Findings"). So for such pages the model does not capture what `RoomsRepo.GetPublicRooms` and `RoomsRepo.SearchRooms` return, and through them `RoomsServices.GetPublicRooms`, `RoomsServices.SearchRooms`, `RoomGrpcService.GetPublicRooms`, `RoomGrpcService.SearchRoom`, `RoomSyncService.GetPublicRooms` and `RoomSyncService.SearchRooms`. A wrapped skip may be small, returning the wrong page, or negative, making the driver throw.
- Playback positions (`double` in the source) are modelled as `real`. NaN and the two infinities are not modelled. A NaN position would pass the `position < 0` check in `RoomSyncService.UpdatePlaybackState` and be stored.
- RoomCollection.MakeRoomPrivateTwice: assumes unique room ids. With a duplicate id, a second call can reach another room of the same id.
- RoomCollection.MakeRoomPublicTwice: assumes unique room ids, for the same reason.
- Text.ToUpperInvariant: folds only the ASCII letters a-z. .NET's invariant upper-casing covers all of Unicode, and some non-ASCII letters map onto ASCII capitals.
- Text.EqualsIgnoreCase: stands for `StringComparison.OrdinalIgnoreCase` with ASCII folding only. So `IsAnon`, `IsUser` and `GetAnonUserId` may disagree with the source on a role spelled with such non-ASCII letters.
- The hub is modelled as one object. `Context.ConnectionId` is a parameter, and group membership is the `groups` map.
- SignalR delivery is left out: `sent` lists resolved recipient sets rather than delivering. When a connection drops, the model removes it only from the group of the room it last joined; SignalR removes it from every group it belonged to.
- The `client/WatchPartyClient` user interface and services other than `JwtParser` are not part of this model.

## Findings

| source | as written | input that shows it | evidently intended | confidence | as-written member | corrected member |
|---|---|---|---|---|---|---|
| Services/RoomService/Data/Repos/RoomsRepo.cs:152 | the skip `(page - 1) * pageSize` (here and at line 334) is unchecked 32-bit `int` arithmetic; the gRPC handlers check only `page >= 1` and cap the size at 100 | page 42949674, size 100: the skip wraps to 4 instead of 4294967300; page 21474838, size 100: the skip wraps to -2147483596 | skip exactly `(page - 1) * pageSize` documents, so a page past the end is empty | not executed | RoomCollection.SkipAsWritten (with RoomCollection.SkipWrapsToFour, RoomCollection.SkipWrapsNegative) | RoomCollection.Page |

=== FILE: jwt_parser.dfy ===
/**
 * `JwtParser`, the client's reader of its own access token. A token in the
 * JWS compact serialisation (section 7.1 of RFC 7515) is three parts joined
 * by '.'; the middle one is the payload, in base64url without padding
 * (section 5 of RFC 4648). The parser re-pads the payload, maps it to the
 * standard base64 alphabet, decodes it to a JSON object and reads claims
 * from it.
 *
 * Base64 decoding and JSON parsing are the parameter `decode`: it gives the
 * payload's top-level value, or `None` when either step fails.
 */
module JwtParser {
  import opened Wrappers
  import opened Text

  /** A claim's JSON value, as far as the parser tells values apart. */
  datatype JsonValue =
    | JString(s: string)
    | JInteger(n: int)
    | JNull
    | JOther   // a fraction, a boolean, an object or an array

  /** The decoded payload: an object with its properties, or some other JSON value. */
  datatype Payload = Object(claims: map<string, JsonValue>) | NotObject

  type Decoder = string -> Option<Payload>

  /** How a call ends: with a value, or with an exception the parser does not catch. */
  datatype Outcome<T> = Returns(value: T) | Throws

  const Int64Min := -0x8000_0000_0000_0000
  const Int64Max := 0x7FFF_FFFF_FFFF_FFFF

  /** The claims that may carry the user id, in the order they are tried. */
  const IdClaims := ["UserID", "http://schemas.xmlsoap.org/ws/2005/05/identity/claims/nameidentifier", "sub"]

  /** The claims that may carry the role, in the order they are tried. */
  const RoleClaims := ["role", "Role", "http://schemas.microsoft.com/ws/2008/06/identity/claims/role"]

  /** The base64url alphabet's two letters mapped to those of base64: '-' to '+', '_' to '/'. */
  function ToBase64Alphabet(s: string): (r: string)
    ensures |r| == |s| && '-' !in r && '_' !in r
    ensures forall i :: 0 <= i < |s| && s[i] != '-' && s[i] != '_' ==> r[i] == s[i]
  {
    ReplaceChar(ReplaceChar(s, '-', '+'), '_', '/')
  }

  function Padding(n: nat): (r: string)
    ensures |r| == n && forall i :: 0 <= i < n ==> r[i] == '='
  {
    seq(n, _ => '=')
  }

  /**
   * `PadBase64`: pads to a whole number of four-character groups, then maps
   * the alphabet.
   */
  function PadBase64(base64: string): (r: string)
    ensures |r| % 4 == 0
    ensures '-' !in r && '_' !in r
    ensures r == ToBase64Alphabet(base64) + Padding((4 - |base64| % 4) % 4)
  {
    var padded :=
      if |base64| % 4 == 2 then base64 + "=="
      else if |base64| % 4 == 3 then base64 + "="
      else if |base64| % 4 == 1 then base64 + "==="
      else base64;
    var r := ToBase64Alphabet(padded);
    assert padded == base64 + Padding((4 - |base64| % 4) % 4);
    assert r == ToBase64Alphabet(base64) + Padding((4 - |base64| % 4) % 4);
    r
  }

  /**
   * The payload as `GetUserId` and `IsTokenExpired` prepare it: the alphabet
   * is mapped first, and padding is added only for a remainder of 2 or 3.
   */
  function RepadPayload(payload: string): (r: string)
    ensures |payload| % 4 != 1 ==> r == PadBase64(payload)
    ensures |payload| % 4 == 1 ==> r == ToBase64Alphabet(payload) && |r| % 4 == 1
  {
    var mapped := ToBase64Alphabet(payload);
    if |mapped| % 4 == 2 then mapped + "=="
    else if |mapped| % 4 == 3 then mapped + "="
    else mapped
  }

  /** `ParsePayload`: the decoded middle part of a three-part token. */
  function ParsePayload(jwt: string, decode: Decoder): (r: Option<Payload>)
    ensures r.Some? ==> jwt != [] && Count(jwt, '.') == 2
  {
    if jwt == [] then None
    else
      var parts := Split(jwt, '.');
      if |parts| != 3 then None else decode(PadBase64(parts[1]))
  }

  /**
   * The position of the first key the object has, if any: the order in
   * which a `foreach` over the keys tries `TryGetProperty`.
   */
  function FirstPresent(claims: map<string, JsonValue>, keys: seq<string>): (at: Option<nat>)
    ensures at.Some? ==> at.value < |keys| && keys[at.value] in claims
    ensures at.Some? ==> forall j :: 0 <= j < at.value ==> keys[j] !in claims
    ensures at.None? <==> forall j :: 0 <= j < |keys| ==> keys[j] !in claims
    decreases |keys|
  {
    if keys == [] then None
    else if keys[0] in claims then Some(0)
    else
      match FirstPresent(claims, keys[1..])
      case None => None
      case Some(k) => Some(k + 1)
  }

  /** `JsonElement.GetString()`: a string, null for JSON null, an exception otherwise. */
  function GetString(v: JsonValue): Outcome<Option<string>> {
    match v
    case JString(s) => Returns(Some(s))
    case JNull => Returns(None)
    case _ => Throws
  }

  /** `JsonElement.GetInt64()`: an integer within 64 bits, an exception otherwise. */
  function GetInt64(v: JsonValue): Outcome<int> {
    if v.JInteger? && Int64Min <= v.n <= Int64Max then Returns(v.n) else Throws
  }

  /** `GetString()` inside a `try` whose `catch` gives null: only a JSON string has a value. */
  function CaughtString(v: JsonValue): (r: Option<string>)
    ensures r.Some? <==> v.JString?
    ensures r.Some? ==> GetString(v) == Returns(r)
  {
    match GetString(v)
    case Returns(s) => s
    case Throws => None
  }

  /** The string in the first of `keys` the object has; an exception counts as no value. */
  function FirstClaimString(claims: map<string, JsonValue>, keys: seq<string>): Option<string> {
    match FirstPresent(claims, keys)
    case None => None
    case Some(i) => CaughtString(claims[keys[i]])
  }

  /**
   * `GetUserId`: the first of "UserID", the name-identifier claim and "sub"
   * the token carries. Every exception is caught and yields no id.
   */
  function GetUserId(jwt: string, decode: Decoder): (r: Option<string>)
    ensures r.Some? ==> !IsBlank(jwt) && Count(jwt, '.') == 2
  {
    if IsBlank(jwt) then None
    else
      var parts := Split(jwt, '.');
      if |parts| != 3 then None
      else
        match decode(RepadPayload(parts[1]))
        case None => None
        case Some(NotObject) => None
        case Some(Object(claims)) => FirstClaimString(claims, IdClaims)
  }

  /**
   * `GetRole`: the first of "role", "Role" and the role claim the token
   * carries. A payload that is not an object, or a role that is not a string,
   * makes the lookup throw.
   */
  function GetRole(jwt: string, decode: Decoder): (r: Outcome<Option<string>>)
    ensures ParsePayload(jwt, decode).None? ==> r == Returns(None)
    ensures ParsePayload(jwt, decode) == Some(NotObject) ==> r == Throws
    ensures r.Returns? && r.value.Some? ==> exists i :: 0 <= i < |RoleClaims| && CarriesString(jwt, decode, RoleClaims[i], r.value.value)
  {
    match ParsePayload(jwt, decode)
    case None => Returns(None)
    case Some(NotObject) => Throws
    case Some(Object(claims)) =>
      match FirstPresent(claims, RoleClaims)
      case None => Returns(None)
      case Some(i) => GetString(claims[RoleClaims[i]])
  }

  /** The token's role claim is present and equals `name` up to the case of ASCII letters. */
  predicate HasRole(jwt: string, decode: Decoder, name: string)
  {
    var role := GetRole(jwt, decode);
    role.Returns? && role.value.Some? && EqualsIgnoreCase(role.value.value, name)
  }

  /**
   * `IsAnon`: a token without a role, with a blank role, or with the role
   * "Anon" up to the case of ASCII letters, is anonymous.
   */
  function IsAnon(jwt: string, decode: Decoder): (r: Outcome<bool>)
    ensures r.Throws? <==> GetRole(jwt, decode).Throws?
    ensures GetRole(jwt, decode) == Returns(None) ==> r == Returns(true)
    ensures forall s :: GetRole(jwt, decode) == Returns(Some(s)) ==> r == Returns(IsBlank(s) || EqualsIgnoreCase(s, "Anon"))
  {
    match GetRole(jwt, decode)
    case Throws => Throws
    case Returns(role) => Returns(role.None? || IsBlank(role.value) || EqualsIgnoreCase(role.value, "Anon"))
  }

  /** `IsUser`: the token's role is "User" up to the case of ASCII letters. */
  function IsUser(jwt: string, decode: Decoder): (r: Outcome<bool>)
    ensures r.Throws? <==> GetRole(jwt, decode).Throws?
    ensures r == Returns(true) <==> HasRole(jwt, decode, "User")
  {
    match GetRole(jwt, decode)
    case Throws => Throws
    case Returns(None) => Returns(false)
    case Returns(Some(role)) =>
      UserIsNotBlank(role);
      Returns(!IsBlank(role) && EqualsIgnoreCase(role, "User"))
  }

  /** A role that matches "User" is not blank, so the blank test in `IsUser` never decides. */
  lemma UserIsNotBlank(role: string)
    ensures EqualsIgnoreCase(role, "User") ==> !IsBlank(role)
  {
    if EqualsIgnoreCase(role, "User") {
      assert ToUpperInvariant(role[0]) == ToUpperInvariant("User"[0]) == 'U';
    }
  }

  const RoomIdClaim := "CurrentRoomId"

  /** The token decodes to an object whose claim `key` is the JSON string `s`. */
  predicate CarriesString(jwt: string, decode: Decoder, key: string, s: string) {
    var p := ParsePayload(jwt, decode);
    p.Some? && p.value.Object? && key in p.value.claims && p.value.claims[key] == JString(s)
  }

  /** The token decodes to an object without the claim `key`. */
  predicate LacksClaim(jwt: string, decode: Decoder, key: string) {
    var p := ParsePayload(jwt, decode);
    p.Some? && p.value.Object? && key !in p.value.claims
  }

  /** The token decodes to an object whose claim `key` is JSON null. */
  predicate NullClaim(jwt: string, decode: Decoder, key: string) {
    var p := ParsePayload(jwt, decode);
    p.Some? && p.value.Object? && key in p.value.claims && p.value.claims[key] == JNull
  }

  /** The token decodes to an object whose claim `key` is neither a string nor null. */
  predicate NonStringClaim(jwt: string, decode: Decoder, key: string) {
    var p := ParsePayload(jwt, decode);
    p.Some? && p.value.Object? && key in p.value.claims && (p.value.claims[key].JInteger? || p.value.claims[key].JOther?)
  }

  /**
   * A string claim of the payload, as `GetUsername`, `GetRoomId` and
   * `GetAnonUserId` read it: no payload, no claim or a null claim give null;
   * a payload that is not an object, or a claim that is not a string, throw.
   */
  function ClaimString(jwt: string, decode: Decoder, key: string): (r: Outcome<Option<string>>)
    ensures ParsePayload(jwt, decode).None? ==> r == Returns(None)
    ensures ParsePayload(jwt, decode) == Some(NotObject) ==> r == Throws
    ensures LacksClaim(jwt, decode, key) || NullClaim(jwt, decode, key) ==> r == Returns(None)
    ensures NonStringClaim(jwt, decode, key) ==> r == Throws
    ensures r.Returns? && r.value.Some? ==> CarriesString(jwt, decode, key, r.value.value)
    ensures forall s :: CarriesString(jwt, decode, key, s) ==> r == Returns(Some(s))
  {
    match ParsePayload(jwt, decode)
    case None => Returns(None)
    case Some(NotObject) => Throws
    case Some(Object(claims)) => if key in claims then GetString(claims[key]) else Returns(None)
  }

  function GetUsername(jwt: string, decode: Decoder): (r: Outcome<Option<string>>)
    ensures r.Returns? && r.value.Some? ==> CarriesString(jwt, decode, "Username", r.value.value)
    ensures forall s :: CarriesString(jwt, decode, "Username", s) ==> r == Returns(Some(s))
    ensures ParsePayload(jwt, decode).None? || LacksClaim(jwt, decode, "Username") || NullClaim(jwt, decode, "Username") ==> r == Returns(None)
    ensures ParsePayload(jwt, decode) == Some(NotObject) || NonStringClaim(jwt, decode, "Username") ==> r == Throws
  {
    ClaimString(jwt, decode, "Username")
  }

  function GetRoomId(jwt: string, decode: Decoder): (r: Outcome<Option<string>>)
    ensures r.Returns? && r.value.Some? ==> CarriesString(jwt, decode, RoomIdClaim, r.value.value)
    ensures forall s :: CarriesString(jwt, decode, RoomIdClaim, s) ==> r == Returns(Some(s))
    ensures ParsePayload(jwt, decode).None? || LacksClaim(jwt, decode, RoomIdClaim) || NullClaim(jwt, decode, RoomIdClaim) ==> r == Returns(None)
    ensures ParsePayload(jwt, decode) == Some(NotObject) || NonStringClaim(jwt, decode, RoomIdClaim) ==> r == Throws
  {
    ClaimString(jwt, decode, RoomIdClaim)
  }

  /** `GetAnonUserId`: the "AnonUserID" claim, only for a token whose role is "Anon" up to the case of ASCII letters. */
  function GetAnonUserId(jwt: string, decode: Decoder): (r: Outcome<Option<string>>)
    ensures r.Returns? && r.value.Some? ==> HasRole(jwt, decode, "Anon") && CarriesString(jwt, decode, "AnonUserID", r.value.value)
    ensures forall s :: HasRole(jwt, decode, "Anon") && CarriesString(jwt, decode, "AnonUserID", s) ==> r == Returns(Some(s))
    ensures GetRole(jwt, decode).Returns? && !HasRole(jwt, decode, "Anon") ==> r == Returns(None)
    ensures GetRole(jwt, decode).Throws? ==> r.Throws?
    ensures HasRole(jwt, decode, "Anon") ==> r == ClaimString(jwt, decode, "AnonUserID")
  {
    if ParsePayload(jwt, decode).None? then Returns(None)
    else
      match GetRole(jwt, decode)
      case Throws => Throws
      case Returns(role) =>
        if role.None? || !EqualsIgnoreCase(role.value, "Anon") then Returns(None)
        else ClaimString(jwt, decode, "AnonUserID")
  }

  /**
   * `IsTokenExpired`: a token that is malformed, fails to decode, or whose
   * "exp" is not a 64-bit integer counts as expired; a token without "exp"
   * never expires; otherwise it has expired once `exp < now`, where `now`
   * is the current Unix time in seconds.
   */
  function IsTokenExpired(jwt: string, decode: Decoder, now: int): (expired: bool)
    ensures Count(jwt, '.') != 2 ==> expired
  {
    var parts := Split(jwt, '.');
    if |parts| != 3 then true
    else
      match decode(RepadPayload(parts[1]))
      case None => true
      case Some(NotObject) => true
      case Some(Object(claims)) =>
        if "exp" !in claims then false
        else
          match GetInt64(claims["exp"])
          case Throws => true
          case Returns(exp) => exp < now
  }

  // ---------------------------------------------------------------------
  // Properties
  // ---------------------------------------------------------------------

  /** The three parts of a compact token, joined by '.'. */
  function CompactToken(header: string, payload: string, signature: string): string {
    Join([header, payload, signature], '.')
  }

  predicate DotFree(header: string, payload: string, signature: string) {
    '.' !in header && '.' !in payload && '.' !in signature
  }

  lemma SplitCompactToken(header: string, payload: string, signature: string)
    requires DotFree(header, payload, signature)
    ensures Split(CompactToken(header, payload, signature), '.') == [header, payload, signature]
    ensures !IsBlank(CompactToken(header, payload, signature))
  {
    var parts := [header, payload, signature];
    SplitJoin(parts, '.');
    assert parts[1..] == [payload, signature] && parts[1..][1..] == [signature];
    assert Join(parts[1..], '.') == payload + ['.'] + signature;
    var token := CompactToken(header, payload, signature);
    assert token == header + ['.'] + Join(parts[1..], '.');
    assert token[|header|] == '.';
  }

  /** The parser reads back the payload part of a token it is given. */
  lemma ParsePayloadOfCompactToken(header: string, payload: string, signature: string, decode: Decoder)
    requires DotFree(header, payload, signature)
    ensures ParsePayload(CompactToken(header, payload, signature), decode) == decode(PadBase64(payload))
  {
    SplitCompactToken(header, payload, signature);
  }

  /**
   * The user id comes from "UserID" when the token has it, else from the
   * name-identifier claim, else from "sub".
   */
  lemma GetUserIdClaimPriority(header: string, payload: string, signature: string, decode: Decoder, claims: map<string, JsonValue>)
    requires DotFree(header, payload, signature)
    requires decode(RepadPayload(payload)) == Some(Object(claims))
    ensures var id := GetUserId(CompactToken(header, payload, signature), decode);
      if IdClaims[0] in claims then id == CaughtString(claims[IdClaims[0]])
      else if IdClaims[1] in claims then id == CaughtString(claims[IdClaims[1]])
      else if IdClaims[2] in claims then id == CaughtString(claims[IdClaims[2]])
      else id.None?
  {
    var token := CompactToken(header, payload, signature);
    SplitCompactToken(header, payload, signature);
    var at := FirstPresent(claims, IdClaims);
    if IdClaims[0] in claims {
      assert at == Some(0);
    } else if IdClaims[1] in claims {
      assert at == Some(1);
    } else if IdClaims[2] in claims {
      assert at == Some(2);
    }
  }

  /** The role comes from "role" when present, else from "Role", else from the role claim. */
  lemma GetRoleClaimPriority(jwt: string, decode: Decoder, claims: map<string, JsonValue>)
    requires ParsePayload(jwt, decode) == Some(Object(claims))
    ensures var role := GetRole(jwt, decode);
      if RoleClaims[0] in claims then role == GetString(claims[RoleClaims[0]])
      else if RoleClaims[1] in claims then role == GetString(claims[RoleClaims[1]])
      else if RoleClaims[2] in claims then role == GetString(claims[RoleClaims[2]])
      else role == Returns(None)
  {
    var at := FirstPresent(claims, RoleClaims);
    if RoleClaims[0] in claims {
      assert at == Some(0);
    } else if RoleClaims[1] in claims {
      assert at == Some(1);
    } else if RoleClaims[2] in claims {
      assert at == Some(2);
    }
  }

  /** No token is both anonymous and a user's. */
  lemma AnonAndUserExclusive(jwt: string, decode: Decoder)
    ensures !(IsAnon(jwt, decode) == Returns(true) && IsUser(jwt, decode) == Returns(true))
  {
    if IsUser(jwt, decode) == Returns(true) {
      var role := GetRole(jwt, decode).value.value;
      assert EqualsIgnoreCase(role, "User");
      assert ToUpperInvariant(role[0]) == 'U';
      assert !EqualsIgnoreCase(role, "Anon") by {
        assert ToUpperInvariant("Anon"[0]) == 'A';
      }
    }
  }

  /**
   * With the single claim "role" set to the string `role`, the token is a
   * user's exactly when the role is "User" in any ASCII case, and anonymous
   * exactly when it is blank or "Anon".
   */
  lemma RoleClaimDecidesKind(header: string, payload: string, signature: string, decode: Decoder, role: string)
    requires DotFree(header, payload, signature)
    requires decode(PadBase64(payload)) == Some(Object(map[RoleClaims[0] := JString(role)]))
    ensures var token := CompactToken(header, payload, signature);
      IsUser(token, decode) == Returns(EqualsIgnoreCase(role, "User"))
      && IsAnon(token, decode) == Returns(IsBlank(role) || EqualsIgnoreCase(role, "Anon"))
  {
    var token := CompactToken(header, payload, signature);
    var claims := map[RoleClaims[0] := JString(role)];
    ParsePayloadOfCompactToken(header, payload, signature, decode);
    GetRoleClaimPriority(token, decode, claims);
    UserIsNotBlank(role);
  }

  /** Only an anonymous token yields an anonymous user id. */
  lemma AnonUserIdOnlyForAnon(jwt: string, decode: Decoder)
    requires GetAnonUserId(jwt, decode).Returns? && GetAnonUserId(jwt, decode).value.Some?
    ensures IsAnon(jwt, decode) == Returns(true) && IsUser(jwt, decode) == Returns(false)
  {
    AnonAndUserExclusive(jwt, decode);
  }

  /** A token that decodes but names no role is anonymous. */
  lemma NoRoleIsAnon(jwt: string, decode: Decoder, claims: map<string, JsonValue>)
    requires ParsePayload(jwt, decode) == Some(Object(claims))
    requires forall j :: 0 <= j < |RoleClaims| ==> RoleClaims[j] !in claims
    ensures IsAnon(jwt, decode) == Returns(true) && IsUser(jwt, decode) == Returns(false)
  {
    GetRoleClaimPriority(jwt, decode, claims);
    assert RoleClaims[0] !in claims && RoleClaims[1] !in claims && RoleClaims[2] !in claims;
  }

  /** A token that has expired stays expired as time goes on. */
  lemma ExpiryIsMonotonic(jwt: string, decode: Decoder, now: int, later: int)
    requires now <= later
    ensures IsTokenExpired(jwt, decode, now) ==> IsTokenExpired(jwt, decode, later)
  {}

  /** With an "exp" claim of 64 bits, the token has expired exactly when `exp < now`. */
  lemma ExpiryComparesExp(header: string, payload: string, signature: string, decode: Decoder, claims: map<string, JsonValue>, exp: int, now: int)
    requires DotFree(header, payload, signature)
    requires decode(RepadPayload(payload)) == Some(Object(claims))
    requires "exp" in claims && claims["exp"] == JInteger(exp) && Int64Min <= exp <= Int64Max
    ensures IsTokenExpired(CompactToken(header, payload, signature), decode, now) <==> exp < now
  {
    SplitCompactToken(header, payload, signature);
  }

  /**
   * A token of three parts whose payload does not decode to a JSON object
   * has expired, and carries no user id: both readers catch the failure.
   */
  lemma UndecodableIsExpired(header: string, payload: string, signature: string, decode: Decoder, now: int)
    requires DotFree(header, payload, signature)
    requires decode(RepadPayload(payload)).None? || decode(RepadPayload(payload)) == Some(NotObject)
    ensures IsTokenExpired(CompactToken(header, payload, signature), decode, now)
    ensures GetUserId(CompactToken(header, payload, signature), decode).None?
  {
    SplitCompactToken(header, payload, signature);
  }

  /** An "exp" claim that is not a 64-bit integer makes the token expired. */
  lemma BadExpIsExpired(header: string, payload: string, signature: string, decode: Decoder, claims: map<string, JsonValue>, now: int)
    requires DotFree(header, payload, signature)
    requires decode(RepadPayload(payload)) == Some(Object(claims))
    requires "exp" in claims && GetInt64(claims["exp"]).Throws?
    ensures IsTokenExpired(CompactToken(header, payload, signature), decode, now)
  {
    SplitCompactToken(header, payload, signature);
  }

  /** A well-formed token without "exp" never expires. */
  lemma NoExpNeverExpires(header: string, payload: string, signature: string, decode: Decoder, claims: map<string, JsonValue>, now: int)
    requires DotFree(header, payload, signature)
    requires decode(RepadPayload(payload)) == Some(Object(claims))
    requires "exp" !in claims
    ensures !IsTokenExpired(CompactToken(header, payload, signature), decode, now)
  {
    SplitCompactToken(header, payload, signature);
  }
}

=== FILE: operation_result.dfy ===
/**
 * `OperationResult<T>`, the envelope every service call returns: a success
 * flag, an optional payload and a human-readable message.
 */
module OperationResults {
  import opened Wrappers

  datatype OperationResult<T> = OperationResult(isSuccess: bool, data: Option<T>, message: string)

  function Success<T>(data: Option<T>, message: string): (r: OperationResult<T>)
    ensures r.isSuccess && r.data == data && r.message == message
  {
    OperationResult(true, data, message)
  }

  function Failure<T>(data: Option<T>, message: string): (r: OperationResult<T>)
    ensures !r.isSuccess && r.data == data && r.message == message
  {
    OperationResult(false, data, message)
  }

  /**
   * `Error(exception, message)`: a failure whose message is the caller's
   * context, a colon, and the exception's own message. Its payload is
   * `default(T)`, which the caller names: `None` for a reference type,
   * `Some(false)` for `bool`.
   */
  function Error<T>(defaultData: Option<T>, exceptionMessage: string, message: string): (r: OperationResult<T>)
    ensures !r.isSuccess && r.data == defaultData
    ensures |r.message| == |message| + 2 + |exceptionMessage|
    ensures message <= r.message && r.message[|message|..|message| + 2] == ": "
    ensures r.message[|message| + 2..] == exceptionMessage
  {
    OperationResult(false, defaultData, message + ": " + exceptionMessage)
  }
}

=== FILE: room_collection.dfy ===
/**
 * The `Rooms` collection as the store sees it: documents in insertion order,
 * the filters and update operators the store uses, the collection calls
 * (first match, update one, find one and update, delete one, paging), and
 * the effect of each store operation as a function from the documents
 * before to the documents after, together with its answer.
 */
module RoomCollection {
  import opened Wrappers
  import opened Rooms

  /** The `Builders<Rooms>.Filter` terms the store uses. */
  datatype Filter =
    | RoomIdIs(roomId: string)
    | RoomNameIs(roomName: string)
    | HostIdIs(hostId: string)
    | IsPrivateIs(isPrivate: bool)
    | CurrentVideoIdIs(videoId: string)
    | AccessCodeIs(code: string)
    | HasParticipant(userId: string)
    | And(left: Filter, right: Filter)

  predicate Matches(f: Filter, r: Room) {
    match f
    case RoomIdIs(id) => r.roomId == id
    case RoomNameIs(name) => r.roomName == name
    case HostIdIs(id) => r.hostId == id
    case IsPrivateIs(b) => r.isPrivate == b
    case CurrentVideoIdIs(v) => r.currentVideoId == Some(v)
    case AccessCodeIs(c) => r.accessCode == Some(c)
    case HasParticipant(u) => u in r.participantIds
    case And(a, b) => Matches(a, r) && Matches(b, r)
  }

  /** The `Builders<Rooms>.Update` operators the store uses. */
  datatype Update =
    | SetRoomName(roomName: string)
    | SetMaxOccupancy(maxOccupancy: int)
    | Push(userId: string)
    | Pull(userId: string)
    | SetCurrentVideoId(videoId: Option<string>)
    | SetPlaybackPosition(position: real)
    | SetIsPaused(isPaused: bool)
    | SetLastSyncUpdate(at: int)
    | SetIsPrivate(isPrivate: bool)
    | SetAccessCode(code: string)
    | UnsetAccessCode

  /** `$pull`: every occurrence of `userId` leaves the list, the rest keep their order. */
  function RemoveAll(ids: seq<string>, userId: string): (r: seq<string>)
    ensures forall x :: x in r <==> x in ids && x != userId
    ensures NoDuplicates(ids) ==> NoDuplicates(r)
    ensures userId !in ids ==> r == ids
    ensures |r| <= |ids|
    decreases |ids|
  {
    if ids == [] then []
    else
      var rest := RemoveAll(ids[1..], userId);
      if ids[0] == userId then rest
      else
        assert NoDuplicates(ids) ==> ids[0] !in ids[1..];
        assert userId !in ids ==> ids == [ids[0]] + ids[1..];
        [ids[0]] + rest
  }

  function Apply(r: Room, u: Update): Room {
    match u
    case SetRoomName(n) => r.(roomName := n)
    case SetMaxOccupancy(m) => r.(maxOccupancy := m)
    case Push(id) => r.(participantIds := r.participantIds + [id])
    case Pull(id) => r.(participantIds := RemoveAll(r.participantIds, id))
    case SetCurrentVideoId(v) => r.(currentVideoId := v)
    case SetPlaybackPosition(p) => r.(currentPlaybackPosition := p)
    case SetIsPaused(b) => r.(isPaused := b)
    case SetLastSyncUpdate(t) => r.(lastSyncUpdate := t)
    case SetIsPrivate(b) => r.(isPrivate := b)
    case SetAccessCode(c) => r.(accessCode := Some(c))
    case UnsetAccessCode => r.(accessCode := None)
  }

  /** A combined update: its operators in order. */
  function ApplyAll(r: Room, us: seq<Update>): Room
    decreases |us|
  {
    if us == [] then r else ApplyAll(Apply(r, us[0]), us[1..])
  }

  // Unfoldings of `ApplyAll` for the short update lists the repository
  // builds; the `...Outcome` lemmas below use them to read off the new room.

  lemma ApplyOne(r: Room, a: Update)
    ensures ApplyAll(r, [a]) == Apply(r, a)
  {
    assert [a][1..] == [];
  }

  lemma ApplyTwo(r: Room, a: Update, b: Update)
    ensures ApplyAll(r, [a, b]) == Apply(Apply(r, a), b)
  {
    assert [a, b][1..] == [b];
    ApplyOne(Apply(r, a), b);
  }

  lemma ApplyThree(r: Room, a: Update, b: Update, c: Update)
    ensures ApplyAll(r, [a, b, c]) == Apply(Apply(Apply(r, a), b), c)
  {
    assert [a, b, c][1..] == [b, c];
    ApplyTwo(Apply(r, a), b, c);
  }

  lemma ApplyFour(r: Room, a: Update, b: Update, c: Update, d: Update)
    ensures ApplyAll(r, [a, b, c, d]) == Apply(Apply(Apply(Apply(r, a), b), c), d)
  {
    assert [a, b, c, d][1..] == [b, c, d];
    ApplyThree(Apply(r, a), b, c, d);
  }

  /** The position of the first document the filter matches, if any. */
  function FirstMatch(docs: seq<Room>, f: Filter): (at: Option<nat>)
    ensures at.Some? ==> at.value < |docs| && Matches(f, docs[at.value])
    ensures at.Some? ==> forall j :: 0 <= j < at.value ==> !Matches(f, docs[j])
    ensures at.None? ==> forall j :: 0 <= j < |docs| ==> !Matches(f, docs[j])
    decreases |docs|
  {
    if docs == [] then None
    else if Matches(f, docs[0]) then Some(0)
    else
      match FirstMatch(docs[1..], f)
      case None => None
      case Some(k) => Some(k + 1)
  }

  /** `Find(filter).AnyAsync()` */
  predicate AnyMatch(docs: seq<Room>, f: Filter) {
    exists j :: 0 <= j < |docs| && Matches(f, docs[j])
  }

  /** `Find(filter).FirstOrDefaultAsync()` */
  function FindFirst(docs: seq<Room>, f: Filter): (found: Option<Room>)
    ensures found.Some? ==> found.value in docs && Matches(f, found.value)
    ensures found.None? <==> !AnyMatch(docs, f)
  {
    match FirstMatch(docs, f)
    case None => None
    case Some(i) => Some(docs[i])
  }

  /** `Find(filter).ToListAsync()`: the matching documents, in order. */
  function FindAll(docs: seq<Room>, f: Filter): (found: seq<Room>)
    ensures forall r :: r in found <==> r in docs && Matches(f, r)
    ensures |found| <= |docs|
    decreases |docs|
  {
    if docs == [] then []
    else if Matches(f, docs[0]) then [docs[0]] + FindAll(docs[1..], f)
    else FindAll(docs[1..], f)
  }

  /**
   * `Find(Or(Regex(RoomName, term, "i"), Regex(HostId, term, "i")))`; the
   * case-insensitive regular-expression match is the parameter `isMatch`.
   */
  function FindByNameOrHost(docs: seq<Room>, term: string, isMatch: (string, string) -> bool): (found: seq<Room>)
    ensures forall r :: r in found <==> r in docs && (isMatch(term, r.roomName) || isMatch(term, r.hostId))
    ensures |found| <= |docs|
    decreases |docs|
  {
    if docs == [] then []
    else
      var rest := FindByNameOrHost(docs[1..], term, isMatch);
      if isMatch(term, docs[0].roomName) || isMatch(term, docs[0].hostId) then [docs[0]] + rest else rest
  }

  function Min(a: int, b: int): int {
    if a <= b then a else b
  }

  /** The number of documents `.Skip((page - 1) * pageSize)` passes over. */
  function Offset(page: int, pageSize: int): nat
    requires page >= 1 && pageSize >= 1
  {
    (page - 1) * pageSize
  }

  /** `.Skip((page - 1) * pageSize).Limit(pageSize)` */
  function Page<T>(s: seq<T>, page: int, pageSize: int): (r: seq<T>)
    requires page >= 1 && pageSize >= 1
    ensures |r| == if Offset(page, pageSize) >= |s| then 0 else Min(pageSize, |s| - Offset(page, pageSize))
    ensures forall k :: 0 <= k < |r| ==> r[k] == s[Offset(page, pageSize) + k]
  {
    var skip := Offset(page, pageSize);
    if skip >= |s| then [] else s[skip..Min(skip + pageSize, |s|)]
  }

  const Int32Min := -0x8000_0000
  const Int32Max := 0x7FFF_FFFF

  /** An unbounded integer reduced to C#'s 32-bit two's-complement `int`, as unchecked arithmetic does. */
  function Wrap32(x: int): (r: int)
    ensures Int32Min <= r <= Int32Max
    ensures (x - r) % 0x1_0000_0000 == 0
  {
    var m := x % 0x1_0000_0000;
    if m > Int32Max then m - 0x1_0000_0000 else m
  }

  /**
   * The skip the repository actually computes: `(page - 1) * pageSize` in
   * unchecked 32-bit arithmetic. `Offset` is the skip it intends.
   */
  function SkipAsWritten(page: int, pageSize: int): (r: int)
    requires 1 <= page <= Int32Max && 1 <= pageSize <= Int32Max
    ensures Int32Min <= r <= Int32Max
    ensures Offset(page, pageSize) <= Int32Max ==> r == Offset(page, pageSize)
  {
    Wrap32((page - 1) * pageSize)
  }

  /**
   * Page 42949674 of size 100 should skip 4294967300 documents and so be
   * empty for any smaller collection, but the 32-bit skip wraps to 4.
   */
  lemma SkipWrapsToFour<T>(s: seq<T>)
    requires 4 < |s| < 4294967300
    ensures Page(s, 42949674, 100) == []
    ensures SkipAsWritten(42949674, 100) == 4
  {
    assert Offset(42949674, 100) == 4294967300;
  }

  /** Page 21474838 of size 100 gives a negative 32-bit skip, which the driver refuses. */
  lemma SkipWrapsNegative()
    ensures Offset(21474838, 100) > 0
    ensures SkipAsWritten(21474838, 100) == -2147483596
  {
  }

  /** The documents after a collection call, and what the call reports. */
  datatype Step<T> = Step(docs: seq<Room>, result: T)

  /**
   * `UpdateOneAsync(filter, update)`: the first match is updated; the answer
   * is `ModifiedCount > 0`, i.e. whether the document actually changed.
   */
  function UpdateOne(docs: seq<Room>, f: Filter, us: seq<Update>): Step<bool> {
    match FirstMatch(docs, f)
    case None => Step(docs, false)
    case Some(i) =>
      var updated := ApplyAll(docs[i], us);
      Step(docs[i := updated], updated != docs[i])
  }

  /** `FindOneAndUpdateAsync` with `ReturnDocument.After`. */
  function FindOneAndUpdate(docs: seq<Room>, f: Filter, us: seq<Update>): Step<Option<Room>> {
    match FirstMatch(docs, f)
    case None => Step(docs, None)
    case Some(i) =>
      var updated := ApplyAll(docs[i], us);
      Step(docs[i := updated], Some(updated))
  }

  /** `DeleteOneAsync(filter)`; the answer is `DeletedCount > 0`. */
  function DeleteOne(docs: seq<Room>, f: Filter): Step<bool> {
    match FirstMatch(docs, f)
    case None => Step(docs, false)
    case Some(i) => Step(docs[..i] + docs[i + 1..], true)
  }

  // ---------------------------------------------------------------------
  // The store operations, as functions of the documents
  // ---------------------------------------------------------------------

  function CreateRoom(docs: seq<Room>, room: Room): Step<Option<Room>> {
    if AnyMatch(docs, RoomNameIs(room.roomName)) then Step(docs, None)
    else Step(docs + [room], Some(room))
  }

  function DeleteRoom(docs: seq<Room>, roomId: string): Step<bool> {
    DeleteOne(docs, RoomIdIs(roomId))
  }

  function GenerateNewRoomPass(docs: seq<Room>, roomId: string, newPass: string): Step<Option<string>> {
    var s := UpdateOne(docs, And(RoomIdIs(roomId), IsPrivateIs(true)), [SetAccessCode(newPass)]);
    Step(s.docs, if s.result then Some(newPass) else None)
  }

  function JoinRoom(docs: seq<Room>, roomId: string, userId: string): Step<bool> {
    match FindFirst(docs, RoomIdIs(roomId))
    case None => Step(docs, false)
    case Some(room) =>
      if userId in room.participantIds then Step(docs, true)
      else if |room.participantIds| >= room.maxOccupancy then Step(docs, false)
      else UpdateOne(docs, RoomIdIs(roomId), [Push(userId)])
  }

  function LeaveRoom(docs: seq<Room>, roomId: string, userId: string): Step<bool> {
    UpdateOne(docs, RoomIdIs(roomId), [Pull(userId)])
  }

  function UpdatePlaybackState(docs: seq<Room>, roomId: string, position: real, isPaused: bool, videoId: string, now: int): Step<bool> {
    UpdateOne(docs, And(RoomIdIs(roomId), CurrentVideoIdIs(videoId)),
      [SetPlaybackPosition(position), SetIsPaused(isPaused), SetLastSyncUpdate(now)])
  }

  /** The `updates` list of `UpdateRoomAsync`: only what the caller supplied. */
  function RoomUpdates(roomName: Option<string>, maxOccupancy: Option<int>): seq<Update> {
    (if roomName.Some? && roomName.value != "" then [SetRoomName(roomName.value)] else [])
    + (if maxOccupancy.Some? then [SetMaxOccupancy(maxOccupancy.value)] else [])
  }

  function UpdateRoom(docs: seq<Room>, roomId: string, hostId: string, roomName: Option<string>, maxOccupancy: Option<int>): Step<Option<Room>> {
    var updates := RoomUpdates(roomName, maxOccupancy);
    if updates == [] then Step(docs, None)
    else FindOneAndUpdate(docs, And(RoomIdIs(roomId), HostIdIs(hostId)), updates)
  }

  function IsRoomFull(docs: seq<Room>, roomId: string): bool {
    match FindFirst(docs, RoomIdIs(roomId))
    case None => false
    case Some(room) => |room.participantIds| >= room.maxOccupancy
  }

  function MakeRoomPrivate(docs: seq<Room>, roomId: string, newPass: string): Step<Option<string>> {
    var s := UpdateOne(docs, And(RoomIdIs(roomId), IsPrivateIs(false)), [SetIsPrivate(true), SetAccessCode(newPass)]);
    Step(s.docs, if s.result then Some(newPass) else None)
  }

  function MakeRoomPublic(docs: seq<Room>, roomId: string): Step<bool> {
    UpdateOne(docs, And(RoomIdIs(roomId), IsPrivateIs(true)), [SetIsPrivate(false), UnsetAccessCode])
  }

  function GetAccessCode(docs: seq<Room>, roomId: string, hostId: string): Option<string> {
    match FindFirst(docs, RoomIdIs(roomId))
    case None => None
    case Some(room) =>
      if room.isPrivate && room.hostId != hostId then None else Some(room.accessCode.GetOr(""))
  }

  function UpdateCurrentVideoId(docs: seq<Room>, roomId: string, videoId: Option<string>, now: int): Step<bool> {
    UpdateOne(docs, RoomIdIs(roomId),
      [SetCurrentVideoId(videoId), SetPlaybackPosition(0.0), SetIsPaused(true), SetLastSyncUpdate(now)])
  }

  // ---------------------------------------------------------------------
  // Invariants of the collection and what each operation does to them
  // ---------------------------------------------------------------------

  predicate NamesUnique(docs: seq<Room>) {
    forall i, j :: 0 <= i < j < |docs| ==> docs[i].roomName != docs[j].roomName
  }

  predicate IdsUnique(docs: seq<Room>) {
    forall i, j :: 0 <= i < j < |docs| ==> docs[i].roomId != docs[j].roomId
  }

  /** Every room keeps its own invariant and no two rooms share a name. */
  predicate StoreInvariant(docs: seq<Room>) {
    (forall i :: 0 <= i < |docs| ==> RoomInvariant(docs[i])) && NamesUnique(docs)
  }

  /** Replacing one room by a well-formed room of the same name keeps the store invariant. */
  lemma ReplaceKeepsInvariant(docs: seq<Room>, i: nat, r: Room)
    requires StoreInvariant(docs) && i < |docs|
    requires RoomInvariant(r) && r.roomName == docs[i].roomName
    ensures StoreInvariant(docs[i := r])
  {
    var after := docs[i := r];
    forall a, b | 0 <= a < b < |after| ensures after[a].roomName != after[b].roomName {
      assert after[a].roomName == docs[a].roomName && after[b].roomName == docs[b].roomName;
    }
  }

  /** Two collections whose documents agree on a filter have the same first match. */
  lemma {:induction false} FirstMatchAgrees(docs: seq<Room>, others: seq<Room>, f: Filter)
    requires |docs| == |others|
    requires forall j :: 0 <= j < |docs| ==> (Matches(f, docs[j]) <==> Matches(f, others[j]))
    ensures FirstMatch(docs, f) == FirstMatch(others, f)
    decreases |docs|
  {
    if docs != [] {
      FirstMatchAgrees(docs[1..], others[1..], f);
    }
  }

  /**
   * CreateRoom refuses exactly when some stored room already has the name;
   * a refusal leaves the store as it was, otherwise the room is appended.
   */
  lemma CreateRoomOutcome(docs: seq<Room>, room: Room)
    ensures var s := CreateRoom(docs, room);
      (s.result.None? <==> exists j :: 0 <= j < |docs| && docs[j].roomName == room.roomName)
      && (s.result.None? ==> s.docs == docs)
      && (s.result.Some? ==> s.result.value == room && s.docs == docs + [room])
  {
    if exists j :: 0 <= j < |docs| && docs[j].roomName == room.roomName {
      var j :| 0 <= j < |docs| && docs[j].roomName == room.roomName;
      assert Matches(RoomNameIs(room.roomName), docs[j]);
    }
  }

  lemma CreateRoomKeepsInvariant(docs: seq<Room>, room: Room)
    requires StoreInvariant(docs) && RoomInvariant(room)
    ensures StoreInvariant(CreateRoom(docs, room).docs)
  {
    var s := CreateRoom(docs, room);
    if s.result.Some? {
      forall j | 0 <= j < |docs| ensures docs[j].roomName != room.roomName {
        assert !Matches(RoomNameIs(room.roomName), docs[j]);
      }
      assert s.docs == docs + [room];
    }
  }

  /** DeleteRoom removes the first room with the id, and reports whether there was one. */
  lemma DeleteRoomOutcome(docs: seq<Room>, roomId: string)
    ensures var s := DeleteRoom(docs, roomId);
      (s.result <==> exists j :: 0 <= j < |docs| && docs[j].roomId == roomId)
      && (!s.result ==> s.docs == docs)
      && (s.result ==> |s.docs| == |docs| - 1 && multiset(s.docs) + multiset{docs[FirstMatch(docs, RoomIdIs(roomId)).value]} == multiset(docs))
  {
    match FirstMatch(docs, RoomIdIs(roomId))
    case None =>
    case Some(i) =>
      assert docs == docs[..i] + [docs[i]] + docs[i + 1..];
  }

  lemma DeleteRoomKeepsInvariant(docs: seq<Room>, roomId: string)
    requires StoreInvariant(docs)
    ensures StoreInvariant(DeleteRoom(docs, roomId).docs)
  {
    match FirstMatch(docs, RoomIdIs(roomId))
    case None =>
    case Some(i) =>
      var after := docs[..i] + docs[i + 1..];
      forall a | 0 <= a < |after| ensures after[a] == docs[if a < i then a else a + 1] {}
  }

  /**
   * JoinRoom: a missing room gives false; a user already listed gives true
   * with nothing changed; a full room gives false with nothing changed;
   * otherwise the user is appended to the first room with the id, and
   * nothing else changes.
   */
  lemma JoinRoomOutcome(docs: seq<Room>, roomId: string, userId: string)
    ensures var s := JoinRoom(docs, roomId, userId);
      var at := FirstMatch(docs, RoomIdIs(roomId));
      if at.None? then s == Step(docs, false)
      else
        var before := docs[at.value].participantIds;
        var admitted := userId !in before && |before| < docs[at.value].maxOccupancy;
        s.docs == docs[at.value := docs[at.value].(participantIds := if admitted then before + [userId] else before)]
        && s.result == (userId in before || admitted)
  {
    match FirstMatch(docs, RoomIdIs(roomId))
    case None =>
    case Some(i) =>
      var before := docs[i].participantIds;
      if userId !in before && |before| < docs[i].maxOccupancy {
        ApplyOne(docs[i], Push(userId));
        assert (before + [userId])[|before|] == userId;
      } else {
        assert docs[i := docs[i].(participantIds := before)] == docs;
      }
  }

  /** Joining never lists a user twice and never fills a room past its capacity. */
  lemma JoinRoomKeepsInvariant(docs: seq<Room>, roomId: string, userId: string)
    requires StoreInvariant(docs)
    ensures StoreInvariant(JoinRoom(docs, roomId, userId).docs)
  {
    JoinRoomOutcome(docs, roomId, userId);
    match FirstMatch(docs, RoomIdIs(roomId))
    case None =>
    case Some(i) =>
      var before := docs[i].participantIds;
      if userId !in before && |before| < docs[i].maxOccupancy {
        var after := before + [userId];
        forall a, b | 0 <= a < b < |after| ensures after[a] != after[b] {
          if b == |before| {
            assert after[a] == before[a];
          }
        }
        ReplaceKeepsInvariant(docs, i, docs[i].(participantIds := after));
      } else {
        assert docs[i := docs[i].(participantIds := before)] == docs;
      }
  }

  /** Joining twice is joining once. */
  lemma JoinRoomIdempotent(docs: seq<Room>, roomId: string, userId: string)
    ensures var s := JoinRoom(docs, roomId, userId);
      JoinRoom(s.docs, roomId, userId) == s
  {
    var s := JoinRoom(docs, roomId, userId);
    JoinRoomOutcome(docs, roomId, userId);
    match FirstMatch(docs, RoomIdIs(roomId))
    case None =>
    case Some(i) =>
      FirstMatchAgrees(docs, s.docs, RoomIdIs(roomId));
      JoinRoomOutcome(s.docs, roomId, userId);
  }

  /**
   * After a successful join the room is still the first with its id, with
   * only its participants changed: its playback state is as before.
   */
  lemma JoinRoomKeepsPlayback(docs: seq<Room>, roomId: string, userId: string)
    requires JoinRoom(docs, roomId, userId).result
    ensures var was := FindFirst(docs, RoomIdIs(roomId));
      var found := FindFirst(JoinRoom(docs, roomId, userId).docs, RoomIdIs(roomId));
      was.Some? && found.Some? && found.value == was.value.(participantIds := found.value.participantIds)
  {
    var s := JoinRoom(docs, roomId, userId);
    JoinRoomOutcome(docs, roomId, userId);
    FirstMatchAgrees(docs, s.docs, RoomIdIs(roomId));
  }

  /** A room that is not full and exists admits a user who is not yet in it. */
  lemma JoinRoomWhenNotFull(docs: seq<Room>, roomId: string, userId: string)
    requires AnyMatch(docs, RoomIdIs(roomId)) && !IsRoomFull(docs, roomId)
    ensures JoinRoom(docs, roomId, userId).result
  {
    JoinRoomOutcome(docs, roomId, userId);
  }

  /**
   * LeaveRoom removes every occurrence of the user from the first room with
   * the id, and reports true exactly when the user was listed there.
   */
  lemma LeaveRoomOutcome(docs: seq<Room>, roomId: string, userId: string)
    ensures var s := LeaveRoom(docs, roomId, userId);
      var at := FirstMatch(docs, RoomIdIs(roomId));
      if at.None? then s == Step(docs, false)
      else
        var before := docs[at.value].participantIds;
        s.docs == docs[at.value := docs[at.value].(participantIds := RemoveAll(before, userId))]
        && userId !in s.docs[at.value].participantIds
        && s.result == (userId in before)
  {
    match FirstMatch(docs, RoomIdIs(roomId))
    case None =>
    case Some(i) =>
      ApplyOne(docs[i], Pull(userId));
  }

  lemma LeaveRoomKeepsInvariant(docs: seq<Room>, roomId: string, userId: string)
    requires StoreInvariant(docs)
    ensures StoreInvariant(LeaveRoom(docs, roomId, userId).docs)
  {
    LeaveRoomOutcome(docs, roomId, userId);
    match FirstMatch(docs, RoomIdIs(roomId))
    case None =>
    case Some(i) =>
      ReplaceKeepsInvariant(docs, i, docs[i].(participantIds := RemoveAll(docs[i].participantIds, userId)));
  }

  /** Leaving a second time reports false and changes nothing. */
  lemma LeaveRoomTwice(docs: seq<Room>, roomId: string, userId: string)
    ensures var s := LeaveRoom(docs, roomId, userId);
      LeaveRoom(s.docs, roomId, userId) == Step(s.docs, false)
  {
    var s := LeaveRoom(docs, roomId, userId);
    LeaveRoomOutcome(docs, roomId, userId);
    match FirstMatch(docs, RoomIdIs(roomId))
    case None =>
    case Some(i) =>
      FirstMatchAgrees(docs, s.docs, RoomIdIs(roomId));
      LeaveRoomOutcome(s.docs, roomId, userId);
      assert s.docs[i := s.docs[i]] == s.docs;
  }

  /**
   * UpdatePlaybackState touches only the first room with the id whose
   * current video is `videoId`, and there only position, pause flag and
   * last-sync instant.
   */
  lemma UpdatePlaybackStateOutcome(docs: seq<Room>, roomId: string, position: real, isPaused: bool, videoId: string, now: int)
    ensures var s := UpdatePlaybackState(docs, roomId, position, isPaused, videoId, now);
      var at := FirstMatch(docs, And(RoomIdIs(roomId), CurrentVideoIdIs(videoId)));
      if at.None? then s == Step(docs, false)
      else
        var after := docs[at.value].(currentPlaybackPosition := position, isPaused := isPaused, lastSyncUpdate := now);
        s == Step(docs[at.value := after], after != docs[at.value])
  {
    match FirstMatch(docs, And(RoomIdIs(roomId), CurrentVideoIdIs(videoId)))
    case None =>
    case Some(i) =>
      ApplyThree(docs[i], SetPlaybackPosition(position), SetIsPaused(isPaused), SetLastSyncUpdate(now));
  }

  /** A playback update for a video that is not the room's current one changes nothing. */
  lemma StalePlaybackUpdateIgnored(docs: seq<Room>, roomId: string, position: real, isPaused: bool, videoId: string, now: int)
    requires forall j :: 0 <= j < |docs| && docs[j].roomId == roomId ==> docs[j].currentVideoId != Some(videoId)
    ensures UpdatePlaybackState(docs, roomId, position, isPaused, videoId, now) == Step(docs, false)
  {
    forall j | 0 <= j < |docs| ensures !Matches(And(RoomIdIs(roomId), CurrentVideoIdIs(videoId)), docs[j]) {}
    UpdatePlaybackStateOutcome(docs, roomId, position, isPaused, videoId, now);
  }

  lemma UpdatePlaybackStateKeepsInvariant(docs: seq<Room>, roomId: string, position: real, isPaused: bool, videoId: string, now: int)
    requires StoreInvariant(docs)
    ensures StoreInvariant(UpdatePlaybackState(docs, roomId, position, isPaused, videoId, now).docs)
  {
    UpdatePlaybackStateOutcome(docs, roomId, position, isPaused, videoId, now);
    match FirstMatch(docs, And(RoomIdIs(roomId), CurrentVideoIdIs(videoId)))
    case None =>
    case Some(i) =>
      ReplaceKeepsInvariant(docs, i, docs[i].(currentPlaybackPosition := position, isPaused := isPaused, lastSyncUpdate := now));
  }

  /**
   * UpdateCurrentVideoId loads the video into the first room with the id and
   * always rewinds to position 0, paused, stamped `now`.
   */
  lemma UpdateCurrentVideoIdOutcome(docs: seq<Room>, roomId: string, videoId: Option<string>, now: int)
    ensures var s := UpdateCurrentVideoId(docs, roomId, videoId, now);
      var at := FirstMatch(docs, RoomIdIs(roomId));
      if at.None? then s == Step(docs, false)
      else
        var after := s.docs[at.value];
        s.docs == docs[at.value := after]
        && after == docs[at.value].(currentVideoId := after.currentVideoId, currentPlaybackPosition := after.currentPlaybackPosition,
                                    isPaused := after.isPaused, lastSyncUpdate := after.lastSyncUpdate)
        && after.currentVideoId == videoId && after.currentPlaybackPosition == 0.0 && after.isPaused
        && after.lastSyncUpdate == now
        && s.result == (after != docs[at.value])
  {
    match FirstMatch(docs, RoomIdIs(roomId))
    case None =>
    case Some(i) =>
      ApplyFour(docs[i], SetCurrentVideoId(videoId), SetPlaybackPosition(0.0), SetIsPaused(true), SetLastSyncUpdate(now));
  }

  lemma UpdateCurrentVideoIdKeepsInvariant(docs: seq<Room>, roomId: string, videoId: Option<string>, now: int)
    requires StoreInvariant(docs)
    ensures StoreInvariant(UpdateCurrentVideoId(docs, roomId, videoId, now).docs)
  {
    UpdateCurrentVideoIdOutcome(docs, roomId, videoId, now);
    match FirstMatch(docs, RoomIdIs(roomId))
    case None =>
    case Some(i) =>
      ReplaceKeepsInvariant(docs, i, UpdateCurrentVideoId(docs, roomId, videoId, now).docs[i]);
  }

  /** MakeRoomPrivate applies to the first public room with the id and sets flag and code together. */
  lemma MakeRoomPrivateOutcome(docs: seq<Room>, roomId: string, newPass: string)
    ensures var s := MakeRoomPrivate(docs, roomId, newPass);
      var at := FirstMatch(docs, And(RoomIdIs(roomId), IsPrivateIs(false)));
      if at.None? then s == Step(docs, None)
      else s == Step(docs[at.value := docs[at.value].(isPrivate := true, accessCode := Some(newPass))], Some(newPass))
  {
    match FirstMatch(docs, And(RoomIdIs(roomId), IsPrivateIs(false)))
    case None =>
    case Some(i) =>
      assert Matches(And(RoomIdIs(roomId), IsPrivateIs(false)), docs[i]);
      assert Matches(IsPrivateIs(false), docs[i]);
      ApplyTwo(docs[i], SetIsPrivate(true), SetAccessCode(newPass));
  }

  /** MakeRoomPublic applies to the first private room with the id and clears flag and code together. */
  lemma MakeRoomPublicOutcome(docs: seq<Room>, roomId: string)
    ensures var s := MakeRoomPublic(docs, roomId);
      var at := FirstMatch(docs, And(RoomIdIs(roomId), IsPrivateIs(true)));
      if at.None? then s == Step(docs, false)
      else s == Step(docs[at.value := docs[at.value].(isPrivate := false, accessCode := None)], true)
  {
    match FirstMatch(docs, And(RoomIdIs(roomId), IsPrivateIs(true)))
    case None =>
    case Some(i) =>
      assert Matches(And(RoomIdIs(roomId), IsPrivateIs(true)), docs[i]);
      assert Matches(IsPrivateIs(true), docs[i]);
      ApplyTwo(docs[i], SetIsPrivate(false), UnsetAccessCode);
  }

  /**
   * GenerateNewRoomPass replaces the code of the first private room with the
   * id; re-issuing the code the room already has is not a modification and
   * answers null.
   */
  lemma GenerateNewRoomPassOutcome(docs: seq<Room>, roomId: string, newPass: string)
    ensures var s := GenerateNewRoomPass(docs, roomId, newPass);
      var at := FirstMatch(docs, And(RoomIdIs(roomId), IsPrivateIs(true)));
      if at.None? then s == Step(docs, None)
      else
        s.docs == docs[at.value := docs[at.value].(accessCode := Some(newPass))]
        && s.result == if docs[at.value].accessCode == Some(newPass) then None else Some(newPass)
  {
    match FirstMatch(docs, And(RoomIdIs(roomId), IsPrivateIs(true)))
    case None =>
    case Some(i) =>
      ApplyOne(docs[i], SetAccessCode(newPass));
  }

  /** The three privacy operations keep "access code set iff private" (and the rest of the invariant). */
  lemma PrivacyOperationsKeepInvariant(docs: seq<Room>, roomId: string, newPass: string)
    requires StoreInvariant(docs)
    ensures StoreInvariant(MakeRoomPrivate(docs, roomId, newPass).docs)
    ensures StoreInvariant(MakeRoomPublic(docs, roomId).docs)
    ensures StoreInvariant(GenerateNewRoomPass(docs, roomId, newPass).docs)
  {
    MakeRoomPrivateOutcome(docs, roomId, newPass);
    match FirstMatch(docs, And(RoomIdIs(roomId), IsPrivateIs(false))) {
      case None =>
      case Some(i) =>
        ReplaceKeepsInvariant(docs, i, docs[i].(isPrivate := true, accessCode := Some(newPass)));
    }
    MakeRoomPublicOutcome(docs, roomId);
    GenerateNewRoomPassOutcome(docs, roomId, newPass);
    match FirstMatch(docs, And(RoomIdIs(roomId), IsPrivateIs(true))) {
      case None =>
      case Some(i) =>
        ReplaceKeepsInvariant(docs, i, docs[i].(isPrivate := false, accessCode := None));
        ReplaceKeepsInvariant(docs, i, docs[i].(accessCode := Some(newPass)));
    }
  }

  /** With room ids unique, making a room private a second time answers null and changes nothing. */
  lemma MakeRoomPrivateTwice(docs: seq<Room>, roomId: string, pass: string, otherPass: string)
    requires IdsUnique(docs)
    ensures var s := MakeRoomPrivate(docs, roomId, pass);
      s.result.Some? ==> MakeRoomPrivate(s.docs, roomId, otherPass) == Step(s.docs, None)
  {
    var s := MakeRoomPrivate(docs, roomId, pass);
    MakeRoomPrivateOutcome(docs, roomId, pass);
    MakeRoomPrivateOutcome(s.docs, roomId, otherPass);
    match FirstMatch(docs, And(RoomIdIs(roomId), IsPrivateIs(false)))
    case None =>
    case Some(i) =>
      assert Matches(And(RoomIdIs(roomId), IsPrivateIs(false)), docs[i]);
      assert Matches(RoomIdIs(roomId), docs[i]);
      forall j | 0 <= j < |s.docs| ensures !Matches(And(RoomIdIs(roomId), IsPrivateIs(false)), s.docs[j]) {
        if j != i {
          assert s.docs[j] == docs[j];
          assert docs[j].roomId != docs[i].roomId by {
            if j < i {} else {}
          }
          assert !Matches(RoomIdIs(roomId), s.docs[j]);
        } else {
          assert !Matches(IsPrivateIs(false), s.docs[j]);
        }
      }
  }

  /** With room ids unique, making a room public a second time answers false and changes nothing. */
  lemma MakeRoomPublicTwice(docs: seq<Room>, roomId: string)
    requires IdsUnique(docs)
    ensures var s := MakeRoomPublic(docs, roomId);
      s.result ==> MakeRoomPublic(s.docs, roomId) == Step(s.docs, false)
  {
    var s := MakeRoomPublic(docs, roomId);
    MakeRoomPublicOutcome(docs, roomId);
    MakeRoomPublicOutcome(s.docs, roomId);
    match FirstMatch(docs, And(RoomIdIs(roomId), IsPrivateIs(true)))
    case None =>
    case Some(i) =>
      assert Matches(And(RoomIdIs(roomId), IsPrivateIs(true)), docs[i]);
      assert Matches(RoomIdIs(roomId), docs[i]);
      forall j | 0 <= j < |s.docs| ensures !Matches(And(RoomIdIs(roomId), IsPrivateIs(true)), s.docs[j]) {
        if j != i {
          assert s.docs[j] == docs[j];
          assert docs[j].roomId != docs[i].roomId by {
            if j < i {} else {}
          }
          assert !Matches(RoomIdIs(roomId), s.docs[j]);
        } else {
          assert !Matches(IsPrivateIs(true), s.docs[j]);
        }
      }
  }

  /**
   * GetAccessCode answers null for a missing room and for a private room
   * asked by someone other than its host; otherwise the code, or "" when
   * there is none, which under the invariant is exactly the public case.
   */
  lemma GetAccessCodeOutcome(docs: seq<Room>, roomId: string, hostId: string)
    requires StoreInvariant(docs)
    ensures var code := GetAccessCode(docs, roomId, hostId);
      var at := FirstMatch(docs, RoomIdIs(roomId));
      if at.None? then code.None?
      else
        var room := docs[at.value];
        (code.None? <==> room.isPrivate && room.hostId != hostId)
        && (code.Some? && room.isPrivate ==> room.accessCode == Some(code.value))
        && (code.Some? && !room.isPrivate ==> code.value == "")
  {
  }

  /**
   * UpdateRoom applies only to the first room matching both id and host,
   * sets only what was supplied (a name only when non-empty), answers the
   * updated room, and answers null when nothing was supplied or nothing
   * matched.
   */
  lemma UpdateRoomOutcome(docs: seq<Room>, roomId: string, hostId: string, roomName: Option<string>, maxOccupancy: Option<int>)
    ensures var s := UpdateRoom(docs, roomId, hostId, roomName, maxOccupancy);
      var at := FirstMatch(docs, And(RoomIdIs(roomId), HostIdIs(hostId)));
      var rename := roomName.Some? && roomName.value != "";
      if (!rename && maxOccupancy.None?) || at.None? then s == Step(docs, None)
      else
        var room := docs[at.value];
        var after := room.(roomName := if rename then roomName.value else room.roomName,
                           maxOccupancy := maxOccupancy.GetOr(room.maxOccupancy));
        s == Step(docs[at.value := after], Some(after))
  {
    var us := RoomUpdates(roomName, maxOccupancy);
    match FirstMatch(docs, And(RoomIdIs(roomId), HostIdIs(hostId)))
    case None =>
    case Some(i) =>
      if roomName.Some? && roomName.value != "" && maxOccupancy.Some? {
        assert us == [SetRoomName(roomName.value), SetMaxOccupancy(maxOccupancy.value)];
        ApplyTwo(docs[i], SetRoomName(roomName.value), SetMaxOccupancy(maxOccupancy.value));
      } else if roomName.Some? && roomName.value != "" {
        assert us == [SetRoomName(roomName.value)];
        ApplyOne(docs[i], SetRoomName(roomName.value));
      } else if maxOccupancy.Some? {
        assert us == [SetMaxOccupancy(maxOccupancy.value)];
        ApplyOne(docs[i], SetMaxOccupancy(maxOccupancy.value));
      }
  }

  /** UpdateRoom never touches participants or privacy, so those parts of the invariant survive it. */
  lemma UpdateRoomKeepsParticipantsAndPrivacy(docs: seq<Room>, roomId: string, hostId: string, roomName: Option<string>, maxOccupancy: Option<int>)
    requires forall j :: 0 <= j < |docs| ==> NoDuplicates(docs[j].participantIds) && CodeIffPrivate(docs[j])
    ensures var after := UpdateRoom(docs, roomId, hostId, roomName, maxOccupancy).docs;
      forall j :: 0 <= j < |after| ==> NoDuplicates(after[j].participantIds) && CodeIffPrivate(after[j])
  {
    UpdateRoomOutcome(docs, roomId, hostId, roomName, maxOccupancy);
  }

  /** A room used in the two counterexamples below: two participants out of three seats. */
  function SampleRoom(roomId: string, roomName: string): Room {
    Room(roomId, roomName, 3, "host", ["ann", "bob"], None, 0.0, true, 0, false, None, 0)
  }

  /** UpdateRoom does not check that the current participants fit a lowered capacity. */
  lemma UpdateRoomMayOverfill()
    ensures var docs := [SampleRoom("a1b2c3d", "Movie night")];
      StoreInvariant(docs)
      && !StoreInvariant(UpdateRoom(docs, "a1b2c3d", "host", None, Some(1)).docs)
  {
    var docs := [SampleRoom("a1b2c3d", "Movie night")];
    UpdateRoomOutcome(docs, "a1b2c3d", "host", None, Some(1));
    assert FirstMatch(docs, And(RoomIdIs("a1b2c3d"), HostIdIs("host"))) == Some(0);
    assert !WithinCapacity(UpdateRoom(docs, "a1b2c3d", "host", None, Some(1)).docs[0]);
  }

  /** UpdateRoom does not check that the new name is free. */
  lemma UpdateRoomMayDuplicateName()
    ensures var docs := [SampleRoom("a1b2c3d", "Movie night"), SampleRoom("e4f5a6b", "Anime")];
      StoreInvariant(docs)
      && !StoreInvariant(UpdateRoom(docs, "e4f5a6b", "host", Some("Movie night"), None).docs)
  {
    var docs := [SampleRoom("a1b2c3d", "Movie night"), SampleRoom("e4f5a6b", "Anime")];
    assert docs[0].roomName != docs[1].roomName;
    UpdateRoomOutcome(docs, "e4f5a6b", "host", Some("Movie night"), None);
    assert !Matches(And(RoomIdIs("e4f5a6b"), HostIdIs("host")), docs[0]);
    assert FirstMatch(docs, And(RoomIdIs("e4f5a6b"), HostIdIs("host"))) == Some(1);
    var after := UpdateRoom(docs, "e4f5a6b", "host", Some("Movie night"), None).docs;
    assert after[0].roomName == after[1].roomName;
  }
}

=== FILE: room_grpc.dfy ===
/**
 * `RoomGrpcService`, the gRPC face of the room service. Each handler checks
 * its request and answers `InvalidArgument` when the check fails. Otherwise
 * it calls `RoomsServices` and turns a successful result into a reply; a
 * failed one becomes an `Internal` status carrying the service's message.
 * Protocol strings cannot be null, so "null or empty" is just empty here.
 */
module RoomGrpc {
  import opened Wrappers
  import opened Text
  import opened Rooms
  import opened OperationResults
  import Services = RoomsServices
  import RoomCollection

  datatype StatusCode = InvalidArgument | NotFound | Internal

  /** A handler either replies or throws an `RpcException` with a status. */
  datatype RpcResult<T> = Reply(value: T) | RpcError(code: StatusCode, detail: string)

  /** The wire form of a room: a missing current video becomes "". */
  datatype GrpcRoom = GrpcRoom(
    roomId: string,
    roomName: string,
    maxOccupancy: int,
    hostId: string,
    participantIds: seq<string>,
    currentVideoId: string,
    currentPlaybackPosition: real,
    isPaused: bool,
    lastSyncUpdate: int,
    isPrivate: bool,
    createdAt: int)

  datatype PublicRoomsPage = PublicRoomsPage(rooms: seq<GrpcRoom>, totalCount: int)

  datatype MakeRoomPrivateReply = MakeRoomPrivateReply(success: bool, newAccessCode: string)

  datatype PlaybackStateReply = PlaybackStateReply(
    currentPlaybackPosition: real,
    isPaused: bool,
    roomId: string,
    currentVideoId: string,
    lastSyncUpdate: int)

  function ToGrpcRoom(d: Services.RoomDto): GrpcRoom {
    GrpcRoom(d.roomId, d.roomName, d.maxOccupancy, d.hostId, d.participantIds, d.currentVideoId.GetOr(""),
      d.currentPlaybackPosition, d.isPaused, d.lastSyncUpdate, d.isPrivate, d.createdAt)
  }

  function ToGrpcRooms(ds: seq<Services.RoomDto>): seq<GrpcRoom> {
    seq(|ds|, i requires 0 <= i < |ds| => ToGrpcRoom(ds[i]))
  }

  /** A stored room as the handlers send it. */
  function Wire(r: Room): GrpcRoom {
    ToGrpcRoom(Services.MapOneToDto(r))
  }

  function WireAll(rooms: seq<Room>): seq<GrpcRoom> {
    ToGrpcRooms(Services.MapManyToDto(rooms))
  }

  /** The largest page the public listing and the search hand out. */
  const MaxPageSize := 100

  const RoomIdRequired := "Request cannot be null and RoomId must be provided"
  const RoomAndUserRequired := "Request cannot be null and RoomId/UserId must be provided"

  class RoomGrpcService {
    const roomService: Services.RoomsServices

    constructor (service: Services.RoomsServices)
      ensures roomService == service
    {
      roomService := service;
    }

    /** The rooms in the store behind the service. */
    function Stored(): seq<Room>
      reads roomService.roomsRepo
    {
      roomService.roomsRepo.rooms
    }

    method CreateRoom(roomName: string, hostId: string, maxOccupancy: int, isPrivate: bool, roomGuid: string, codeGuid: string, now: int)
      returns (res: RpcResult<GrpcRoom>)
      requires IsGuidN(roomGuid) && IsGuidN(codeGuid)
      modifies roomService.roomsRepo
      ensures IsBlank(roomName) || IsBlank(hostId) ==>
        res == RpcError(InvalidArgument, "Room name and Host ID cannot be null or empty") && Stored() == old(Stored())
      ensures !IsBlank(roomName) && !IsBlank(hostId) && maxOccupancy <= 0 ==>
        res == RpcError(InvalidArgument, "Max occupancy must be greater than 0") && Stored() == old(Stored())
      ensures !IsBlank(roomName) && !IsBlank(hostId) && maxOccupancy > 0 ==>
        var room := Services.RoomFromRequest(Services.CreateRoomRequest(roomName, hostId, maxOccupancy, isPrivate), roomGuid, codeGuid, now);
        var s := RoomCollection.CreateRoom(old(Stored()), room);
        Stored() == s.docs
        && res == if s.result.Some? then Reply(Wire(room)) else RpcError(Internal, "Failed to create room")
    {
      if IsBlank(roomName) || IsBlank(hostId) {
        return RpcError(InvalidArgument, "Room name and Host ID cannot be null or empty");
      }
      if maxOccupancy <= 0 {
        return RpcError(InvalidArgument, "Max occupancy must be greater than 0");
      }
      var result := roomService.CreateRoom(Services.CreateRoomRequest(roomName, hostId, maxOccupancy, isPrivate), roomGuid, codeGuid, now);
      if result.isSuccess {
        res := Reply(ToGrpcRoom(result.data.value));
      } else {
        res := RpcError(Internal, result.message);
      }
    }

    method DeleteRoom(roomId: string) returns (res: RpcResult<bool>)
      modifies roomService.roomsRepo
      ensures roomId == [] ==> res == RpcError(InvalidArgument, RoomIdRequired)
      ensures IsBlank(roomId) ==> Stored() == old(Stored())
      ensures roomId != [] && IsBlank(roomId) ==> res == RpcError(Internal, "Room ID cannot be null or empty")
      ensures !IsBlank(roomId) ==>
        var s := RoomCollection.DeleteRoom(old(Stored()), roomId);
        Stored() == s.docs && res == if s.result then Reply(true) else RpcError(Internal, "Failed to delete room")
    {
      if roomId == [] {
        return RpcError(InvalidArgument, RoomIdRequired);
      }
      var result := roomService.DeleteRoom(roomId);
      if result.isSuccess {
        res := Reply(true);
      } else {
        res := RpcError(Internal, result.message);
      }
    }

    /** A page of public rooms, never more than 100 of them, with their count. */
    method GetPublicRooms(page: int, pageSize: int) returns (res: RpcResult<PublicRoomsPage>)
      ensures page < 1 || pageSize < 1 ==>
        res == RpcError(InvalidArgument, "Request cannot be null and PageNumber/PageSize must be greater than 0")
      ensures page >= 1 && pageSize >= 1 ==> (res.Reply?
        && res.value.rooms == WireAll(RoomCollection.Page(RoomCollection.FindAll(Stored(), RoomCollection.IsPrivateIs(false)), page, RoomCollection.Min(pageSize, MaxPageSize)))
        && |res.value.rooms| <= MaxPageSize && res.value.totalCount == |res.value.rooms|
        && forall g :: g in res.value.rooms ==> !g.isPrivate)
    {
      if page < 1 || pageSize < 1 {
        return RpcError(InvalidArgument, "Request cannot be null and PageNumber/PageSize must be greater than 0");
      }
      var thePageSize := RoomCollection.Min(pageSize, MaxPageSize);
      var result := roomService.GetPublicRooms(page, thePageSize);
      var rooms := ToGrpcRooms(result.data.value);
      res := Reply(PublicRoomsPage(rooms, |rooms|));
      forall g | g in rooms ensures !g.isPrivate {
        var i :| 0 <= i < |rooms| && rooms[i] == g;
        assert result.data.value[i] in result.data.value;
      }
    }

    /** A fresh access code for a private room: six digits from 0-9 and A-F. */
    method GenerateNewRoomPass(roomId: string, codeGuid: string) returns (res: RpcResult<string>)
      requires IsGuidN(codeGuid)
      modifies roomService.roomsRepo
      ensures roomId == [] ==> res == RpcError(InvalidArgument, RoomIdRequired)
      ensures IsBlank(roomId) ==> Stored() == old(Stored())
      ensures roomId != [] && IsBlank(roomId) ==> res == RpcError(Internal, "Room ID cannot be null or empty")
      ensures !IsBlank(roomId) ==>
        var code := Services.GenerateRandomAccessCode(codeGuid);
        var s := RoomCollection.GenerateNewRoomPass(old(Stored()), roomId, code);
        Stored() == s.docs && res == if s.result.Some? then Reply(code) else RpcError(Internal, "Failed to generate new room pass")
      ensures res.Reply? ==> |res.value| == 6 && forall i :: 0 <= i < 6 ==> IsUpperHexDigit(res.value[i])
    {
      if roomId == [] {
        return RpcError(InvalidArgument, RoomIdRequired);
      }
      var result := roomService.GenerateNewRoomPass(roomId, codeGuid);
      if result.isSuccess {
        res := Reply(result.data.value);
      } else {
        res := RpcError(Internal, result.message);
      }
    }

    method GetAccessCode(roomId: string, hostId: string) returns (res: RpcResult<string>)
      ensures roomId == [] ==> res == RpcError(InvalidArgument, RoomIdRequired)
      ensures roomId != [] && (IsBlank(roomId) || IsBlank(hostId)) ==> res == RpcError(Internal, "Room ID and User ID cannot be null or empty")
      ensures !IsBlank(roomId) && !IsBlank(hostId) ==>
        var code := RoomCollection.GetAccessCode(Stored(), roomId, hostId);
        res == if code.Some? && !IsBlank(code.value) then Reply(code.value) else RpcError(Internal, "No access code found")
    {
      if roomId == [] {
        return RpcError(InvalidArgument, RoomIdRequired);
      }
      var result := roomService.GetAccessCode(roomId, hostId);
      if result.isSuccess {
        res := Reply(result.data.value);
      } else {
        res := RpcError(Internal, result.message);
      }
    }

    method GetRoomById(roomId: string) returns (res: RpcResult<GrpcRoom>)
      ensures IsBlank(roomId) ==> res == RpcError(InvalidArgument, RoomIdRequired)
      ensures !IsBlank(roomId) ==>
        var room := RoomCollection.FindFirst(Stored(), RoomCollection.RoomIdIs(roomId));
        res == if room.Some? then Reply(Wire(room.value)) else RpcError(Internal, "Room not found")
    {
      if IsBlank(roomId) {
        return RpcError(InvalidArgument, RoomIdRequired);
      }
      var result := roomService.GetRoomById(roomId);
      if result.isSuccess {
        res := Reply(ToGrpcRoom(result.data.value));
      } else {
        res := RpcError(Internal, result.message);
      }
    }

    /** Renames and/or resizes a room for its host; the reply is the updated room. */
    method UpdateRoom(roomId: string, roomName: string, maxOccupancy: int, hostId: string) returns (res: RpcResult<GrpcRoom>)
      modifies roomService.roomsRepo
      ensures roomId == [] ==> res == RpcError(InvalidArgument, RoomIdRequired) && Stored() == old(Stored())
      ensures roomId != [] && IsBlank(roomId) ==> res == RpcError(Internal, "Room ID cannot be empty") && Stored() == old(Stored())
      ensures !IsBlank(roomId) && IsBlank(hostId) ==> res == RpcError(Internal, "Host ID is required") && Stored() == old(Stored())
      ensures !IsBlank(roomId) && !IsBlank(hostId) ==>
        var s := RoomCollection.UpdateRoom(old(Stored()), roomId, hostId, Services.NewRoomName(roomName), Services.NewMaxOccupancy(maxOccupancy));
        Stored() == s.docs && res == if s.result.Some? then Reply(Wire(s.result.value)) else RpcError(Internal, "Failed to update room")
      ensures res.Reply? ==> res.value.roomId == roomId && res.value.hostId == hostId
    {
      if roomId == [] {
        return RpcError(InvalidArgument, RoomIdRequired);
      }
      var result := roomService.UpdateRoom(Services.UpdateRoomRequest(roomId, hostId, roomName, maxOccupancy));
      if result.isSuccess {
        res := Reply(ToGrpcRoom(result.data.value));
      } else {
        res := RpcError(Internal, result.message);
      }
    }

    method JoinRoom(roomId: string, userId: string) returns (res: RpcResult<bool>)
      modifies roomService.roomsRepo
      ensures roomId == [] || userId == [] ==> res == RpcError(InvalidArgument, RoomAndUserRequired)
      ensures IsBlank(roomId) || IsBlank(userId) ==> Stored() == old(Stored())
      ensures roomId != [] && userId != [] && (IsBlank(roomId) || IsBlank(userId)) ==>
        res == RpcError(Internal, "Room ID and User ID cannot be null or empty")
      ensures !IsBlank(roomId) && !IsBlank(userId) ==>
        var s := RoomCollection.JoinRoom(old(Stored()), roomId, userId);
        Stored() == s.docs && res == if s.result then Reply(true) else RpcError(Internal, "Failed to join room")
      ensures RoomCollection.StoreInvariant(old(Stored())) ==> RoomCollection.StoreInvariant(Stored())
    {
      if roomId == [] || userId == [] {
        return RpcError(InvalidArgument, RoomAndUserRequired);
      }
      var result := roomService.JoinRoom(roomId, userId);
      if result.isSuccess {
        res := Reply(true);
      } else {
        res := RpcError(Internal, result.message);
      }
    }

    method LeaveRoom(roomId: string, userId: string) returns (res: RpcResult<bool>)
      modifies roomService.roomsRepo
      ensures roomId == [] || userId == [] ==> res == RpcError(InvalidArgument, RoomAndUserRequired)
      ensures IsBlank(roomId) || IsBlank(userId) ==> Stored() == old(Stored())
      ensures roomId != [] && userId != [] && (IsBlank(roomId) || IsBlank(userId)) ==>
        res == RpcError(Internal, "Room ID and User ID cannot be null or empty")
      ensures !IsBlank(roomId) && !IsBlank(userId) ==>
        var s := RoomCollection.LeaveRoom(old(Stored()), roomId, userId);
        Stored() == s.docs && res == if s.result then Reply(true) else RpcError(Internal, "Failed to leave room")
      ensures RoomCollection.StoreInvariant(old(Stored())) ==> RoomCollection.StoreInvariant(Stored())
    {
      if roomId == [] || userId == [] {
        return RpcError(InvalidArgument, RoomAndUserRequired);
      }
      var result := roomService.LeaveRoom(roomId, userId);
      if result.isSuccess {
        res := Reply(true);
      } else {
        res := RpcError(Internal, result.message);
      }
    }

    method GetRoomsByHost(hostId: string) returns (res: RpcResult<seq<GrpcRoom>>)
      ensures IsBlank(hostId) ==> res == RpcError(InvalidArgument, "Request cannot be null and hostId must be provided")
      ensures !IsBlank(hostId) ==> res.Reply? && forall g :: g in res.value <==> exists r :: r in Stored() && r.hostId == hostId && g == Wire(r)
    {
      if IsBlank(hostId) {
        return RpcError(InvalidArgument, "Request cannot be null and hostId must be provided");
      }
      var result := roomService.GetRoomsByHost(hostId);
      var rooms := ToGrpcRooms(result.data.value);
      res := Reply(rooms);
      forall g ensures g in rooms <==> exists r :: r in Stored() && r.hostId == hostId && g == Wire(r) {
        if g in rooms {
          var i :| 0 <= i < |rooms| && rooms[i] == g;
          var d := result.data.value[i];
          assert d in result.data.value;
          var r :| r in Stored() && r.hostId == hostId && d == Services.MapOneToDto(r);
          assert g == Wire(r);
        }
        if exists r :: r in Stored() && r.hostId == hostId && g == Wire(r) {
          var r :| r in Stored() && r.hostId == hostId && g == Wire(r);
          var d := Services.MapOneToDto(r);
          assert d in result.data.value;
          var i :| 0 <= i < |result.data.value| && result.data.value[i] == d;
          assert rooms[i] == g;
        }
      }
    }

    method IsRoomFull(roomId: string) returns (res: RpcResult<bool>)
      ensures roomId == [] ==> res == RpcError(InvalidArgument, RoomIdRequired)
      ensures roomId != [] && IsBlank(roomId) ==> res == RpcError(Internal, "Room ID cannot be null or empty")
      ensures !IsBlank(roomId) ==> res == Reply(RoomCollection.IsRoomFull(Stored(), roomId))
    {
      if roomId == [] {
        return RpcError(InvalidArgument, RoomIdRequired);
      }
      var result := roomService.IsRoomFull(roomId);
      if result.isSuccess {
        res := Reply(result.data.value);
      } else {
        res := RpcError(Internal, result.message);
      }
    }

    method IsUserInRoom(roomId: string, userId: string) returns (res: RpcResult<bool>)
      ensures roomId == [] || userId == [] ==> res == RpcError(InvalidArgument, RoomAndUserRequired)
      ensures roomId != [] && userId != [] && (IsBlank(roomId) || IsBlank(userId)) ==>
        res == RpcError(Internal, "Room ID and User ID cannot be null or empty")
      ensures !IsBlank(roomId) && !IsBlank(userId) ==> (res.Reply?
        && (res.value <==> exists j :: 0 <= j < |Stored()| && Stored()[j].roomId == roomId && userId in Stored()[j].participantIds))
    {
      if roomId == [] || userId == [] {
        return RpcError(InvalidArgument, RoomAndUserRequired);
      }
      var result := roomService.IsUserInRoom(roomId, userId);
      assert Stored() == roomService.roomsRepo.rooms;
      if result.isSuccess {
        res := Reply(result.data.value);
      } else {
        res := RpcError(Internal, result.message);
      }
    }

    method MakeRoomPrivate(roomId: string, codeGuid: string) returns (res: RpcResult<MakeRoomPrivateReply>)
      requires IsGuidN(codeGuid)
      modifies roomService.roomsRepo
      ensures roomId == [] ==> res == RpcError(InvalidArgument, RoomIdRequired)
      ensures IsBlank(roomId) ==> Stored() == old(Stored())
      ensures roomId != [] && IsBlank(roomId) ==> res == RpcError(Internal, "Room ID cannot be null or empty")
      ensures !IsBlank(roomId) ==>
        var code := Services.GenerateRandomAccessCode(codeGuid);
        var s := RoomCollection.MakeRoomPrivate(old(Stored()), roomId, code);
        Stored() == s.docs
        && res == if s.result.Some? then Reply(MakeRoomPrivateReply(true, code)) else RpcError(Internal, "Failed to make room private")
      ensures RoomCollection.StoreInvariant(old(Stored())) ==> RoomCollection.StoreInvariant(Stored())
    {
      if roomId == [] {
        return RpcError(InvalidArgument, RoomIdRequired);
      }
      var result := roomService.MakeRoomPrivate(roomId, codeGuid);
      if result.isSuccess {
        res := Reply(MakeRoomPrivateReply(true, result.data.GetOr("")));
      } else {
        res := RpcError(Internal, result.message);
      }
    }

    method MakeRoomPublic(roomId: string) returns (res: RpcResult<bool>)
      modifies roomService.roomsRepo
      ensures roomId == [] ==> res == RpcError(InvalidArgument, RoomIdRequired)
      ensures IsBlank(roomId) ==> Stored() == old(Stored())
      ensures roomId != [] && IsBlank(roomId) ==> res == RpcError(Internal, "Room ID cannot be null or empty")
      ensures !IsBlank(roomId) ==>
        var s := RoomCollection.MakeRoomPublic(old(Stored()), roomId);
        Stored() == s.docs && res == if s.result then Reply(true) else RpcError(Internal, "Failed to make room public")
      ensures RoomCollection.StoreInvariant(old(Stored())) ==> RoomCollection.StoreInvariant(Stored())
    {
      if roomId == [] {
        return RpcError(InvalidArgument, RoomIdRequired);
      }
      var result := roomService.MakeRoomPublic(roomId);
      if result.isSuccess {
        res := Reply(true);
      } else {
        res := RpcError(Internal, result.message);
      }
    }

    method RoomExists(roomId: string) returns (res: RpcResult<bool>)
      ensures roomId == [] ==> res == RpcError(InvalidArgument, RoomIdRequired)
      ensures roomId != [] && IsBlank(roomId) ==> res == RpcError(Internal, "Room ID cannot be null or empty")
      ensures !IsBlank(roomId) ==> res.Reply? && (res.value <==> exists j :: 0 <= j < |Stored()| && Stored()[j].roomId == roomId)
    {
      if roomId == [] {
        return RpcError(InvalidArgument, RoomIdRequired);
      }
      var result := roomService.RoomExists(roomId);
      assert Stored() == roomService.roomsRepo.rooms;
      if result.isSuccess {
        res := Reply(result.data.value);
      } else {
        res := RpcError(Internal, result.message);
      }
    }

    method UpdateCurrentVideoId(roomId: string, newVideoId: string, now: int) returns (res: RpcResult<bool>)
      modifies roomService.roomsRepo
      ensures roomId == [] ==> res == RpcError(InvalidArgument, "Request cannot be null and RoomId/NewVideoId must be provided")
      ensures IsBlank(roomId) ==> Stored() == old(Stored())
      ensures roomId != [] && IsBlank(roomId) ==> res == RpcError(Internal, "Room ID cannot be null or empty")
      ensures !IsBlank(roomId) ==>
        var s := RoomCollection.UpdateCurrentVideoId(old(Stored()), roomId, if IsBlank(newVideoId) then None else Some(newVideoId), now);
        Stored() == s.docs && res == if s.result then Reply(true) else RpcError(Internal, "Failed to update current video ID")
      ensures RoomCollection.StoreInvariant(old(Stored())) ==> RoomCollection.StoreInvariant(Stored())
    {
      if roomId == [] {
        return RpcError(InvalidArgument, "Request cannot be null and RoomId/NewVideoId must be provided");
      }
      var result := roomService.UpdateCurrentVideoId(roomId, newVideoId, now);
      if result.isSuccess {
        res := Reply(true);
      } else {
        res := RpcError(Internal, result.message);
      }
    }

    method UpdatePlaybackState(roomId: string, position: real, isPaused: bool, videoId: string, now: int) returns (res: RpcResult<bool>)
      modifies roomService.roomsRepo
      ensures roomId == [] ==> res == RpcError(InvalidArgument, RoomIdRequired)
      ensures IsBlank(roomId) || IsBlank(videoId) ==> Stored() == old(Stored())
      ensures roomId != [] && IsBlank(roomId) ==> res == RpcError(Internal, "Room ID cannot be null or empty")
      ensures !IsBlank(roomId) && IsBlank(videoId) ==> res == RpcError(Internal, "Video ID cannot be null or empty")
      ensures !IsBlank(roomId) && !IsBlank(videoId) ==>
        var s := RoomCollection.UpdatePlaybackState(old(Stored()), roomId, position, isPaused, videoId, now);
        Stored() == s.docs && res == if s.result then Reply(true) else RpcError(Internal, "Failed to update playback state")
      ensures RoomCollection.StoreInvariant(old(Stored())) ==> RoomCollection.StoreInvariant(Stored())
    {
      if roomId == [] {
        return RpcError(InvalidArgument, RoomIdRequired);
      }
      var result := roomService.UpdatePlaybackState(roomId, position, isPaused, videoId, now);
      if result.isSuccess {
        res := Reply(true);
      } else {
        res := RpcError(Internal, result.message);
      }
    }

    /**
     * The playback state of a room. A missing room surfaces as `Internal`
     * with the service's "Room not found": the `NotFound` status of the
     * handler is never produced, since a successful service result always
     * carries data.
     */
    method GetPlaybackState(roomId: string) returns (res: RpcResult<PlaybackStateReply>)
      ensures IsBlank(roomId) ==> res == RpcError(InvalidArgument, "RoomId cannot be null or empty")
      ensures !IsBlank(roomId) ==>
        var room := RoomCollection.FindFirst(Stored(), RoomCollection.RoomIdIs(roomId));
        res == if room.None? then RpcError(Internal, "Room not found")
               else Reply(PlaybackStateReply(room.value.currentPlaybackPosition, room.value.isPaused, roomId,
                                             room.value.currentVideoId.GetOr(""), room.value.lastSyncUpdate))
      ensures res.RpcError? ==> res.code != NotFound
    {
      if IsBlank(roomId) {
        return RpcError(InvalidArgument, "RoomId cannot be null or empty");
      }
      var result := roomService.GetPlaybackStateForRoom(roomId);
      if result.isSuccess {
        var state := result.data.value;
        res := Reply(PlaybackStateReply(state.position, state.isPaused, roomId, state.videoId.GetOr(""), state.lastSyncUpdate));
      } else {
        res := RpcError(Internal, result.message);
      }
    }

    /**
     * Checks an access code. A wrong code is not answered with
     * `IsValid = false` but surfaces as `Internal` with "Invalid access
     * code"; every reply says `true`.
     */
    method ValidateRoomPass(roomId: string, accessCode: string) returns (res: RpcResult<bool>)
      ensures roomId == [] || accessCode == [] ==> res == RpcError(InvalidArgument, "Request cannot be null and RoomId/AccessCode must be provided")
      ensures roomId != [] && accessCode != [] && (IsBlank(roomId) || IsBlank(accessCode)) ==>
        res == RpcError(Internal, "Room ID and Access Code cannot be null or empty")
      ensures !IsBlank(roomId) && !IsBlank(accessCode) ==>
        res == if exists j :: 0 <= j < |Stored()| && Stored()[j].roomId == roomId && Stored()[j].accessCode == Some(accessCode)
               then Reply(true) else RpcError(Internal, "Invalid access code")
      ensures res.Reply? ==> res.value
    {
      if roomId == [] || accessCode == [] {
        return RpcError(InvalidArgument, "Request cannot be null and RoomId/AccessCode must be provided");
      }
      var result := roomService.ValidateRoomPass(roomId, accessCode);
      assert Stored() == roomService.roomsRepo.rooms;
      if result.isSuccess {
        res := Reply(result.data.value);
      } else {
        res := RpcError(Internal, result.message);
      }
    }

    /**
     * A page, of at most 100, of the rooms whose name or host matches the
     * term (`isMatch` stands for the case-insensitive regular-expression match).
     */
    method SearchRoom(searchTerm: string, isMatch: (string, string) -> bool, page: int, pageSize: int) returns (res: RpcResult<seq<GrpcRoom>>)
      ensures IsBlank(searchTerm) ==> res == RpcError(InvalidArgument, "Request cannot be null and SearchTerm must be provided")
      ensures !IsBlank(searchTerm) && (page < 1 || pageSize < 1) ==> res == RpcError(InvalidArgument, "Page and PageSize must be greater than 0")
      ensures !IsBlank(searchTerm) && page >= 1 && pageSize >= 1 ==> (res.Reply?
        && res.value == WireAll(RoomCollection.Page(RoomCollection.FindByNameOrHost(Stored(), searchTerm, isMatch), page, RoomCollection.Min(pageSize, MaxPageSize)))
        && |res.value| <= MaxPageSize
        && forall g :: g in res.value ==> isMatch(searchTerm, g.roomName) || isMatch(searchTerm, g.hostId))
    {
      if IsBlank(searchTerm) {
        return RpcError(InvalidArgument, "Request cannot be null and SearchTerm must be provided");
      }
      if page < 1 || pageSize < 1 {
        return RpcError(InvalidArgument, "Page and PageSize must be greater than 0");
      }
      var thePageSize := RoomCollection.Min(pageSize, MaxPageSize);
      var result := roomService.SearchRooms(searchTerm, isMatch, page, thePageSize);
      var rooms := ToGrpcRooms(result.data.value);
      res := Reply(rooms);
      forall g | g in rooms ensures isMatch(searchTerm, g.roomName) || isMatch(searchTerm, g.hostId) {
        var i :| 0 <= i < |rooms| && rooms[i] == g;
        assert result.data.value[i] in result.data.value;
      }
    }
  }
}

=== FILE: room_store.dfy ===
/**
 * `RoomsRepo`: the store of the room service. It owns the `Rooms`
 * collection and changes it in place; each method issues the collection
 * calls the source issues, in the same order, and its contract ties the
 * new contents of the collection to the function in `RoomCollection`
 * that describes the operation.
 */
module RoomStore {
  import opened Wrappers
  import opened Rooms
  import opened RoomCollection

  class RoomsRepo {
    /** The documents of the collection, in insertion order. */
    var rooms: seq<Room>

    constructor ()
      ensures rooms == []
    {
      rooms := [];
    }

    // -------------------------------------------------------------------
    // Collection calls
    // -------------------------------------------------------------------

    method FirstOrDefault(f: Filter) returns (found: Option<Room>)
      ensures found == FindFirst(rooms, f)
    {
      found := FindFirst(rooms, f);
    }

    method Any(f: Filter) returns (any: bool)
      ensures any == AnyMatch(rooms, f)
    {
      any := FindFirst(rooms, f).Some?;
    }

    method ToList(f: Filter) returns (found: seq<Room>)
      ensures found == FindAll(rooms, f)
    {
      found := FindAll(rooms, f);
    }

    method InsertOne(room: Room)
      modifies this
      ensures rooms == old(rooms) + [room]
    {
      rooms := rooms + [room];
    }

    method UpdateOne(f: Filter, us: seq<Update>) returns (modified: bool)
      modifies this
      ensures Step(rooms, modified) == RoomCollection.UpdateOne(old(rooms), f, us)
    {
      var at := FirstMatch(rooms, f);
      if at.None? {
        return false;
      }
      var updated := ApplyAll(rooms[at.value], us);
      modified := updated != rooms[at.value];
      rooms := rooms[at.value := updated];
    }

    method FindOneAndUpdate(f: Filter, us: seq<Update>) returns (after: Option<Room>)
      modifies this
      ensures Step(rooms, after) == RoomCollection.FindOneAndUpdate(old(rooms), f, us)
    {
      var at := FirstMatch(rooms, f);
      if at.None? {
        return None;
      }
      var updated := ApplyAll(rooms[at.value], us);
      rooms := rooms[at.value := updated];
      after := Some(updated);
    }

    method DeleteOne(f: Filter) returns (deleted: bool)
      modifies this
      ensures Step(rooms, deleted) == RoomCollection.DeleteOne(old(rooms), f)
    {
      var at := FirstMatch(rooms, f);
      if at.None? {
        return false;
      }
      rooms := rooms[..at.value] + rooms[at.value + 1..];
      deleted := true;
    }

    // -------------------------------------------------------------------
    // Store operations
    // -------------------------------------------------------------------

    method CreateRoom(room: Room) returns (created: Option<Room>)
      modifies this
      ensures Step(rooms, created) == RoomCollection.CreateRoom(old(rooms), room)
      ensures created.None? <==> exists j :: 0 <= j < |old(rooms)| && old(rooms)[j].roomName == room.roomName
      ensures StoreInvariant(old(rooms)) && RoomInvariant(room) ==> StoreInvariant(rooms)
    {
      CreateRoomOutcome(rooms, room);
      if StoreInvariant(rooms) && RoomInvariant(room) {
        CreateRoomKeepsInvariant(rooms, room);
      }
      var nameTaken := Any(RoomNameIs(room.roomName));
      if nameTaken {
        return None;
      }
      InsertOne(room);
      created := Some(room);
    }

    method DeleteRoom(roomId: string) returns (deleted: bool)
      modifies this
      ensures Step(rooms, deleted) == RoomCollection.DeleteRoom(old(rooms), roomId)
      ensures deleted <==> exists j :: 0 <= j < |old(rooms)| && old(rooms)[j].roomId == roomId
      ensures StoreInvariant(old(rooms)) ==> StoreInvariant(rooms)
    {
      DeleteRoomOutcome(rooms, roomId);
      if StoreInvariant(rooms) {
        DeleteRoomKeepsInvariant(rooms, roomId);
      }
      deleted := DeleteOne(RoomIdIs(roomId));
    }

    method GenerateNewRoomPass(roomId: string, newPass: string) returns (pass: Option<string>)
      modifies this
      ensures Step(rooms, pass) == RoomCollection.GenerateNewRoomPass(old(rooms), roomId, newPass)
      ensures pass.Some? ==> pass.value == newPass
      ensures StoreInvariant(old(rooms)) ==> StoreInvariant(rooms)
    {
      if StoreInvariant(rooms) {
        PrivacyOperationsKeepInvariant(rooms, roomId, newPass);
      }
      var modified := UpdateOne(And(RoomIdIs(roomId), IsPrivateIs(true)), [SetAccessCode(newPass)]);
      pass := if modified then Some(newPass) else None;
    }

    method GetAllRooms() returns (all: seq<Room>)
      ensures all == rooms
    {
      all := rooms;
    }

    method GetPrivateRooms() returns (found: seq<Room>)
      ensures forall r :: r in found <==> r in rooms && r.isPrivate
    {
      found := ToList(IsPrivateIs(true));
    }

    method GetPublicRooms(page: int, pageSize: int) returns (found: seq<Room>)
      requires page >= 1 && pageSize >= 1
      ensures found == Page(FindAll(rooms, IsPrivateIs(false)), page, pageSize)
      ensures |found| <= pageSize
      ensures forall r :: r in found ==> r in rooms && !r.isPrivate
    {
      var all := ToList(IsPrivateIs(false));
      found := Page(all, page, pageSize);
      forall r | r in found ensures r in all {
        var k :| 0 <= k < |found| && found[k] == r;
        assert r == all[Offset(page, pageSize) + k];
      }
    }

    method GetRoomById(roomId: string) returns (room: Option<Room>)
      ensures room == FindFirst(rooms, RoomIdIs(roomId))
      ensures room.Some? ==> room.value in rooms && room.value.roomId == roomId
      ensures room.None? <==> forall j :: 0 <= j < |rooms| ==> rooms[j].roomId != roomId
    {
      room := FirstOrDefault(RoomIdIs(roomId));
    }

    method GetRoomsByHost(hostId: string) returns (found: seq<Room>)
      ensures forall r :: r in found <==> r in rooms && r.hostId == hostId
    {
      found := ToList(HostIdIs(hostId));
    }

    method JoinRoom(roomId: string, userId: string) returns (joined: bool)
      modifies this
      ensures Step(rooms, joined) == RoomCollection.JoinRoom(old(rooms), roomId, userId)
      ensures StoreInvariant(old(rooms)) ==> StoreInvariant(rooms)
    {
      if StoreInvariant(rooms) {
        JoinRoomKeepsInvariant(rooms, roomId, userId);
      }
      var room := FirstOrDefault(RoomIdIs(roomId));
      if room.None? {
        return false;
      }
      if userId in room.value.participantIds {
        return true;
      }
      if |room.value.participantIds| >= room.value.maxOccupancy {
        return false;
      }
      joined := UpdateOne(RoomIdIs(roomId), [Push(userId)]);
    }

    method LeaveRoom(roomId: string, userId: string) returns (left: bool)
      modifies this
      ensures Step(rooms, left) == RoomCollection.LeaveRoom(old(rooms), roomId, userId)
      ensures StoreInvariant(old(rooms)) ==> StoreInvariant(rooms)
    {
      if StoreInvariant(rooms) {
        LeaveRoomKeepsInvariant(rooms, roomId, userId);
      }
      left := UpdateOne(RoomIdIs(roomId), [Pull(userId)]);
    }

    method ValidateRoomPass(roomId: string, accessCode: string) returns (valid: bool)
      ensures valid <==> exists j :: 0 <= j < |rooms| && rooms[j].roomId == roomId && rooms[j].accessCode == Some(accessCode)
    {
      valid := Any(And(RoomIdIs(roomId), AccessCodeIs(accessCode)));
      forall j | 0 <= j < |rooms|
        ensures Matches(And(RoomIdIs(roomId), AccessCodeIs(accessCode)), rooms[j])
            <==> rooms[j].roomId == roomId && rooms[j].accessCode == Some(accessCode)
      {
        assert Matches(RoomIdIs(roomId), rooms[j]) <==> rooms[j].roomId == roomId;
      }
    }

    method RoomExists(roomId: string) returns (found: bool)
      ensures found <==> exists j :: 0 <= j < |rooms| && rooms[j].roomId == roomId
    {
      found := Any(RoomIdIs(roomId));
    }

    method SearchRooms(searchTerm: string, isMatch: (string, string) -> bool, page: int, pageSize: int) returns (found: seq<Room>)
      requires page >= 1 && pageSize >= 1
      ensures found == Page(FindByNameOrHost(rooms, searchTerm, isMatch), page, pageSize)
      ensures |found| <= pageSize
      ensures forall r :: r in found ==> r in rooms && (isMatch(searchTerm, r.roomName) || isMatch(searchTerm, r.hostId))
    {
      var all := FindByNameOrHost(rooms, searchTerm, isMatch);
      found := Page(all, page, pageSize);
      forall r | r in found ensures r in all {
        var k :| 0 <= k < |found| && found[k] == r;
        assert r == all[Offset(page, pageSize) + k];
      }
    }

    method UpdatePlaybackState(roomId: string, position: real, isPaused: bool, videoId: string, now: int) returns (updated: bool)
      modifies this
      ensures Step(rooms, updated) == RoomCollection.UpdatePlaybackState(old(rooms), roomId, position, isPaused, videoId, now)
      ensures StoreInvariant(old(rooms)) ==> StoreInvariant(rooms)
    {
      if StoreInvariant(rooms) {
        UpdatePlaybackStateKeepsInvariant(rooms, roomId, position, isPaused, videoId, now);
      }
      updated := UpdateOne(And(RoomIdIs(roomId), CurrentVideoIdIs(videoId)),
        [SetPlaybackPosition(position), SetIsPaused(isPaused), SetLastSyncUpdate(now)]);
    }

    /** Builds the list of updates from what the caller supplied, then applies it. */
    method UpdateRoom(roomId: string, hostId: string, roomName: Option<string>, maxOccupancy: Option<int>) returns (updated: Option<Room>)
      modifies this
      ensures Step(rooms, updated) == RoomCollection.UpdateRoom(old(rooms), roomId, hostId, roomName, maxOccupancy)
      ensures updated.Some? ==> updated.value.roomId == roomId && updated.value.hostId == hostId
    {
      UpdateRoomOutcome(rooms, roomId, hostId, roomName, maxOccupancy);
      var updates: seq<Update> := [];
      if roomName.Some? && roomName.value != "" {
        updates := updates + [SetRoomName(roomName.value)];
      }
      if maxOccupancy.Some? {
        updates := updates + [SetMaxOccupancy(maxOccupancy.value)];
      }
      assert updates == RoomUpdates(roomName, maxOccupancy);
      if |updates| == 0 {
        return None;
      }
      var at := FirstMatch(rooms, And(RoomIdIs(roomId), HostIdIs(hostId)));
      if at.Some? {
        assert Matches(RoomIdIs(roomId), rooms[at.value]) && Matches(HostIdIs(hostId), rooms[at.value]);
      }
      updated := FindOneAndUpdate(And(RoomIdIs(roomId), HostIdIs(hostId)), updates);
    }

    method IsRoomFull(roomId: string) returns (full: bool)
      ensures full == RoomCollection.IsRoomFull(rooms, roomId)
      ensures full ==> exists j :: 0 <= j < |rooms| && rooms[j].roomId == roomId && |rooms[j].participantIds| >= rooms[j].maxOccupancy
    {
      var room := FirstOrDefault(RoomIdIs(roomId));
      if room.None? {
        return false;
      }
      full := |room.value.participantIds| >= room.value.maxOccupancy;
    }

    method MakeRoomPrivate(roomId: string, newPass: string) returns (pass: Option<string>)
      modifies this
      ensures Step(rooms, pass) == RoomCollection.MakeRoomPrivate(old(rooms), roomId, newPass)
      ensures pass.Some? ==> pass.value == newPass
      ensures StoreInvariant(old(rooms)) ==> StoreInvariant(rooms)
    {
      if StoreInvariant(rooms) {
        PrivacyOperationsKeepInvariant(rooms, roomId, newPass);
      }
      var modified := UpdateOne(And(RoomIdIs(roomId), IsPrivateIs(false)), [SetIsPrivate(true), SetAccessCode(newPass)]);
      pass := if modified then Some(newPass) else None;
    }

    method MakeRoomPublic(roomId: string) returns (madePublic: bool)
      modifies this
      ensures Step(rooms, madePublic) == RoomCollection.MakeRoomPublic(old(rooms), roomId)
      ensures StoreInvariant(old(rooms)) ==> StoreInvariant(rooms)
    {
      if StoreInvariant(rooms) {
        PrivacyOperationsKeepInvariant(rooms, roomId, "");
      }
      madePublic := UpdateOne(And(RoomIdIs(roomId), IsPrivateIs(true)), [SetIsPrivate(false), UnsetAccessCode]);
    }

    method IsUserInRoom(roomId: string, userId: string) returns (present: bool)
      ensures present <==> exists j :: 0 <= j < |rooms| && rooms[j].roomId == roomId && userId in rooms[j].participantIds
    {
      present := Any(And(RoomIdIs(roomId), HasParticipant(userId)));
      forall j | 0 <= j < |rooms|
        ensures Matches(And(RoomIdIs(roomId), HasParticipant(userId)), rooms[j])
            <==> rooms[j].roomId == roomId && userId in rooms[j].participantIds
      {
        assert Matches(RoomIdIs(roomId), rooms[j]) <==> rooms[j].roomId == roomId;
      }
    }

    method GetAccessCode(roomId: string, hostId: string) returns (code: Option<string>)
      ensures code == RoomCollection.GetAccessCode(rooms, roomId, hostId)
      ensures code.Some? ==> exists j :: 0 <= j < |rooms| && rooms[j].roomId == roomId
    {
      var room := FirstOrDefault(RoomIdIs(roomId));
      if room.None? {
        return None;
      }
      if room.value.isPrivate && room.value.hostId != hostId {
        return None;
      }
      code := Some(room.value.accessCode.GetOr(""));
    }

    method UpdateCurrentVideoId(roomId: string, videoId: Option<string>, now: int) returns (updated: bool)
      modifies this
      ensures Step(rooms, updated) == RoomCollection.UpdateCurrentVideoId(old(rooms), roomId, videoId, now)
      ensures StoreInvariant(old(rooms)) ==> StoreInvariant(rooms)
    {
      if StoreInvariant(rooms) {
        UpdateCurrentVideoIdKeepsInvariant(rooms, roomId, videoId, now);
      }
      updated := UpdateOne(RoomIdIs(roomId),
        [SetCurrentVideoId(videoId), SetPlaybackPosition(0.0), SetIsPaused(true), SetLastSyncUpdate(now)]);
    }
  }
}

=== FILE: room_sync_hub.dfy ===
/**
 * `RoomSyncHub`, the real-time hub clients stay connected to while they
 * watch. It remembers, per connection, which room and user the connection
 * joined as and whether it claimed to be the host; it keeps the room groups;
 * and it relays video and playback changes to the other members of a room.
 *
 * One hub object stands for the hub class: its `connections` field is the
 * static connection table that all hub instances share, `groups` is the
 * group manager's membership, and `sent` records every `SendAsync` in order,
 * with the connections its audience held at the moment it was sent.
 */
module RoomHub {
  import opened Wrappers
  import opened Text
  import opened Rooms
  import RoomCollection
  import RoomSync

  /** What the connection table keeps for one connection. */
  datatype Connection = Connection(roomId: string, userId: string, isHost: bool)

  /** The client methods the hub invokes, with their arguments. */
  datatype ClientCall =
    | UserJoined(userId: string)
    | InitializePlayback(videoId: string, position: real, isPaused: bool)
    | ReceiveNewVideoId(videoId: string)
    | ReceivePlaybackState(position: real, isPaused: bool)
    | UserLeft(userId: string)
    | HostDisconnected

  /** One send: the connections it reaches and the call they receive. */
  datatype Delivery = Delivery(recipients: set<string>, call: ClientCall)

  /** How a hub method ends: normally, or with an exception for the caller. */
  datatype HubOutcome = Completed | Thrown(message: string)

  const OnlyHostChangesVideos := "Only the host can change videos"

  /** What the hub's join reports when the room service turns the join down. */
  function JoinFailure(roomId: string, userId: string): string {
    if IsBlank(roomId) then "Invalid room ID"
    else if IsBlank(userId) then "Invalid user ID"
    else RoomSync.JoinFailedPrefix + "Failed to join room"
  }

  class RoomSyncHub {
    const roomService: RoomSync.RoomSyncService
    var connections: map<string, Connection>
    var groups: map<string, set<string>>
    var sent: seq<Delivery>

    constructor (service: RoomSync.RoomSyncService)
      ensures roomService == service
      ensures connections == map[] && groups == map[] && sent == []
    {
      roomService := service;
      connections := map[];
      groups := map[];
      sent := [];
    }

    /** The rooms in the store behind the sync service. */
    function Stored(): seq<Room>
      reads roomService.Repo()
    {
      roomService.Stored()
    }

    /** The connections in a room's group. */
    function Members(roomId: string): set<string>
      reads this
    {
      if roomId in groups then groups[roomId] else {}
    }

    /**
     * Whether the calling connection may act as the host of the room: the
     * hub consults only what the connection declared when it joined.
     */
    predicate ValidateHost(connectionId: string, roomId: string)
      reads this
    {
      connectionId in connections && connections[connectionId].roomId == roomId && connections[connectionId].isHost
    }

    /**
     * Registers the connection, joins the room's group and announces the
     * user to the group (the new member included) before the room service
     * records the join. If the room service refuses, the hub throws but
     * keeps the registration and the group membership; otherwise it sends
     * the room's playback state to the caller alone.
     */
    method JoinRoom(connectionId: string, roomId: string, userId: string, isHost: bool) returns (outcome: HubOutcome)
      modifies this, roomService.Repo()
      ensures connections == old(connections)[connectionId := Connection(roomId, userId, isHost)]
      ensures groups == old(groups)[roomId := old(Members(roomId)) + {connectionId}]
      ensures ValidateHost(connectionId, roomId) == isHost
      ensures IsBlank(roomId) || IsBlank(userId) ==> Stored() == old(Stored())
      ensures !IsBlank(roomId) && !IsBlank(userId) ==> Stored() == RoomCollection.JoinRoom(old(Stored()), roomId, userId).docs
      ensures var announce := Delivery(old(Members(roomId)) + {connectionId}, UserJoined(userId));
        if !IsBlank(roomId) && !IsBlank(userId) && RoomCollection.JoinRoom(old(Stored()), roomId, userId).result then
          var room := RoomCollection.FindFirst(old(Stored()), RoomCollection.RoomIdIs(roomId));
          outcome == Completed && room.Some?
          && sent == old(sent) + [announce, Delivery({connectionId},
               InitializePlayback(room.value.currentVideoId.GetOr(""), room.value.currentPlaybackPosition, room.value.isPaused))]
        else
          outcome == Thrown(JoinFailure(roomId, userId)) && sent == old(sent) + [announce]
    {
      Register(connectionId, roomId, userId, isHost);
      ghost var before := old(Stored());
      var result := roomService.JoinRoom(roomId, userId);
      if !result.isSuccess {
        return Thrown(result.message);
      }
      RoomCollection.JoinRoomKeepsPlayback(before, roomId, userId);
      SendPlayback(connectionId, roomId);
      outcome := Completed;
    }

    /**
     * The first half of a join: the connection is recorded with what it
     * declared, added to the room's group, and the group is told who joined.
     */
    method Register(connectionId: string, roomId: string, userId: string, isHost: bool)
      modifies this
      ensures connections == old(connections)[connectionId := Connection(roomId, userId, isHost)]
      ensures groups == old(groups)[roomId := old(Members(roomId)) + {connectionId}]
      ensures sent == old(sent) + [Delivery(old(Members(roomId)) + {connectionId}, UserJoined(userId))]
    {
      connections := connections[connectionId := Connection(roomId, userId, isHost)];
      groups := groups[roomId := Members(roomId) + {connectionId}];
      sent := sent + [Delivery(Members(roomId), UserJoined(userId))];
    }

    /** Sends the stored playback state of a room to one connection. */
    method SendPlayback(connectionId: string, roomId: string)
      requires !IsBlank(roomId) && RoomCollection.FindFirst(Stored(), RoomCollection.RoomIdIs(roomId)).Some?
      modifies this
      ensures connections == old(connections) && groups == old(groups)
      ensures var room := RoomCollection.FindFirst(Stored(), RoomCollection.RoomIdIs(roomId)).value;
        sent == old(sent) + [Delivery({connectionId},
          InitializePlayback(room.currentVideoId.GetOr(""), room.currentPlaybackPosition, room.isPaused))]
    {
      var playbackState := roomService.GetPlaybackStateForRoom(roomId);
      // The room is in the store, so the lookup cannot come back empty.
      assert playbackState.data.Some?;
      var data := playbackState.data.value;
      sent := sent + [Delivery({connectionId}, InitializePlayback(data.videoId, data.position, data.isPaused))];
    }

    /**
     * Loads a video for the room and tells the whole group to show it from
     * the start, paused. Only a connection registered as the room's host may
     * do so; the group is told even when the room service declines.
     */
    method HostSetVideo(connectionId: string, roomId: string, videoId: string, userId: string, now: int) returns (outcome: HubOutcome)
      modifies this, roomService.Repo()
      ensures connections == old(connections) && groups == old(groups)
      ensures !old(ValidateHost(connectionId, roomId)) ==>
        outcome == Thrown(OnlyHostChangesVideos) && sent == old(sent) && Stored() == old(Stored())
      ensures old(ValidateHost(connectionId, roomId)) ==> (outcome == Completed
        && sent == old(sent) + [Delivery(Members(roomId), ReceiveNewVideoId(videoId)), Delivery(Members(roomId), ReceivePlaybackState(0.0, true))]
        && var room := RoomCollection.FindFirst(old(Stored()), RoomCollection.RoomIdIs(roomId));
           Stored() == if !IsBlank(roomId) && !IsBlank(userId) && room.Some? && room.value.hostId == userId
                       then RoomCollection.UpdateCurrentVideoId(old(Stored()), roomId, if IsBlank(videoId) then None else Some(videoId), now).docs
                       else old(Stored()))
    {
      if !ValidateHost(connectionId, roomId) {
        return Thrown(OnlyHostChangesVideos);
      }
      var _ := roomService.UpdateCurrentVideoId(roomId, videoId, userId, now);
      sent := sent + [Delivery(Members(roomId), ReceiveNewVideoId(videoId))];
      sent := sent + [Delivery(Members(roomId), ReceivePlaybackState(0.0, true))];
      outcome := Completed;
    }

    /**
     * Relays the host's playback position to the rest of the group after
     * recording it; a caller that is not the registered host is ignored.
     */
    method UpdatePlaybackState(connectionId: string, roomId: string, position: real, isPaused: bool, videoId: string, now: int)
      modifies this, roomService.Repo()
      ensures connections == old(connections) && groups == old(groups)
      ensures !old(ValidateHost(connectionId, roomId)) ==> sent == old(sent) && Stored() == old(Stored())
      ensures old(ValidateHost(connectionId, roomId)) ==> (
        sent == old(sent) + [Delivery(Members(roomId) - {connectionId}, ReceivePlaybackState(position, isPaused))]
        && Stored() == if !IsBlank(roomId) && !IsBlank(videoId) && position >= 0.0
                       then RoomCollection.UpdatePlaybackState(old(Stored()), roomId, position, isPaused, videoId, now).docs
                       else old(Stored()))
    {
      if !ValidateHost(connectionId, roomId) {
        return;
      }
      var _ := roomService.UpdatePlaybackState(roomId, position, isPaused, videoId, now);
      sent := sent + [Delivery(Members(roomId) - {connectionId}, ReceivePlaybackState(position, isPaused))];
    }

    /**
     * Cleans up after a connection: forgets it, leaves the room durably,
     * tells the group (the leaver still included), drops it from the group
     * and, if it was the host, tells the remaining members. A connection the
     * hub does not know changes nothing.
     */
    method OnDisconnected(connectionId: string)
      modifies this, roomService.Repo()
      ensures connectionId !in old(connections) ==>
        connections == old(connections) && groups == old(groups) && sent == old(sent) && Stored() == old(Stored())
      ensures connectionId in old(connections) ==> (
        var c := old(connections)[connectionId];
        connections == old(connections) - {connectionId}
        && groups == old(groups)[c.roomId := old(Members(c.roomId)) - {connectionId}]
        && sent == old(sent) + [Delivery(old(Members(c.roomId)), UserLeft(c.userId))]
                  + (if c.isHost then [Delivery(old(Members(c.roomId)) - {connectionId}, HostDisconnected)] else [])
        && Stored() == if !IsBlank(c.roomId) && !IsBlank(c.userId)
                       then RoomCollection.LeaveRoom(old(Stored()), c.roomId, c.userId).docs
                       else old(Stored()))
      ensures connectionId !in connections
    {
      if connectionId !in connections {
        return;
      }
      var data := connections[connectionId];
      connections := connections - {connectionId};
      var _ := roomService.LeaveRoom(data.roomId, data.userId);
      sent := sent + [Delivery(Members(data.roomId), UserLeft(data.userId))];
      groups := groups[data.roomId := Members(data.roomId) - {connectionId}];
      if data.isHost {
        sent := sent + [Delivery(Members(data.roomId), HostDisconnected)];
      }
    }
  }
}

=== FILE: room_sync_service.dfy ===
/**
 * `RoomSyncService`, the sync service's client of the room service. Each
 * operation checks its arguments, calls the gRPC client, and turns a reply
 * into a success and an `RpcException` into a failure with a fixed message.
 * The operations that act for a host (delete, new pass, privacy, current
 * video) first fetch the room and compare its host with the caller.
 *
 * The gRPC hop is collapsed: the client here is the `RoomGrpcService`
 * object itself, so every contract is stated end to end, in terms of the
 * rooms in the store behind it.
 */
module RoomSync {
  import opened Wrappers
  import opened Text
  import opened Rooms
  import opened OperationResults
  import opened RoomGrpc
  import Services = RoomsServices
  import RoomCollection
  import RoomStore

  /** The sync service's room copies every field of the wire room, one for one. */
  type RoomDto = GrpcRoom

  datatype PlaybackStateDto = PlaybackStateDto(roomId: string, videoId: string, position: real, isPaused: bool, lastSyncUpdate: int)

  function StatusCodeName(code: StatusCode): string {
    match code
    case InvalidArgument => "InvalidArgument"
    case NotFound => "NotFound"
    case Internal => "Internal"
  }

  /** `RpcException.Message`: `Status(StatusCode="<code>", Detail="<detail>")`. */
  function RpcExceptionMessage(code: StatusCode, detail: string): (m: string)
    ensures "Status(" <= m && m[|m| - 1] == ')'
  {
    "Status(StatusCode=\"" + StatusCodeName(code) + "\", Detail=\"" + detail + "\")"
  }

  /** The first three replacements: the exception and status wrappers and every ')' go. */
  function Unwrap(errorMessage: string): (r: string)
    ensures ')' !in r
  {
    Replace(Replace(Replace(errorMessage, "RpcException: ", ""), "Status(", ""), ")", "")
  }

  /** The status names the readable form spells out, in the order they are replaced. */
  const StatusNames: seq<(string, string)> := [
    ("Internal", "An internal server error occurred"),
    ("NotFound", "The requested resource was not found"),
    ("InvalidArgument", "Invalid argument provided"),
    ("AlreadyExists", "Resource already exists"),
    ("PermissionDenied", "Permission denied"),
    ("Unauthenticated", "User is not authenticated")]

  /** Helper for `SpellOutStatusNames`: the first half of the table, split off to keep the proof small. */
  lemma FirstStatusNamesPlain()
    ensures forall i :: 0 <= i < 3 ==> StatusNames[i].0 != [] && ')' !in StatusNames[i].1
  {}

  /** Helper for `SpellOutStatusNames`: the second half of the table. */
  lemma LastStatusNamesPlain()
    ensures forall i :: 3 <= i < 6 ==> StatusNames[i].0 != [] && ')' !in StatusNames[i].1
  {}

  /** No spelled-out name contains ')', so spelling names out brings none back. */
  function SpellOutStatusNames(s: string): (r: string)
    ensures ')' !in s ==> ')' !in r
  {
    FirstStatusNamesPlain();
    LastStatusNamesPlain();
    ReplaceEach(s, StatusNames)
  }

  /**
   * The readable form of an `RpcException` message that the service logs:
   * the wrappers and every ')' removed, status names spelled out, runs of
   * white space collapsed to one space, and the ends trimmed.
   */
  function TranslateRpcErrorMessage(errorMessage: string): (r: string)
    ensures ')' !in r
    ensures r == [] || (!IsWhiteSpace(r[0]) && !IsWhiteSpace(r[|r| - 1]))
    ensures NoAdjacentWhiteSpace(r)
  {
    Trim(CollapseWhiteSpace(SpellOutStatusNames(Unwrap(errorMessage))))
  }

  /** What a failed room lookup reports, and so what the host-checked operations report for a missing room. */
  const FetchRoomFailed := "Failed to fetch room with ID"

  const JoinFailedPrefix := "Failed too join room, gRPC error: "

  class RoomSyncService {
    const roomServiceClient: RoomGrpcService

    constructor (client: RoomGrpcService)
      ensures roomServiceClient == client
    {
      roomServiceClient := client;
    }

    /** The store behind the gRPC client. */
    function Repo(): RoomStore.RoomsRepo {
      roomServiceClient.roomService.roomsRepo
    }

    function Stored(): seq<Room>
      reads Repo()
    {
      Repo().rooms
    }

    method CreateRoom(req: Services.CreateRoomRequest, roomGuid: string, codeGuid: string, now: int) returns (res: OperationResult<RoomDto>)
      requires IsGuidN(roomGuid) && IsGuidN(codeGuid)
      modifies Repo()
      ensures IsBlank(req.roomName) || IsBlank(req.hostId) ==>
        res == Failure(None, "Room name and host ID are required") && Stored() == old(Stored())
      ensures !IsBlank(req.roomName) && !IsBlank(req.hostId) && req.maxOccupancy <= 0 ==>
        res == Failure(None, "Room not created") && Stored() == old(Stored())
      ensures !IsBlank(req.roomName) && !IsBlank(req.hostId) && req.maxOccupancy > 0 ==>
        var room := Services.RoomFromRequest(req, roomGuid, codeGuid, now);
        var s := RoomCollection.CreateRoom(old(Stored()), room);
        Stored() == s.docs
        && res == if s.result.Some? then Success(Some(Wire(room)), "Room created successfully") else Failure(None, "Room not created")
    {
      if IsBlank(req.roomName) || IsBlank(req.hostId) {
        return Failure(None, "Room name and host ID are required");
      }
      var result := roomServiceClient.CreateRoom(req.roomName, req.hostId, req.maxOccupancy, req.isPrivate, roomGuid, codeGuid, now);
      match result
      case Reply(room) => res := Success(Some(room), "Room created successfully");
      case RpcError(_, _) => res := Failure(None, "Room not created");
    }

    /** `GetRoomByIdsync`: the room with the id, as the wire sends it. */
    method GetRoomById(roomId: string) returns (res: OperationResult<RoomDto>)
      ensures IsBlank(roomId) ==> res == Failure(None, "Invalid room ID")
      ensures !IsBlank(roomId) ==>
        var room := RoomCollection.FindFirst(Stored(), RoomCollection.RoomIdIs(roomId));
        res == if room.Some? then Success(Some(Wire(room.value)), "Room fetched successfully") else Failure(None, FetchRoomFailed)
      ensures res.isSuccess ==> res.data.Some? && res.data.value.roomId == roomId
    {
      if IsBlank(roomId) {
        return Failure(None, "Invalid room ID");
      }
      var result := roomServiceClient.GetRoomById(roomId);
      match result
      case Reply(room) => res := Success(Some(room), "Room fetched successfully");
      case RpcError(_, _) => res := Failure(None, FetchRoomFailed);
    }

    /**
     * Deletes a room for its host or for an administrator; anyone else is
     * refused before the store is touched.
     */
    method DeleteRoom(roomId: string, userId: string, isAdmin: bool) returns (res: OperationResult<bool>)
      modifies Repo()
      ensures IsBlank(roomId) ==> res == Failure(Some(false), "Invalid room ID") && Stored() == old(Stored())
      ensures !IsBlank(roomId) && IsBlank(userId) ==> res == Failure(Some(false), "Invalid user ID") && Stored() == old(Stored())
      ensures !IsBlank(roomId) && !IsBlank(userId) ==>
        var room := RoomCollection.FindFirst(old(Stored()), RoomCollection.RoomIdIs(roomId));
        if room.None? then res == Failure(Some(false), FetchRoomFailed) && Stored() == old(Stored())
        else if room.value.hostId != userId && !isAdmin then
          res == Failure(Some(false), "You do not have permission to delete this room") && Stored() == old(Stored())
        else res == Success(Some(true), "Room deleted successfully") && Stored() == RoomCollection.DeleteRoom(old(Stored()), roomId).docs
    {
      if IsBlank(roomId) {
        return Failure(Some(false), "Invalid room ID");
      }
      if IsBlank(userId) {
        return Failure(Some(false), "Invalid user ID");
      }
      var roomToDelete := GetRoomById(roomId);
      if !roomToDelete.isSuccess || roomToDelete.data.None? {
        return Failure(Some(false), roomToDelete.message);
      }
      if roomToDelete.data.value.hostId != userId && !isAdmin {
        return Failure(Some(false), "You do not have permission to delete this room");
      }
      var result := roomServiceClient.DeleteRoom(roomId);
      match result
      case Reply(_) => res := Success(Some(true), "Room deleted successfully");
      case RpcError(_, _) => res := Failure(Some(false), "Failed to delete room");
    }

    /** A new access code for a private room, for its host only. */
    method GenerateNewRoomPass(roomId: string, userId: string, codeGuid: string) returns (res: OperationResult<string>)
      requires IsGuidN(codeGuid)
      modifies Repo()
      ensures IsBlank(roomId) ==> res == Failure(None, "Invalid room ID") && Stored() == old(Stored())
      ensures !IsBlank(roomId) && IsBlank(userId) ==> res == Failure(None, "Invalid user ID") && Stored() == old(Stored())
      ensures !IsBlank(roomId) && !IsBlank(userId) ==>
        var room := RoomCollection.FindFirst(old(Stored()), RoomCollection.RoomIdIs(roomId));
        if room.None? then res == Failure(None, FetchRoomFailed) && Stored() == old(Stored())
        else if room.value.hostId != userId then
          res == Failure(None, "You do not have permission to generate a new room pass for this room") && Stored() == old(Stored())
        else
          var code := Services.GenerateRandomAccessCode(codeGuid);
          var s := RoomCollection.GenerateNewRoomPass(old(Stored()), roomId, code);
          Stored() == s.docs
          && res == if s.result.Some? then Success(Some(code), "New room pass generated successfully")
                    else Failure(None, "Failed to generate new room pass for room")
    {
      if IsBlank(roomId) {
        return Failure(None, "Invalid room ID");
      }
      if IsBlank(userId) {
        return Failure(None, "Invalid user ID");
      }
      var roomToUpdate := GetRoomById(roomId);
      if !roomToUpdate.isSuccess || roomToUpdate.data.None? {
        return Failure(None, roomToUpdate.message);
      }
      if roomToUpdate.data.value.hostId != userId {
        return Failure(None, "You do not have permission to generate a new room pass for this room");
      }
      var result := roomServiceClient.GenerateNewRoomPass(roomId, codeGuid);
      match result
      case Reply(code) => res := Success(Some(code), "New room pass generated successfully");
      case RpcError(_, _) => res := Failure(None, "Failed to generate new room pass for room");
    }

    method GetAccessCode(roomId: string, hostId: string) returns (res: OperationResult<string>)
      ensures IsBlank(roomId) ==> res == Failure(None, "Invalid room ID")
      ensures !IsBlank(roomId) && IsBlank(hostId) ==> res == Failure(None, "Invalid host ID")
      ensures !IsBlank(roomId) && !IsBlank(hostId) ==>
        var code := RoomCollection.GetAccessCode(Stored(), roomId, hostId);
        res == if code.Some? && !IsBlank(code.value) then Success(code, "Access code retrieved successfully")
               else Failure(None, "Failed to get access code for room ")
    {
      if IsBlank(roomId) {
        return Failure(None, "Invalid room ID");
      }
      if IsBlank(hostId) {
        return Failure(None, "Invalid host ID");
      }
      var result := roomServiceClient.GetAccessCode(roomId, hostId);
      match result
      case Reply(code) => res := Success(Some(code), "Access code retrieved successfully");
      case RpcError(_, _) => res := Failure(None, "Failed to get access code for room ");
    }

    /** A page of public rooms; the room service caps the page at 100 rooms. */
    method GetPublicRooms(page: int, pageSize: int) returns (res: OperationResult<seq<RoomDto>>)
      ensures page < 1 || pageSize < 1 ==> res == Failure(None, "Invalid pagination parameters")
      ensures page >= 1 && pageSize >= 1 ==>
        var rooms := WireAll(RoomCollection.Page(RoomCollection.FindAll(Stored(), RoomCollection.IsPrivateIs(false)), page, RoomCollection.Min(pageSize, MaxPageSize)));
        res == if rooms == [] then Success(Some([]), "No public rooms found") else Success(Some(rooms), "Public rooms fetched successfully")
      ensures res.isSuccess ==> |res.data.value| <= MaxPageSize && forall g :: g in res.data.value ==> !g.isPrivate
    {
      if page < 1 || pageSize < 1 {
        return Failure(None, "Invalid pagination parameters");
      }
      var result := roomServiceClient.GetPublicRooms(page, pageSize);
      match result
      case Reply(reply) =>
        if reply.rooms == [] {
          res := Success(Some([]), "No public rooms found");
        } else {
          res := Success(Some(reply.rooms), "Public rooms fetched successfully");
        }
      case RpcError(_, _) => res := Failure(None, "Failed to fetch public rooms");
    }

    method GetRoomsByHost(hostId: string) returns (res: OperationResult<seq<RoomDto>>)
      ensures IsBlank(hostId) ==> res == Failure(None, "Invalid host ID")
      ensures !IsBlank(hostId) ==> (res.isSuccess && res.data.Some?
        && (forall g :: g in res.data.value <==> exists r :: r in Stored() && r.hostId == hostId && g == Wire(r))
        && res.message == if res.data.value == [] then "No rooms found for the specified host" else "Rooms fetched successfully")
    {
      if IsBlank(hostId) {
        return Failure(None, "Invalid host ID");
      }
      var result := roomServiceClient.GetRoomsByHost(hostId);
      match result
      case Reply(rooms) =>
        if rooms == [] {
          res := Success(Some([]), "No rooms found for the specified host");
        } else {
          res := Success(Some(rooms), "Rooms fetched successfully");
        }
      case RpcError(_, _) => res := Failure(None, "Failed to fetch rooms by host ID");
    }

    /**
     * Whether the room is full. An `RpcException` would surface with its own
     * message; for a non-blank id the room service always replies.
     */
    method IsRoomFull(roomId: string) returns (res: OperationResult<bool>)
      ensures IsBlank(roomId) ==> res == Failure(Some(false), "Invalid room ID")
      ensures !IsBlank(roomId) ==>
        res == Success(Some(RoomCollection.IsRoomFull(Stored(), roomId)), "Room full status checked successfully")
    {
      if IsBlank(roomId) {
        return Failure(Some(false), "Invalid room ID");
      }
      var result := roomServiceClient.IsRoomFull(roomId);
      match result
      case Reply(isFull) => res := Success(Some(isFull), "Room full status checked successfully");
      case RpcError(code, detail) => res := Failure(Some(false), RpcExceptionMessage(code, detail));
    }

    method IsUserInRoom(roomId: string, userId: string) returns (res: OperationResult<bool>)
      ensures IsBlank(roomId) ==> res == Failure(Some(false), "Invalid room ID")
      ensures !IsBlank(roomId) && IsBlank(userId) ==> res == Failure(Some(false), "Invalid user ID")
      ensures !IsBlank(roomId) && !IsBlank(userId) ==> (res.isSuccess && res.data.Some?
        && res.message == "User in room status checked successfully"
        && (res.data.value <==> exists j :: 0 <= j < |Stored()| && Stored()[j].roomId == roomId && userId in Stored()[j].participantIds))
    {
      if IsBlank(roomId) {
        return Failure(Some(false), "Invalid room ID");
      }
      if IsBlank(userId) {
        return Failure(Some(false), "Invalid user ID");
      }
      var result := roomServiceClient.IsUserInRoom(roomId, userId);
      assert Stored() == roomServiceClient.Stored();
      match result
      case Reply(isInRoom) => res := Success(Some(isInRoom), "User in room status checked successfully");
      case RpcError(_, _) => res := Failure(Some(false), "Failed to check if user is in room");
    }

    /**
     * Adds the user to the room. A refusal by the store reaches the caller
     * as a failure carrying the room service's detail.
     */
    method JoinRoom(roomId: string, userId: string) returns (res: OperationResult<bool>)
      modifies Repo()
      ensures IsBlank(roomId) ==> res == Failure(Some(false), "Invalid room ID") && Stored() == old(Stored())
      ensures !IsBlank(roomId) && IsBlank(userId) ==> res == Failure(Some(false), "Invalid user ID") && Stored() == old(Stored())
      ensures !IsBlank(roomId) && !IsBlank(userId) ==>
        var s := RoomCollection.JoinRoom(old(Stored()), roomId, userId);
        Stored() == s.docs
        && res == if s.result then Success(Some(true), "Room joined successfully")
                  else Failure(Some(false), JoinFailedPrefix + "Failed to join room")
      ensures RoomCollection.StoreInvariant(old(Stored())) ==> RoomCollection.StoreInvariant(Stored())
    {
      if IsBlank(roomId) {
        return Failure(Some(false), "Invalid room ID");
      }
      if IsBlank(userId) {
        return Failure(Some(false), "Invalid user ID");
      }
      var result := roomServiceClient.JoinRoom(roomId, userId);
      match result
      case Reply(success) =>
        if !success {
          res := Failure(Some(false), "Join failed");
        } else {
          res := Success(Some(success), "Room joined successfully");
        }
      case RpcError(_, detail) => res := Failure(Some(false), JoinFailedPrefix + detail);
    }

    method LeaveRoom(roomId: string, userId: string) returns (res: OperationResult<bool>)
      modifies Repo()
      ensures IsBlank(roomId) ==> res == Failure(Some(false), "Invalid room ID") && Stored() == old(Stored())
      ensures !IsBlank(roomId) && IsBlank(userId) ==> res == Failure(Some(false), "Invalid user ID") && Stored() == old(Stored())
      ensures !IsBlank(roomId) && !IsBlank(userId) ==>
        var s := RoomCollection.LeaveRoom(old(Stored()), roomId, userId);
        Stored() == s.docs
        && res == if s.result then Success(Some(true), "Room left successfully") else Failure(Some(false), "Failed to leave room with ID")
      ensures RoomCollection.StoreInvariant(old(Stored())) ==> RoomCollection.StoreInvariant(Stored())
    {
      if IsBlank(roomId) {
        return Failure(Some(false), "Invalid room ID");
      }
      if IsBlank(userId) {
        return Failure(Some(false), "Invalid user ID");
      }
      var result := roomServiceClient.LeaveRoom(roomId, userId);
      match result
      case Reply(success) => res := Success(Some(success), "Room left successfully");
      case RpcError(_, _) => res := Failure(Some(false), "Failed to leave room with ID");
    }

    /** Makes a public room private with a fresh code, for its host only. */
    method MakeRoomPrivate(roomId: string, userId: string, codeGuid: string) returns (res: OperationResult<string>)
      requires IsGuidN(codeGuid)
      modifies Repo()
      ensures IsBlank(roomId) ==> res == Failure(None, "Invalid room ID") && Stored() == old(Stored())
      ensures !IsBlank(roomId) && IsBlank(userId) ==> res == Failure(None, "Invalid user ID") && Stored() == old(Stored())
      ensures !IsBlank(roomId) && !IsBlank(userId) ==>
        var room := RoomCollection.FindFirst(old(Stored()), RoomCollection.RoomIdIs(roomId));
        if room.None? then res == Failure(None, FetchRoomFailed) && Stored() == old(Stored())
        else if room.value.hostId != userId then
          res == Failure(None, "You do not have permission to make this room private") && Stored() == old(Stored())
        else
          var code := Services.GenerateRandomAccessCode(codeGuid);
          var s := RoomCollection.MakeRoomPrivate(old(Stored()), roomId, code);
          Stored() == s.docs
          && res == if s.result.Some? then Success(Some(code), "Room made private successfully")
                    else Failure(None, "Failed to make room privat")
      ensures RoomCollection.StoreInvariant(old(Stored())) ==> RoomCollection.StoreInvariant(Stored())
    {
      if IsBlank(roomId) {
        return Failure(None, "Invalid room ID");
      }
      if IsBlank(userId) {
        return Failure(None, "Invalid user ID");
      }
      var roomToUpdate := GetRoomById(roomId);
      if !roomToUpdate.isSuccess || roomToUpdate.data.None? {
        return Failure(None, roomToUpdate.message);
      }
      if roomToUpdate.data.value.hostId != userId {
        return Failure(None, "You do not have permission to make this room private");
      }
      var result := roomServiceClient.MakeRoomPrivate(roomId, codeGuid);
      match result
      case Reply(reply) =>
        if !reply.success {
          res := Failure(None, "Room is already private or an error occurred");
        } else {
          res := Success(Some(reply.newAccessCode), "Room made private successfully");
        }
      case RpcError(_, _) => res := Failure(None, "Failed to make room privat");
    }

    /** Makes a private room public and drops its code, for its host only. */
    method MakeRoomPublic(roomId: string, userId: string) returns (res: OperationResult<bool>)
      modifies Repo()
      ensures IsBlank(roomId) ==> res == Failure(Some(false), "Invalid room ID") && Stored() == old(Stored())
      ensures !IsBlank(roomId) && IsBlank(userId) ==> res == Failure(Some(false), "Invalid user ID") && Stored() == old(Stored())
      ensures !IsBlank(roomId) && !IsBlank(userId) ==>
        var room := RoomCollection.FindFirst(old(Stored()), RoomCollection.RoomIdIs(roomId));
        if room.None? then res == Failure(Some(false), FetchRoomFailed) && Stored() == old(Stored())
        else if room.value.hostId != userId then
          res == Failure(Some(false), "You do not have permission to make this room public") && Stored() == old(Stored())
        else
          var s := RoomCollection.MakeRoomPublic(old(Stored()), roomId);
          Stored() == s.docs
          && res == if s.result then Success(Some(true), "Room made public successfully") else Failure(Some(false), "Failed to make room public")
      ensures RoomCollection.StoreInvariant(old(Stored())) ==> RoomCollection.StoreInvariant(Stored())
    {
      if IsBlank(roomId) {
        return Failure(Some(false), "Invalid room ID");
      }
      if IsBlank(userId) {
        return Failure(Some(false), "Invalid user ID");
      }
      var roomToUpdate := GetRoomById(roomId);
      if !roomToUpdate.isSuccess || roomToUpdate.data.None? {
        return Failure(Some(false), roomToUpdate.message);
      }
      if roomToUpdate.data.value.hostId != userId {
        return Failure(Some(false), "You do not have permission to make this room public");
      }
      var result := roomServiceClient.MakeRoomPublic(roomId);
      match result
      case Reply(success) =>
        if !success {
          res := Failure(Some(false), "Room is already public or an error occurred");
        } else {
          res := Success(Some(true), "Room made public successfully");
        }
      case RpcError(_, _) => res := Failure(Some(false), "Failed to make room public");
    }

    method RoomExists(roomId: string) returns (res: OperationResult<bool>)
      ensures IsBlank(roomId) ==> res == Failure(Some(false), "Invalid room ID")
      ensures !IsBlank(roomId) ==> (res.isSuccess && res.data.Some? && res.message == "Room existence checked successfully"
        && (res.data.value <==> exists j :: 0 <= j < |Stored()| && Stored()[j].roomId == roomId))
    {
      if IsBlank(roomId) {
        return Failure(Some(false), "Invalid room ID");
      }
      var result := roomServiceClient.RoomExists(roomId);
      assert Stored() == roomServiceClient.Stored();
      match result
      case Reply(exists_) => res := Success(Some(exists_), "Room existence checked successfully");
      case RpcError(_, _) => res := Failure(Some(false), "Failed to check if room exists");
    }

    /**
     * Searches room names and hosts. Unlike the other listings, an empty
     * result is reported as a failure carrying an empty list.
     */
    method SearchRooms(searchTerm: string, isMatch: (string, string) -> bool, page: int, pageSize: int) returns (res: OperationResult<seq<RoomDto>>)
      ensures IsBlank(searchTerm) ==> res == Failure(None, "Invalid search parameters")
      ensures !IsBlank(searchTerm) && (page < 1 || pageSize < 1) ==> res == Failure(None, "Invalid pagination parameters")
      ensures !IsBlank(searchTerm) && page >= 1 && pageSize >= 1 ==>
        var rooms := WireAll(RoomCollection.Page(RoomCollection.FindByNameOrHost(Stored(), searchTerm, isMatch), page, RoomCollection.Min(pageSize, MaxPageSize)));
        res == if rooms == [] then Failure(Some([]), "No rooms found matching the search term")
               else Success(Some(rooms), "Rooms searched successfully")
      ensures res.isSuccess ==> (|res.data.value| <= MaxPageSize
        && forall g :: g in res.data.value ==> isMatch(searchTerm, g.roomName) || isMatch(searchTerm, g.hostId))
    {
      if IsBlank(searchTerm) {
        return Failure(None, "Invalid search parameters");
      }
      if page < 1 || pageSize < 1 {
        return Failure(None, "Invalid pagination parameters");
      }
      var result := roomServiceClient.SearchRoom(searchTerm, isMatch, page, pageSize);
      match result
      case Reply(rooms) =>
        if rooms == [] {
          res := Failure(Some([]), "No rooms found matching the search term");
        } else {
          res := Success(Some(rooms), "Rooms searched successfully");
        }
      case RpcError(_, _) => res := Failure(None, "Failed searching rooms with term");
    }

    /**
     * Loads a video into a room for its host, rewinding playback; a blank
     * video id unloads the video.
     */
    method UpdateCurrentVideoId(roomId: string, videoId: string, userId: string, now: int) returns (res: OperationResult<bool>)
      modifies Repo()
      ensures IsBlank(roomId) ==> res == Failure(Some(false), "Invalid room ID") && Stored() == old(Stored())
      ensures !IsBlank(roomId) && IsBlank(userId) ==> res == Failure(Some(false), "Invalid user ID") && Stored() == old(Stored())
      ensures !IsBlank(roomId) && !IsBlank(userId) ==>
        var room := RoomCollection.FindFirst(old(Stored()), RoomCollection.RoomIdIs(roomId));
        if room.None? then res == Failure(Some(false), FetchRoomFailed) && Stored() == old(Stored())
        else if room.value.hostId != userId then
          res == Failure(Some(false), "You do not have permission to update the current video ID for this room") && Stored() == old(Stored())
        else
          var s := RoomCollection.UpdateCurrentVideoId(old(Stored()), roomId, if IsBlank(videoId) then None else Some(videoId), now);
          Stored() == s.docs
          && res == if s.result then Success(Some(true), "Current video ID updated successfully") else Failure(Some(false), "Failed to update current video")
      ensures RoomCollection.StoreInvariant(old(Stored())) ==> RoomCollection.StoreInvariant(Stored())
    {
      if IsBlank(roomId) {
        return Failure(Some(false), "Invalid room ID");
      }
      if IsBlank(userId) {
        return Failure(Some(false), "Invalid user ID");
      }
      var roomToUpdate := GetRoomById(roomId);
      if !roomToUpdate.isSuccess || roomToUpdate.data.None? {
        return Failure(Some(false), roomToUpdate.message);
      }
      if roomToUpdate.data.value.hostId != userId {
        return Failure(Some(false), "You do not have permission to update the current video ID for this room");
      }
      var result := roomServiceClient.UpdateCurrentVideoId(roomId, videoId, now);
      match result
      case Reply(success) => res := Success(Some(success), "Current video ID updated successfully");
      case RpcError(_, _) => res := Failure(Some(false), "Failed to update current video");
    }

    /**
     * Records a playback position. There is no check on who asks; the store
     * ignores an update for a video that is not the room's current one.
     */
    method UpdatePlaybackState(roomId: string, position: real, isPaused: bool, videoId: string, now: int) returns (res: OperationResult<bool>)
      modifies Repo()
      ensures IsBlank(roomId) ==> res == Failure(Some(false), "Invalid room ID") && Stored() == old(Stored())
      ensures !IsBlank(roomId) && IsBlank(videoId) ==> res == Failure(Some(false), "Invalid video ID") && Stored() == old(Stored())
      ensures !IsBlank(roomId) && !IsBlank(videoId) && position < 0.0 ==>
        res == Failure(Some(false), "Invalid playback position") && Stored() == old(Stored())
      ensures !IsBlank(roomId) && !IsBlank(videoId) && position >= 0.0 ==>
        var s := RoomCollection.UpdatePlaybackState(old(Stored()), roomId, position, isPaused, videoId, now);
        Stored() == s.docs
        && res == if s.result then Success(Some(true), "Playback state updated successfully")
                  else Failure(Some(false), "Failed to update playback state for room")
      ensures RoomCollection.StoreInvariant(old(Stored())) ==> RoomCollection.StoreInvariant(Stored())
    {
      if IsBlank(roomId) {
        return Failure(Some(false), "Invalid room ID");
      }
      if IsBlank(videoId) {
        return Failure(Some(false), "Invalid video ID");
      }
      if position < 0.0 {
        return Failure(Some(false), "Invalid playback position");
      }
      var result := roomServiceClient.UpdatePlaybackState(roomId, position, isPaused, videoId, now);
      match result
      case Reply(success) => res := Success(Some(success), "Playback state updated successfully");
      case RpcError(_, _) => res := Failure(Some(false), "Failed to update playback state for room");
    }

    /** The playback state of a room; no video loaded reads as "". */
    method GetPlaybackStateForRoom(roomId: string) returns (res: OperationResult<PlaybackStateDto>)
      ensures IsBlank(roomId) ==> res == Failure(None, "Invalid room ID")
      ensures !IsBlank(roomId) ==>
        var room := RoomCollection.FindFirst(Stored(), RoomCollection.RoomIdIs(roomId));
        res == if room.None? then Failure(None, "Failed to get playback state for room")
               else Success(Some(PlaybackStateDto(roomId, room.value.currentVideoId.GetOr(""), room.value.currentPlaybackPosition,
                                                  room.value.isPaused, room.value.lastSyncUpdate)),
                            "Playback state retrieved successfully")
    {
      if IsBlank(roomId) {
        return Failure(None, "Invalid room ID");
      }
      var result := roomServiceClient.GetPlaybackState(roomId);
      match result
      case Reply(state) =>
        res := Success(Some(PlaybackStateDto(state.roomId, state.currentVideoId, state.currentPlaybackPosition, state.isPaused, state.lastSyncUpdate)),
                       "Playback state retrieved successfully");
      case RpcError(_, _) => res := Failure(None, "Failed to get playback state for room");
    }

    /** Passes the update through unchecked; every refusal reads "Failed to update room with ID". */
    method UpdateRoom(req: Services.UpdateRoomRequest) returns (res: OperationResult<RoomDto>)
      modifies Repo()
      ensures IsBlank(req.roomId) || IsBlank(req.hostId) ==> res == Failure(None, "Failed to update room with ID") && Stored() == old(Stored())
      ensures !IsBlank(req.roomId) && !IsBlank(req.hostId) ==>
        var s := RoomCollection.UpdateRoom(old(Stored()), req.roomId, req.hostId, Services.NewRoomName(req.roomName), Services.NewMaxOccupancy(req.maxOccupancy));
        Stored() == s.docs
        && res == if s.result.Some? then Success(Some(Wire(s.result.value)), "Room updated successfully")
                  else Failure(None, "Failed to update room with ID")
      ensures res.isSuccess ==> res.data.Some? && res.data.value.roomId == req.roomId && res.data.value.hostId == req.hostId
    {
      var result := roomServiceClient.UpdateRoom(req.roomId, req.roomName, req.maxOccupancy, req.hostId);
      match result
      case Reply(room) => res := Success(Some(room), "Room updated successfully");
      case RpcError(_, _) => res := Failure(None, "Failed to update room with ID");
    }

    /**
     * Checks an access code. A wrong code comes back as a failure, never as
     * a success saying `false`.
     */
    method ValidateRoomPass(roomId: string, accessCode: string) returns (res: OperationResult<bool>)
      ensures IsBlank(roomId) ==> res == Failure(Some(false), "Invalid room ID")
      ensures !IsBlank(roomId) && IsBlank(accessCode) ==> res == Failure(Some(false), "Invalid access code must have value")
      ensures !IsBlank(roomId) && !IsBlank(accessCode) ==>
        res == if exists j :: 0 <= j < |Stored()| && Stored()[j].roomId == roomId && Stored()[j].accessCode == Some(accessCode)
               then Success(Some(true), "Room pass validated successfully")
               else Failure(Some(false), "Failed to validate room pass for room")
      ensures res.isSuccess ==> res.data == Some(true)
    {
      if IsBlank(roomId) {
        return Failure(Some(false), "Invalid room ID");
      }
      if IsBlank(accessCode) {
        return Failure(Some(false), "Invalid access code must have value");
      }
      var result := roomServiceClient.ValidateRoomPass(roomId, accessCode);
      assert Stored() == roomServiceClient.Stored();
      match result
      case Reply(isValid) => res := Success(Some(isValid), "Room pass validated successfully");
      case RpcError(_, _) => res := Failure(Some(false), "Failed to validate room pass for room");
    }
  }
}

=== FILE: rooms.dfy ===
/**
 * The `Rooms` document of the room service: one watch-party room with its
 * participants, its playback state and its privacy settings.
 */
module Rooms {
  import opened Wrappers
  import opened Text

  /**
   * A stored room. `currentPlaybackPosition` is a number of seconds;
   * `lastSyncUpdate` and `createdAt` are instants in clock ticks.
   */
  datatype Room = Room(
    roomId: string,
    roomName: string,
    maxOccupancy: int,
    hostId: string,
    participantIds: seq<string>,
    currentVideoId: Option<string>,
    currentPlaybackPosition: real,
    isPaused: bool,
    lastSyncUpdate: int,
    isPrivate: bool,
    accessCode: Option<string>,
    createdAt: int)

  /** `Guid.ToString("N")`: 32 lower-case hexadecimal digits. */
  predicate IsGuidN(g: string) {
    |g| == 32 && forall i :: 0 <= i < |g| ==> IsLowerHexDigit(g[i])
  }

  /** Each participant is listed once. */
  predicate NoDuplicates(ids: seq<string>) {
    forall i, j :: 0 <= i < j < |ids| ==> ids[i] != ids[j]
  }

  predicate WithinCapacity(r: Room) {
    |r.participantIds| <= r.maxOccupancy
  }

  /** A room carries an access code exactly when it is private. */
  predicate CodeIffPrivate(r: Room) {
    r.accessCode.Some? <==> r.isPrivate
  }

  predicate RoomInvariant(r: Room) {
    NoDuplicates(r.participantIds) && WithinCapacity(r) && CodeIffPrivate(r)
  }

  /** No video is loaded, the position is at the start and playback is paused. */
  predicate PlaybackAtRest(r: Room) {
    r.currentVideoId.None? && r.currentPlaybackPosition == 0.0 && r.isPaused
  }

  /**
   * `new Rooms()`: the field initialisers, with the fresh GUID and the clock
   * reading given as parameters. The host id is `null!` in the source and
   * every creator overwrites it; it starts as "" here.
   */
  function NewRoom(guid: string, now: int): (r: Room)
    requires IsGuidN(guid)
    ensures |r.roomId| == 7 && forall i :: 0 <= i < 7 ==> IsLowerHexDigit(r.roomId[i])
    ensures r.participantIds == [] && r.maxOccupancy == 20 && RoomInvariant(r)
    ensures PlaybackAtRest(r)
    ensures !r.isPrivate && r.accessCode.None?
    ensures r.lastSyncUpdate == now && r.createdAt == now
  {
    Room(
      roomId := guid[..7],
      roomName := "",
      maxOccupancy := 20,
      hostId := "",
      participantIds := [],
      currentVideoId := None,
      currentPlaybackPosition := 0.0,
      isPaused := true,
      lastSyncUpdate := now,
      isPrivate := false,
      accessCode := None,
      createdAt := now)
  }
}

=== FILE: rooms_services.dfy ===
/**
 * `RoomsServices`, the business layer of the room service: it checks the
 * arguments, calls the repository, and wraps every answer in an
 * `OperationResult` with a fixed message. The stored rooms are exposed to
 * callers only as `RoomDto`s, which leave the access code out.
 *
 * Fresh GUIDs are parameters (`roomGuid` for a new room's id, `codeGuid`
 * for a new access code), and so is the clock reading `now`.
 */
module RoomsServices {
  import opened Wrappers
  import opened Text
  import opened Rooms
  import opened OperationResults
  import RoomCollection
  import RoomStore

  /** What callers see of a room: everything except the access code. */
  datatype RoomDto = RoomDto(
    roomId: string,
    roomName: string,
    maxOccupancy: int,
    hostId: string,
    participantIds: seq<string>,
    currentVideoId: Option<string>,
    currentPlaybackPosition: real,
    isPaused: bool,
    lastSyncUpdate: int,
    isPrivate: bool,
    createdAt: int)

  /** `CreateRoom_Req`; a null name or host id takes the same branch as a blank one. */
  datatype CreateRoomRequest = CreateRoomRequest(roomName: string, hostId: string, maxOccupancy: int, isPrivate: bool)

  /** `UpdateRoom_Req`; a null name behaves as "", a missing capacity as 0. */
  datatype UpdateRoomRequest = UpdateRoomRequest(roomId: string, hostId: string, roomName: string, maxOccupancy: int)

  datatype PlaybackStateDto = PlaybackStateDto(videoId: Option<string>, position: real, isPaused: bool, lastSyncUpdate: int)

  function MapOneToDto(r: Room): RoomDto {
    RoomDto(r.roomId, r.roomName, r.maxOccupancy, r.hostId, r.participantIds, r.currentVideoId,
      r.currentPlaybackPosition, r.isPaused, r.lastSyncUpdate, r.isPrivate, r.createdAt)
  }

  function MapManyToDto(rooms: seq<Room>): seq<RoomDto> {
    seq(|rooms|, i requires 0 <= i < |rooms| => MapOneToDto(rooms[i]))
  }

  /**
   * The DTO keeps every field but the access code: two rooms have the same
   * DTO exactly when they differ at most in their access codes.
   */
  lemma DtoHidesOnlyAccessCode(a: Room, b: Room)
    ensures MapOneToDto(a) == MapOneToDto(b) <==> a.(accessCode := b.accessCode) == b
  {
  }

  /**
   * A new access code: the first six digits of a fresh GUID, upper-cased,
   * so six digits from 0-9 and A-F.
   */
  function GenerateRandomAccessCode(guid: string): (code: string)
    requires IsGuidN(guid)
    ensures |code| == 6 && forall i :: 0 <= i < 6 ==> IsUpperHexDigit(code[i])
    ensures EqualsIgnoreCase(code, guid[..6])
    ensures !IsBlank(code)
  {
    var code := ToUpperString(guid[..6]);
    assert !IsWhiteSpace(code[0]);
    code
  }

  /**
   * The room `CreateRoomAsync` hands to the repository: a new room with
   * the requested name, capacity, host and privacy, and a fresh access
   * code exactly when it is private.
   */
  function RoomFromRequest(req: CreateRoomRequest, roomGuid: string, codeGuid: string, now: int): (r: Room)
    requires IsGuidN(roomGuid) && IsGuidN(codeGuid)
    ensures r.roomName == req.roomName && r.hostId == req.hostId && r.maxOccupancy == req.maxOccupancy
    ensures r.participantIds == [] && PlaybackAtRest(r) && r.createdAt == now
    ensures r.isPrivate == req.isPrivate && CodeIffPrivate(r)
    ensures r.accessCode.Some? ==> |r.accessCode.value| == 6 && !IsBlank(r.accessCode.value)
    ensures req.maxOccupancy >= 0 ==> RoomInvariant(r)
  {
    NewRoom(roomGuid, now).(
      roomName := req.roomName,
      maxOccupancy := req.maxOccupancy,
      hostId := req.hostId,
      isPrivate := req.isPrivate,
      accessCode := if req.isPrivate then Some(GenerateRandomAccessCode(codeGuid)) else None)
  }

  /** The room name `UpdateRoomAsync` passes on: none when blank, otherwise trimmed. */
  function NewRoomName(roomName: string): (name: Option<string>)
    ensures name.None? <==> IsBlank(roomName)
    ensures name.Some? ==> name.value != [] && !IsWhiteSpace(name.value[0]) && !IsWhiteSpace(name.value[|name.value| - 1])
    ensures name.Some? ==> TrimmedFrom(roomName, name.value)
  {
    if IsBlank(roomName) then None
    else
      Some(Trim(roomName))
  }

  /** The capacity `UpdateRoomAsync` passes on: only a positive one. */
  function NewMaxOccupancy(maxOccupancy: int): (m: Option<int>)
    ensures m.Some? <==> maxOccupancy > 0
    ensures m.Some? ==> m.value == maxOccupancy
  {
    if maxOccupancy > 0 then Some(maxOccupancy) else None
  }

  class RoomsServices {
    const roomsRepo: RoomStore.RoomsRepo

    constructor (repo: RoomStore.RoomsRepo)
      ensures roomsRepo == repo
    {
      roomsRepo := repo;
    }

    /**
     * A blank name or host, or a capacity below 1, is refused before the
     * store is touched; otherwise the room is created unless its name is
     * taken, and the answer is the new room's DTO.
     */
    method CreateRoom(req: CreateRoomRequest, roomGuid: string, codeGuid: string, now: int) returns (res: OperationResult<RoomDto>)
      requires IsGuidN(roomGuid) && IsGuidN(codeGuid)
      modifies roomsRepo
      ensures IsBlank(req.roomName) || IsBlank(req.hostId) ==>
        res == Failure(None, "Room name and Host ID cannot be null or empty") && roomsRepo.rooms == old(roomsRepo.rooms)
      ensures !IsBlank(req.roomName) && !IsBlank(req.hostId) && req.maxOccupancy <= 0 ==>
        res == Failure(None, "Max occupancy must be greater than 0") && roomsRepo.rooms == old(roomsRepo.rooms)
      ensures !IsBlank(req.roomName) && !IsBlank(req.hostId) && req.maxOccupancy > 0 ==>
        var room := RoomFromRequest(req, roomGuid, codeGuid, now);
        var s := RoomCollection.CreateRoom(old(roomsRepo.rooms), room);
        roomsRepo.rooms == s.docs
        && res == if s.result.Some? then Success(Some(MapOneToDto(room)), "Room created successfully")
                  else Failure(None, "Failed to create room")
      ensures res.isSuccess <==> (!IsBlank(req.roomName) && !IsBlank(req.hostId) && req.maxOccupancy > 0
        && forall j :: 0 <= j < |old(roomsRepo.rooms)| ==> old(roomsRepo.rooms)[j].roomName != req.roomName)
      ensures res.isSuccess ==> res.data.Some? && res.data.value.participantIds == [] && res.data.value.isPrivate == req.isPrivate
      ensures RoomCollection.StoreInvariant(old(roomsRepo.rooms)) ==> RoomCollection.StoreInvariant(roomsRepo.rooms)
    {
      if IsBlank(req.roomName) || IsBlank(req.hostId) {
        return Failure(None, "Room name and Host ID cannot be null or empty");
      }
      if req.maxOccupancy <= 0 {
        return Failure(None, "Max occupancy must be greater than 0");
      }
      var newRoom := RoomFromRequest(req, roomGuid, codeGuid, now);
      RoomCollection.CreateRoomOutcome(roomsRepo.rooms, newRoom);
      var createdRoom := roomsRepo.CreateRoom(newRoom);
      if createdRoom.None? {
        return Failure(None, "Failed to create room");
      }
      res := Success(Some(MapOneToDto(createdRoom.value)), "Room created successfully");
    }

    /** Deletes the first room with the id; fails when the id is blank or no room has it. */
    method DeleteRoom(roomId: string) returns (res: OperationResult<bool>)
      modifies roomsRepo
      ensures IsBlank(roomId) ==> res == Failure(Some(false), "Room ID cannot be null or empty") && roomsRepo.rooms == old(roomsRepo.rooms)
      ensures !IsBlank(roomId) ==> roomsRepo.rooms == RoomCollection.DeleteRoom(old(roomsRepo.rooms), roomId).docs
      ensures res.isSuccess <==> !IsBlank(roomId) && exists j :: 0 <= j < |old(roomsRepo.rooms)| && old(roomsRepo.rooms)[j].roomId == roomId
      ensures res == if res.isSuccess then Success(Some(true), "Room deleted successfully")
                     else if IsBlank(roomId) then Failure(Some(false), "Room ID cannot be null or empty")
                     else Failure(Some(false), "Failed to delete room")
      ensures RoomCollection.StoreInvariant(old(roomsRepo.rooms)) ==> RoomCollection.StoreInvariant(roomsRepo.rooms)
    {
      if IsBlank(roomId) {
        return Failure(Some(false), "Room ID cannot be null or empty");
      }
      var result := roomsRepo.DeleteRoom(roomId);
      if !result {
        return Failure(Some(false), "Failed to delete room");
      }
      res := Success(Some(true), "Room deleted successfully");
    }

    /** Replaces the access code of a private room by a fresh one and answers it. */
    method GenerateNewRoomPass(roomId: string, codeGuid: string) returns (res: OperationResult<string>)
      requires IsGuidN(codeGuid)
      modifies roomsRepo
      ensures IsBlank(roomId) ==> res == Failure(None, "Room ID cannot be null or empty") && roomsRepo.rooms == old(roomsRepo.rooms)
      ensures !IsBlank(roomId) ==>
        var s := RoomCollection.GenerateNewRoomPass(old(roomsRepo.rooms), roomId, GenerateRandomAccessCode(codeGuid));
        roomsRepo.rooms == s.docs
        && res == if s.result.Some? then Success(s.result, "New room pass generated successfully")
                  else Failure(None, "Failed to generate new room pass")
      ensures res.isSuccess ==> res.data == Some(GenerateRandomAccessCode(codeGuid))
      ensures RoomCollection.StoreInvariant(old(roomsRepo.rooms)) ==> RoomCollection.StoreInvariant(roomsRepo.rooms)
    {
      if IsBlank(roomId) {
        return Failure(None, "Room ID cannot be null or empty");
      }
      var newPass := GenerateRandomAccessCode(codeGuid);
      var result := roomsRepo.GenerateNewRoomPass(roomId, newPass);
      if result.None? || IsBlank(result.value) {
        return Failure(None, "Failed to generate new room pass");
      }
      res := Success(result, "New room pass generated successfully");
    }

    /**
     * The access code of a room, for its host. Public rooms have none, so
     * under the store invariant a success means a private room asked for
     * by its own host.
     */
    method GetAccessCode(roomId: string, hostId: string) returns (res: OperationResult<string>)
      ensures IsBlank(roomId) || IsBlank(hostId) ==> res == Failure(None, "Room ID and User ID cannot be null or empty")
      ensures !IsBlank(roomId) && !IsBlank(hostId) ==>
        var code := RoomCollection.GetAccessCode(roomsRepo.rooms, roomId, hostId);
        res == if code.Some? && !IsBlank(code.value) then Success(code, "Access code retrieved successfully")
               else Failure(None, "No access code found")
      ensures res.isSuccess && RoomCollection.StoreInvariant(roomsRepo.rooms) ==>
        var room := RoomCollection.FindFirst(roomsRepo.rooms, RoomCollection.RoomIdIs(roomId));
        room.Some? && room.value.isPrivate && room.value.hostId == hostId && room.value.accessCode == res.data
    {
      if IsBlank(roomId) || IsBlank(hostId) {
        return Failure(None, "Room ID and User ID cannot be null or empty");
      }
      var accessCode := roomsRepo.GetAccessCode(roomId, hostId);
      if accessCode.None? || IsBlank(accessCode.value) {
        return Failure(None, "No access code found");
      }
      if RoomCollection.StoreInvariant(roomsRepo.rooms) {
        RoomCollection.GetAccessCodeOutcome(roomsRepo.rooms, roomId, hostId);
      }
      res := Success(accessCode, "Access code retrieved successfully");
    }

    method GetAllRooms() returns (res: OperationResult<seq<RoomDto>>)
      ensures res.isSuccess && res.data == Some(MapManyToDto(roomsRepo.rooms))
      ensures res.message == if roomsRepo.rooms == [] then "No rooms found" else "All rooms retrieved successfully"
    {
      var result := roomsRepo.GetAllRooms();
      if |result| == 0 {
        return Success(Some(MapManyToDto([])), "No rooms found");
      }
      res := Success(Some(MapManyToDto(result)), "All rooms retrieved successfully");
    }

    method GetPrivateRooms() returns (res: OperationResult<seq<RoomDto>>)
      ensures res.isSuccess && res.data.Some?
      ensures forall d :: d in res.data.value <==> exists r :: r in roomsRepo.rooms && r.isPrivate && d == MapOneToDto(r)
      ensures res.message == if res.data.value == [] then "No private rooms found" else "Private rooms retrieved successfully"
    {
      var result := roomsRepo.GetPrivateRooms();
      res := Success(Some(MapManyToDto(result)), if |result| == 0 then "No private rooms found" else "Private rooms retrieved successfully");
      forall d ensures d in res.data.value <==> exists r :: r in roomsRepo.rooms && r.isPrivate && d == MapOneToDto(r) {
        if d in res.data.value {
          var i :| 0 <= i < |result| && res.data.value[i] == d;
          assert result[i] in result;
        }
        if exists r :: r in roomsRepo.rooms && r.isPrivate && d == MapOneToDto(r) {
          var r :| r in roomsRepo.rooms && r.isPrivate && d == MapOneToDto(r);
          var i :| 0 <= i < |result| && result[i] == r;
          assert res.data.value[i] == d;
        }
      }
    }

    /** One page of public rooms; a page number or size below 1 is refused. */
    method GetPublicRooms(page: int, pageSize: int) returns (res: OperationResult<seq<RoomDto>>)
      ensures page < 1 || pageSize < 1 ==> res == Failure(None, "Page number and page size must be greater than 0")
      ensures page >= 1 && pageSize >= 1 ==>
        res.isSuccess && res.data.Some? && |res.data.value| <= pageSize
        && res.data == Some(MapManyToDto(RoomCollection.Page(RoomCollection.FindAll(roomsRepo.rooms, RoomCollection.IsPrivateIs(false)), page, pageSize)))
        && (forall d :: d in res.data.value ==> !d.isPrivate)
        && res.message == if res.data.value == [] then "No public rooms found" else "Public rooms retrieved successfully"
    {
      if page < 1 || pageSize < 1 {
        return Failure(None, "Page number and page size must be greater than 0");
      }
      var result := roomsRepo.GetPublicRooms(page, pageSize);
      res := Success(Some(MapManyToDto(result)), if |result| == 0 then "No public rooms found" else "Public rooms retrieved successfully");
      forall d | d in res.data.value ensures !d.isPrivate {
        var i :| 0 <= i < |result| && res.data.value[i] == d;
        assert result[i] in result;
      }
    }

    method GetRoomById(roomId: string) returns (res: OperationResult<RoomDto>)
      ensures IsBlank(roomId) ==> res == Failure(None, "Room ID cannot be null or empty")
      ensures !IsBlank(roomId) ==>
        var room := RoomCollection.FindFirst(roomsRepo.rooms, RoomCollection.RoomIdIs(roomId));
        res == if room.Some? then Success(Some(MapOneToDto(room.value)), "Room retrieved successfully")
               else Failure(None, "Room not found")
      ensures res.isSuccess ==> res.data.Some? && res.data.value.roomId == roomId
      ensures !IsBlank(roomId) && !res.isSuccess ==> forall j :: 0 <= j < |roomsRepo.rooms| ==> roomsRepo.rooms[j].roomId != roomId
    {
      if IsBlank(roomId) {
        return Failure(None, "Room ID cannot be null or empty");
      }
      var result := roomsRepo.GetRoomById(roomId);
      if result.None? {
        return Failure(None, "Room not found");
      }
      res := Success(Some(MapOneToDto(result.value)), "Room retrieved successfully");
    }

    method GetRoomsByHost(hostId: string) returns (res: OperationResult<seq<RoomDto>>)
      ensures IsBlank(hostId) ==> res == Failure(None, "Host ID cannot be null or empty")
      ensures !IsBlank(hostId) ==> (res.isSuccess && res.data.Some?
        && (forall d :: d in res.data.value <==> exists r :: r in roomsRepo.rooms && r.hostId == hostId && d == MapOneToDto(r))
        && res.message == if res.data.value == [] then "No rooms found for host ID" else "Rooms retrieved successfully for host ID")
    {
      if IsBlank(hostId) {
        return Failure(None, "Host ID cannot be null or empty");
      }
      var result := roomsRepo.GetRoomsByHost(hostId);
      res := Success(Some(MapManyToDto(result)), if |result| == 0 then "No rooms found for host ID" else "Rooms retrieved successfully for host ID");
      forall d ensures d in res.data.value <==> exists r :: r in roomsRepo.rooms && r.hostId == hostId && d == MapOneToDto(r) {
        if d in res.data.value {
          var i :| 0 <= i < |result| && res.data.value[i] == d;
          assert result[i] in result;
        }
        if exists r :: r in roomsRepo.rooms && r.hostId == hostId && d == MapOneToDto(r) {
          var r :| r in roomsRepo.rooms && r.hostId == hostId && d == MapOneToDto(r);
          var i :| 0 <= i < |result| && result[i] == r;
          assert res.data.value[i] == d;
        }
      }
    }

    method IsRoomFull(roomId: string) returns (res: OperationResult<bool>)
      ensures IsBlank(roomId) ==> res == Failure(Some(false), "Room ID cannot be null or empty")
      ensures !IsBlank(roomId) ==>
        var full := RoomCollection.IsRoomFull(roomsRepo.rooms, roomId);
        res == Success(Some(full), if full then "Room is full" else "Room is not full")
    {
      if IsBlank(roomId) {
        return Failure(Some(false), "Room ID cannot be null or empty");
      }
      var result := roomsRepo.IsRoomFull(roomId);
      if result {
        res := Success(Some(true), "Room is full");
      } else {
        res := Success(Some(false), "Room is not full");
      }
    }

    method IsUserInRoom(roomId: string, userId: string) returns (res: OperationResult<bool>)
      ensures IsBlank(roomId) || IsBlank(userId) ==> res == Failure(Some(false), "Room ID and User ID cannot be null or empty")
      ensures !IsBlank(roomId) && !IsBlank(userId) ==> (res.isSuccess && res.data.Some?
        && (res.data.value <==> exists j :: 0 <= j < |roomsRepo.rooms| && roomsRepo.rooms[j].roomId == roomId && userId in roomsRepo.rooms[j].participantIds)
        && res.message == if res.data.value then "User is in room" else "User is not in room")
    {
      if IsBlank(roomId) || IsBlank(userId) {
        return Failure(Some(false), "Room ID and User ID cannot be null or empty");
      }
      var result := roomsRepo.IsUserInRoom(roomId, userId);
      if result {
        res := Success(Some(true), "User is in room");
      } else {
        res := Success(Some(false), "User is not in room");
      }
    }

    /** Admits the user when the room exists and has a free seat; joining twice succeeds. */
    method JoinRoom(roomId: string, userId: string) returns (res: OperationResult<bool>)
      modifies roomsRepo
      ensures IsBlank(roomId) || IsBlank(userId) ==>
        res == Failure(Some(false), "Room ID and User ID cannot be null or empty") && roomsRepo.rooms == old(roomsRepo.rooms)
      ensures !IsBlank(roomId) && !IsBlank(userId) ==>
        var s := RoomCollection.JoinRoom(old(roomsRepo.rooms), roomId, userId);
        roomsRepo.rooms == s.docs
        && res == if s.result then Success(Some(true), "User joined room successfully") else Failure(Some(false), "Failed to join room")
      ensures RoomCollection.StoreInvariant(old(roomsRepo.rooms)) ==> RoomCollection.StoreInvariant(roomsRepo.rooms)
    {
      if IsBlank(roomId) || IsBlank(userId) {
        return Failure(Some(false), "Room ID and User ID cannot be null or empty");
      }
      var result := roomsRepo.JoinRoom(roomId, userId);
      if result {
        res := Success(Some(true), "User joined room successfully");
      } else {
        res := Failure(Some(false), "Failed to join room");
      }
    }

    /** Removes the user from the room; fails when the room is missing or did not list the user. */
    method LeaveRoom(roomId: string, userId: string) returns (res: OperationResult<bool>)
      modifies roomsRepo
      ensures IsBlank(roomId) || IsBlank(userId) ==>
        res == Failure(Some(false), "Room ID and User ID cannot be null or empty") && roomsRepo.rooms == old(roomsRepo.rooms)
      ensures !IsBlank(roomId) && !IsBlank(userId) ==>
        var s := RoomCollection.LeaveRoom(old(roomsRepo.rooms), roomId, userId);
        roomsRepo.rooms == s.docs
        && res == if s.result then Success(Some(true), "User left room successfully") else Failure(Some(false), "Failed to leave room")
      ensures RoomCollection.StoreInvariant(old(roomsRepo.rooms)) ==> RoomCollection.StoreInvariant(roomsRepo.rooms)
    {
      if IsBlank(roomId) || IsBlank(userId) {
        return Failure(Some(false), "Room ID and User ID cannot be null or empty");
      }
      var result := roomsRepo.LeaveRoom(roomId, userId);
      if result {
        res := Success(Some(true), "User left room successfully");
      } else {
        res := Failure(Some(false), "Failed to leave room");
      }
    }

    /** Turns a public room private with a fresh access code, which is the answer. */
    method MakeRoomPrivate(roomId: string, codeGuid: string) returns (res: OperationResult<string>)
      requires IsGuidN(codeGuid)
      modifies roomsRepo
      ensures IsBlank(roomId) ==> res == Failure(None, "Room ID cannot be null or empty") && roomsRepo.rooms == old(roomsRepo.rooms)
      ensures !IsBlank(roomId) ==>
        var s := RoomCollection.MakeRoomPrivate(old(roomsRepo.rooms), roomId, GenerateRandomAccessCode(codeGuid));
        roomsRepo.rooms == s.docs
        && res == if s.result.Some? then Success(s.result, "Room made private successfully")
                  else Failure(None, "Failed to make room private")
      ensures res.isSuccess ==> res.data == Some(GenerateRandomAccessCode(codeGuid))
      ensures RoomCollection.StoreInvariant(old(roomsRepo.rooms)) ==> RoomCollection.StoreInvariant(roomsRepo.rooms)
    {
      if IsBlank(roomId) {
        return Failure(None, "Room ID cannot be null or empty");
      }
      var newPass := GenerateRandomAccessCode(codeGuid);
      var result := roomsRepo.MakeRoomPrivate(roomId, newPass);
      if result.None? || IsBlank(result.value) {
        return Failure(None, "Failed to make room private");
      }
      res := Success(result, "Room made private successfully");
    }

    /** Turns a private room public and drops its access code. */
    method MakeRoomPublic(roomId: string) returns (res: OperationResult<bool>)
      modifies roomsRepo
      ensures IsBlank(roomId) ==> res == Failure(Some(false), "Room ID cannot be null or empty") && roomsRepo.rooms == old(roomsRepo.rooms)
      ensures !IsBlank(roomId) ==>
        var s := RoomCollection.MakeRoomPublic(old(roomsRepo.rooms), roomId);
        roomsRepo.rooms == s.docs
        && res == if s.result then Success(Some(true), "Room made public successfully") else Failure(Some(false), "Failed to make room public")
      ensures RoomCollection.StoreInvariant(old(roomsRepo.rooms)) ==> RoomCollection.StoreInvariant(roomsRepo.rooms)
    {
      if IsBlank(roomId) {
        return Failure(Some(false), "Room ID cannot be null or empty");
      }
      var result := roomsRepo.MakeRoomPublic(roomId);
      if !result {
        return Failure(Some(false), "Failed to make room public");
      }
      res := Success(Some(true), "Room made public successfully");
    }

    method RoomExists(roomId: string) returns (res: OperationResult<bool>)
      ensures IsBlank(roomId) ==> res == Failure(Some(false), "Room ID cannot be null or empty")
      ensures !IsBlank(roomId) ==> (res.isSuccess && res.data.Some?
        && (res.data.value <==> exists j :: 0 <= j < |roomsRepo.rooms| && roomsRepo.rooms[j].roomId == roomId)
        && res.message == if res.data.value then "Room exists" else "Room does not exist")
    {
      if IsBlank(roomId) {
        return Failure(Some(false), "Room ID cannot be null or empty");
      }
      var result := roomsRepo.RoomExists(roomId);
      if result {
        res := Success(Some(true), "Room exists");
      } else {
        res := Success(Some(false), "Room does not exist");
      }
    }

    /**
     * One page of the rooms whose name or host matches the search term
     * (the case-insensitive regular-expression match is the parameter
     * `isMatch`).
     */
    method SearchRooms(searchTerm: string, isMatch: (string, string) -> bool, page: int, pageSize: int) returns (res: OperationResult<seq<RoomDto>>)
      requires page >= 1 && pageSize >= 1
      ensures IsBlank(searchTerm) ==> res == Failure(None, "Search term cannot be null or empty")
      ensures !IsBlank(searchTerm) ==> (res.isSuccess
        && res.data == Some(MapManyToDto(RoomCollection.Page(RoomCollection.FindByNameOrHost(roomsRepo.rooms, searchTerm, isMatch), page, pageSize)))
        && |res.data.value| <= pageSize
        && (forall d :: d in res.data.value ==> isMatch(searchTerm, d.roomName) || isMatch(searchTerm, d.hostId))
        && res.message == if res.data.value == [] then "No rooms found" else "Rooms searched successfully")
    {
      if IsBlank(searchTerm) {
        return Failure(None, "Search term cannot be null or empty");
      }
      var result := roomsRepo.SearchRooms(searchTerm, isMatch, page, pageSize);
      res := Success(Some(MapManyToDto(result)), if |result| == 0 then "No rooms found" else "Rooms searched successfully");
      forall d | d in res.data.value ensures isMatch(searchTerm, d.roomName) || isMatch(searchTerm, d.hostId) {
        var i :| 0 <= i < |result| && res.data.value[i] == d;
        assert result[i] in result;
      }
    }

    /**
     * Records a host's playback state; a blank room or video id is refused,
     * and so is an update for a video that is no longer the room's current one.
     */
    method UpdatePlaybackState(roomId: string, position: real, isPaused: bool, videoId: string, now: int) returns (res: OperationResult<bool>)
      modifies roomsRepo
      ensures IsBlank(roomId) ==> res == Failure(Some(false), "Room ID cannot be null or empty") && roomsRepo.rooms == old(roomsRepo.rooms)
      ensures !IsBlank(roomId) && IsBlank(videoId) ==>
        res == Failure(Some(false), "Video ID cannot be null or empty") && roomsRepo.rooms == old(roomsRepo.rooms)
      ensures !IsBlank(roomId) && !IsBlank(videoId) ==>
        var s := RoomCollection.UpdatePlaybackState(old(roomsRepo.rooms), roomId, position, isPaused, videoId, now);
        roomsRepo.rooms == s.docs
        && res == if s.result then Success(Some(true), "Playback state updated successfully")
                  else Failure(Some(false), "Failed to update playback state")
      ensures RoomCollection.StoreInvariant(old(roomsRepo.rooms)) ==> RoomCollection.StoreInvariant(roomsRepo.rooms)
    {
      if IsBlank(roomId) {
        return Failure(Some(false), "Room ID cannot be null or empty");
      }
      if IsBlank(videoId) {
        return Failure(Some(false), "Video ID cannot be null or empty");
      }
      var result := roomsRepo.UpdatePlaybackState(roomId, position, isPaused, videoId, now);
      if !result {
        return Failure(Some(false), "Failed to update playback state");
      }
      res := Success(Some(true), "Playback state updated successfully");
    }

    /**
     * Renames and/or resizes a room for its host. A blank name and a
     * capacity below 1 count as "not supplied"; with neither supplied, or
     * no room of that id and host, the update fails.
     */
    method UpdateRoom(req: UpdateRoomRequest) returns (res: OperationResult<RoomDto>)
      modifies roomsRepo
      ensures IsBlank(req.roomId) ==> res == Failure(None, "Room ID cannot be empty") && roomsRepo.rooms == old(roomsRepo.rooms)
      ensures !IsBlank(req.roomId) && IsBlank(req.hostId) ==>
        res == Failure(None, "Host ID is required") && roomsRepo.rooms == old(roomsRepo.rooms)
      ensures !IsBlank(req.roomId) && !IsBlank(req.hostId) ==>
        var s := RoomCollection.UpdateRoom(old(roomsRepo.rooms), req.roomId, req.hostId, NewRoomName(req.roomName), NewMaxOccupancy(req.maxOccupancy));
        roomsRepo.rooms == s.docs
        && res == if s.result.Some? then Success(Some(MapOneToDto(s.result.value)), "Room updated successfully")
                  else Failure(None, "Failed to update room")
      ensures res.isSuccess ==> res.data.Some? && res.data.value.roomId == req.roomId && res.data.value.hostId == req.hostId
      ensures res.isSuccess && req.maxOccupancy > 0 ==> res.data.value.maxOccupancy == req.maxOccupancy
    {
      if IsBlank(req.roomId) {
        return Failure(None, "Room ID cannot be empty");
      }
      if IsBlank(req.hostId) {
        return Failure(None, "Host ID is required");
      }
      var newRoomName := NewRoomName(req.roomName);
      var newMaxOccupancy := NewMaxOccupancy(req.maxOccupancy);
      RoomCollection.UpdateRoomOutcome(roomsRepo.rooms, req.roomId, req.hostId, newRoomName, newMaxOccupancy);
      var updatedRoom := roomsRepo.UpdateRoom(req.roomId, req.hostId, newRoomName, newMaxOccupancy);
      if updatedRoom.None? {
        return Failure(None, "Failed to update room");
      }
      res := Success(Some(MapOneToDto(updatedRoom.value)), "Room updated successfully");
    }

    /** Succeeds exactly when some room with the id carries the access code. */
    method ValidateRoomPass(roomId: string, accessCode: string) returns (res: OperationResult<bool>)
      ensures IsBlank(roomId) || IsBlank(accessCode) ==> res == Failure(Some(false), "Room ID and Access Code cannot be null or empty")
      ensures res.isSuccess <==> (!IsBlank(roomId) && !IsBlank(accessCode)
        && exists j :: 0 <= j < |roomsRepo.rooms| && roomsRepo.rooms[j].roomId == roomId && roomsRepo.rooms[j].accessCode == Some(accessCode))
      ensures !IsBlank(roomId) && !IsBlank(accessCode) ==>
        res == if res.isSuccess then Success(Some(true), "Access code validated successfully") else Failure(Some(false), "Invalid access code")
    {
      if IsBlank(roomId) || IsBlank(accessCode) {
        return Failure(Some(false), "Room ID and Access Code cannot be null or empty");
      }
      var result := roomsRepo.ValidateRoomPass(roomId, accessCode);
      if !result {
        return Failure(Some(false), "Invalid access code");
      }
      res := Success(Some(true), "Access code validated successfully");
    }

    /**
     * Loads a new video into the room (a blank id clears it), rewinding to
     * the start and pausing.
     */
    method UpdateCurrentVideoId(roomId: string, videoId: string, now: int) returns (res: OperationResult<bool>)
      modifies roomsRepo
      ensures IsBlank(roomId) ==> res == Failure(Some(false), "Room ID cannot be null or empty") && roomsRepo.rooms == old(roomsRepo.rooms)
      ensures !IsBlank(roomId) ==>
        var s := RoomCollection.UpdateCurrentVideoId(old(roomsRepo.rooms), roomId, if IsBlank(videoId) then None else Some(videoId), now);
        roomsRepo.rooms == s.docs
        && res == if s.result then Success(Some(true), "Current video ID updated successfully")
                  else Failure(Some(false), "Failed to update current video ID")
      ensures RoomCollection.StoreInvariant(old(roomsRepo.rooms)) ==> RoomCollection.StoreInvariant(roomsRepo.rooms)
    {
      if IsBlank(roomId) {
        return Failure(Some(false), "Room ID cannot be null or empty");
      }
      var video: Option<string> := if IsBlank(videoId) then None else Some(videoId);
      var result := roomsRepo.UpdateCurrentVideoId(roomId, video, now);
      if !result {
        return Failure(Some(false), "Failed to update current video ID");
      }
      res := Success(Some(true), "Current video ID updated successfully");
    }

    /** The playback part of the first room with the id. */
    method GetPlaybackStateForRoom(roomId: string) returns (res: OperationResult<PlaybackStateDto>)
      ensures IsBlank(roomId) ==> res == Failure(None, "Room ID cannot be null or empty")
      ensures !IsBlank(roomId) ==>
        var room := RoomCollection.FindFirst(roomsRepo.rooms, RoomCollection.RoomIdIs(roomId));
        res == if room.None? then Failure(None, "Room not found")
               else Success(Some(PlaybackStateDto(room.value.currentVideoId, room.value.currentPlaybackPosition,
                                                  room.value.isPaused, room.value.lastSyncUpdate)),
                            "Playback state retrieved successfully")
      ensures res.isSuccess ==> res.data.Some?
    {
      if IsBlank(roomId) {
        return Failure(None, "Room ID cannot be null or empty");
      }
      var room := roomsRepo.GetRoomById(roomId);
      if room.None? {
        return Failure(None, "Room not found");
      }
      var playbackState := PlaybackStateDto(room.value.currentVideoId, room.value.currentPlaybackPosition,
                                            room.value.isPaused, room.value.lastSyncUpdate);
      res := Success(Some(playbackState), "Playback state retrieved successfully");
    }
  }
}

=== FILE: text.dfy ===
/**
 * The .NET string primitives the room subsystem relies on, over `string`
 * (= `seq<char>`): white-space tests, ordinal `Replace`, `Split`, `Trim`,
 * the `\s+` collapse of `Regex.Replace`, and upper-casing.
 */
module Text {

  /** `char.IsWhiteSpace`; the same set is the class `\s` of .NET regular expressions. */
  predicate IsWhiteSpace(c: char) {
    ('\t' <= c <= '\r') || c == ' ' || c == '\U{0085}' || c == '\U{00A0}' || c == '\U{1680}'
    || ('\U{2000}' <= c <= '\U{200A}') || c == '\U{2028}' || c == '\U{2029}'
    || c == '\U{202F}' || c == '\U{205F}' || c == '\U{3000}'
  }

  /** `string.IsNullOrWhiteSpace` on a non-null string: empty, or white space only. */
  predicate IsBlank(s: string) {
    forall i :: 0 <= i < |s| ==> IsWhiteSpace(s[i])
  }

  predicate IsLowerHexDigit(c: char) {
    '0' <= c <= '9' || 'a' <= c <= 'f'
  }

  predicate IsUpperHexDigit(c: char) {
    '0' <= c <= '9' || 'A' <= c <= 'F'
  }

  /** `char.ToUpperInvariant`, restricted to the ASCII letters. */
  function ToUpperInvariant(c: char): char {
    if 'a' <= c <= 'z' then (c as int - 32) as char else c
  }

  /** `string.ToUpperInvariant`, restricted to the ASCII letters. */
  function ToUpperString(s: string): string {
    seq(|s|, i requires 0 <= i < |s| => ToUpperInvariant(s[i]))
  }

  /** `a.Equals(b, StringComparison.OrdinalIgnoreCase)`, with ASCII case folding. */
  predicate EqualsIgnoreCase(a: string, b: string) {
    |a| == |b| && forall i :: 0 <= i < |a| ==> ToUpperInvariant(a[i]) == ToUpperInvariant(b[i])
  }

  /** `s.Replace(from, to)` for two chars. */
  function ReplaceChar(s: string, from: char, to: char): string {
    seq(|s|, i requires 0 <= i < |s| => if s[i] == from then to else s[i])
  }

  /**
   * `s.Replace(pattern, replacement)` (ordinal): occurrences are found from
   * the left and do not overlap; the text a replacement inserts is not
   * searched again.
   */
  function Replace(s: string, pattern: string, replacement: string): (r: string)
    requires pattern != []
    ensures forall c :: c !in s && c !in replacement ==> c !in r
    ensures |pattern| == 1 && pattern[0] !in replacement ==> pattern[0] !in r
    decreases |s|
  {
    if |s| < |pattern| then
      assert |pattern| == 1 ==> s == [];
      s
    else if s[..|pattern|] == pattern then
      replacement + Replace(s[|pattern|..], pattern, replacement)
    else
      [s[0]] + Replace(s[1..], pattern, replacement)
  }

  /** A chain of `Replace` calls: each pair's pattern, in turn, by its replacement. */
  function ReplaceEach(s: string, pairs: seq<(string, string)>): (r: string)
    requires forall i :: 0 <= i < |pairs| ==> pairs[i].0 != []
    ensures forall c :: c !in s && (forall i :: 0 <= i < |pairs| ==> c !in pairs[i].1) ==> c !in r
    decreases |pairs|
  {
    if pairs == [] then s else ReplaceEach(Replace(s, pairs[0].0, pairs[0].1), pairs[1..])
  }

  /** Number of occurrences of `c` in `s`. */
  function Count(s: string, c: char): nat {
    if s == [] then 0 else (if s[0] == c then 1 else 0) + Count(s[1..], c)
  }

  /** `s.Split(sep)`: the pieces between separators, empty pieces included. */
  function Split(s: string, sep: char): (parts: seq<string>)
    ensures |parts| == Count(s, sep) + 1
    ensures forall i :: 0 <= i < |parts| ==> sep !in parts[i]
    decreases |s|
  {
    if s == [] then [[]]
    else
      var rest := Split(s[1..], sep);
      if s[0] == sep then [[]] + rest
      else [[s[0]] + rest[0]] + rest[1..]
  }

  /** `string.Join(sep, parts)`. */
  function Join(parts: seq<string>, sep: char): string
    requires |parts| >= 1
  {
    if |parts| == 1 then parts[0] else parts[0] + [sep] + Join(parts[1..], sep)
  }

  /** Joining the pieces of a split gives back the original string. */
  lemma {:induction false} JoinSplit(s: string, sep: char)
    ensures Join(Split(s, sep), sep) == s
    decreases |s|
  {
    if s != [] {
      var rest := Split(s[1..], sep);
      JoinSplit(s[1..], sep);
      if s[0] == sep {
        assert Split(s, sep) == [[]] + rest;
        assert ([[]] + rest)[1..] == rest;
      } else {
        var parts := Split(s, sep);
        assert parts == [[s[0]] + rest[0]] + rest[1..];
        if |rest| > 1 {
          assert parts[1..] == rest[1..];
        }
      }
    }
  }

  /** Splitting a string that does not contain the separator gives one piece. */
  lemma {:induction false} SplitWithoutSeparator(s: string, sep: char)
    requires sep !in s
    ensures Split(s, sep) == [s]
    decreases |s|
  {
    if s != [] {
      assert sep !in s[1..] by {
        forall c | c in s[1..] ensures c != sep {
          assert c in s;
        }
      }
      SplitWithoutSeparator(s[1..], sep);
      assert [s[0]] + s[1..] == s;
    }
  }

  /** A separator-free prefix followed by the separator becomes the first piece. */
  lemma {:induction false} SplitAfterPiece(a: string, sep: char, b: string)
    requires sep !in a
    ensures Split(a + [sep] + b, sep) == [a] + Split(b, sep)
    decreases |a|
  {
    if a == [] {
      assert [] + [sep] + b == [sep] + b;
      assert ([sep] + b)[1..] == b;
    } else {
      var s := a + [sep] + b;
      assert s[0] == a[0] && s[1..] == a[1..] + [sep] + b;
      SplitAfterPiece(a[1..], sep, b);
      assert [a[0]] + a[1..] == a;
    }
  }

  /** Splitting joined separator-free pieces gives back the pieces. */
  lemma {:induction false} SplitJoin(parts: seq<string>, sep: char)
    requires |parts| >= 1
    requires forall i :: 0 <= i < |parts| ==> sep !in parts[i]
    ensures Split(Join(parts, sep), sep) == parts
    decreases |parts|
  {
    if |parts| == 1 {
      SplitWithoutSeparator(parts[0], sep);
    } else {
      SplitAfterPiece(parts[0], sep, Join(parts[1..], sep));
      SplitJoin(parts[1..], sep);
      assert [parts[0]] + parts[1..] == parts;
    }
  }

  /** No two consecutive characters are both white space. */
  predicate NoAdjacentWhiteSpace(s: string) {
    forall i :: 0 <= i < |s| - 1 ==> !(IsWhiteSpace(s[i]) && IsWhiteSpace(s[i + 1]))
  }

  /** A concatenation is blank exactly when both pieces are. */
  lemma BlankAppend(a: string, b: string)
    ensures IsBlank(a + b) <==> IsBlank(a) && IsBlank(b)
  {
    if IsBlank(a) && IsBlank(b) {
      forall i | 0 <= i < |a + b| ensures IsWhiteSpace((a + b)[i]) {
        if i >= |a| { assert (a + b)[i] == b[i - |a|]; }
      }
    }
    if IsBlank(a + b) {
      forall i | 0 <= i < |a| ensures IsWhiteSpace(a[i]) {
        assert (a + b)[i] == a[i];
      }
      forall i | 0 <= i < |b| ensures IsWhiteSpace(b[i]) {
        assert (a + b)[|a| + i] == b[i];
      }
    }
  }

  /** `s.TrimStart()` */
  function TrimStart(s: string): (r: string)
    ensures r == [] || !IsWhiteSpace(r[0])
    ensures |r| <= |s| && r == s[|s| - |r|..]
    ensures IsBlank(s[..|s| - |r|])
    ensures r == [] <==> IsBlank(s)
    decreases |s|
  {
    if s != [] && IsWhiteSpace(s[0]) then
      var r := TrimStart(s[1..]);
      assert s == [s[0]] + s[1..];
      BlankAppend([s[0]], s[1..]);
      assert s[..|s| - |r|] == [s[0]] + s[1..][..|s| - 1 - |r|];
      BlankAppend([s[0]], s[1..][..|s| - 1 - |r|]);
      r
    else s
  }

  /** Trimming the start drops white space only. */
  lemma {:induction false} TrimStartKeepsText(s: string)
    ensures NonWhite(TrimStart(s)) == NonWhite(s)
    decreases |s|
  {
    if s != [] && IsWhiteSpace(s[0]) {
      TrimStartKeepsText(s[1..]);
    }
  }

  /** `s.TrimEnd()` */
  function TrimEnd(s: string): (r: string)
    ensures r == [] || !IsWhiteSpace(r[|r| - 1])
    ensures |r| <= |s| && r == s[..|r|]
    ensures IsBlank(s[|r|..])
    ensures r == [] <==> IsBlank(s)
    decreases |s|
  {
    if s != [] && IsWhiteSpace(s[|s| - 1]) then
      var r := TrimEnd(s[..|s| - 1]);
      var last := [s[|s| - 1]];
      assert s == s[..|s| - 1] + last;
      BlankAppend(s[..|s| - 1], last);
      assert s[|r|..] == s[..|s| - 1][|r|..] + last;
      BlankAppend(s[..|s| - 1][|r|..], last);
      r
    else s
  }

  /**
   * `r` is `s` with some white space cut off at each end: a slice of `s`
   * whose prefix and suffix outside it are blank.
   */
  predicate TrimmedFrom(s: string, r: string) {
    exists k :: 0 <= k <= |s| - |r| && r == s[k..k + |r|] && IsBlank(s[..k]) && IsBlank(s[k + |r|..])
  }

  /** `s.Trim()`: what remains once leading and trailing white space is gone. */
  function Trim(s: string): (r: string)
    ensures TrimmedFrom(s, r)
    ensures r == [] || (!IsWhiteSpace(r[0]) && !IsWhiteSpace(r[|r| - 1]))
    ensures r == [] <==> IsBlank(s)
    ensures forall c :: c in r ==> c in s
    ensures NoAdjacentWhiteSpace(s) ==> NoAdjacentWhiteSpace(r)
  {
    var t := TrimStart(s);
    var r := TrimEnd(t);
    assert r != [] ==> r[0] == t[0];
    TrimBothEnds(s, t, r);
    r
  }

  /** Trimming the start, then the end, cuts a slice with blank surroundings. */
  lemma TrimBothEnds(s: string, t: string, r: string)
    requires t == TrimStart(s) && r == TrimEnd(t)
    ensures TrimmedFrom(s, r)
    ensures forall c :: c in r ==> c in s
    ensures NoAdjacentWhiteSpace(s) ==> NoAdjacentWhiteSpace(r)
  {
    var k := |s| - |t|;
    assert r == s[k..k + |r|];
    assert s[k + |r|..] == t[|r|..];
    SliceKeeps(s, k, r);
  }

  /** A piece cut out of `s` has only characters of `s`, and no white-space pair `s` lacks. */
  lemma SliceKeeps(s: string, from: nat, r: string)
    requires from + |r| <= |s| && forall i :: 0 <= i < |r| ==> r[i] == s[from + i]
    ensures forall c :: c in r ==> c in s
    ensures NoAdjacentWhiteSpace(s) ==> NoAdjacentWhiteSpace(r)
  {
    forall c | c in r ensures c in s {
      var i :| 0 <= i < |r| && r[i] == c;
      assert s[from + i] == c;
    }
  }

  /** The characters of `s` that are not white space, in order. */
  function NonWhite(s: string): string
    decreases |s|
  {
    if s == [] then []
    else (if IsWhiteSpace(s[0]) then [] else [s[0]]) + NonWhite(s[1..])
  }

  /**
   * `Regex.Replace(s, @"\s+", " ")`: every maximal run of white space
   * becomes one space.
   */
  function CollapseWhiteSpace(s: string): (r: string)
    ensures NoAdjacentWhiteSpace(r)
    ensures r == [] <==> s == []
    ensures s != [] && !IsWhiteSpace(s[0]) ==> r[0] == s[0]
    ensures forall c :: c in r ==> c in s || c == ' '
    decreases |s|
  {
    if s == [] then []
    else if IsWhiteSpace(s[0]) then
      var t := TrimStart(s[1..]);
      var rest := CollapseWhiteSpace(t);
      assert rest == [] || !IsWhiteSpace(rest[0]);
      ConsKeepsNoAdjacent(' ', rest);
      SuffixChars(s, t);
      [' '] + rest
    else
      var rest := CollapseWhiteSpace(s[1..]);
      ConsKeepsNoAdjacent(s[0], rest);
      SuffixChars(s, s[1..]);
      [s[0]] + rest
  }

  /** A character put before a string whose head is not white space adds no white-space pair. */
  lemma ConsKeepsNoAdjacent(c: char, rest: string)
    requires NoAdjacentWhiteSpace(rest)
    requires rest == [] || !IsWhiteSpace(c) || !IsWhiteSpace(rest[0])
    ensures NoAdjacentWhiteSpace([c] + rest)
  {
    var r := [c] + rest;
    forall i | 0 <= i < |r| - 1 ensures !(IsWhiteSpace(r[i]) && IsWhiteSpace(r[i + 1])) {
      if i > 0 { assert r[i] == rest[i - 1] && r[i + 1] == rest[i]; }
    }
  }

  /** The characters of a proper suffix of `s` are characters of `s`. */
  lemma SuffixChars(s: string, t: string)
    requires |t| < |s| && t == s[|s| - |t|..]
    ensures forall c :: c in t ==> c in s
  {
    forall c | c in t ensures c in s {
      var i :| 0 <= i < |t| && t[i] == c;
      assert s[|s| - |t| + i] == c;
    }
  }

  /**
   * Collapsing changes white space only: the white space left is spaces,
   * and the other characters are those of `s`, in order.
   */
  lemma {:induction false} CollapseKeepsText(s: string)
    ensures var r := CollapseWhiteSpace(s);
      (forall i :: 0 <= i < |r| && IsWhiteSpace(r[i]) ==> r[i] == ' ') && NonWhite(r) == NonWhite(s)
    decreases |s|
  {
    if s != [] {
      var r := CollapseWhiteSpace(s);
      if IsWhiteSpace(s[0]) {
        CollapseKeepsText(TrimStart(s[1..]));
        TrimStartKeepsText(s[1..]);
        assert r[1..] == CollapseWhiteSpace(TrimStart(s[1..]));
      } else {
        CollapseKeepsText(s[1..]);
        assert r[1..] == CollapseWhiteSpace(s[1..]);
      }
    }
  }

  /**
   * The same collapse read left to right, one character at a time:
   * a white-space character becomes a space unless the one before it was
   * white space too, and every other character is copied.
   */
  function CollapseScan(s: string, afterWhite: bool): string
    decreases |s|
  {
    if s == [] then []
    else if IsWhiteSpace(s[0]) then (if afterWhite then [] else [' ']) + CollapseScan(s[1..], true)
    else [s[0]] + CollapseScan(s[1..], false)
  }

  /** After white space, a scan skips the white space that follows. */
  lemma {:induction false} ScanSkipsWhiteSpace(s: string)
    ensures CollapseScan(s, true) == CollapseScan(TrimStart(s), false)
    decreases |s|
  {
    if s != [] && IsWhiteSpace(s[0]) {
      ScanSkipsWhiteSpace(s[1..]);
    }
  }

  /** `CollapseWhiteSpace` is exactly the left-to-right scan, started outside any run. */
  lemma {:induction false} CollapseIsScan(s: string)
    ensures CollapseWhiteSpace(s) == CollapseScan(s, false)
    decreases |s|
  {
    if s != [] {
      if IsWhiteSpace(s[0]) {
        CollapseIsScan(TrimStart(s[1..]));
        ScanSkipsWhiteSpace(s[1..]);
      } else {
        CollapseIsScan(s[1..]);
      }
    }
  }
}

=== FILE: wrappers.dfy ===
/** Nullable values of the C# source: `None` stands for `null`. */
module Wrappers {

  datatype Option<+T> = None | Some(value: T) {

    /** `x ?? default` */
    function GetOr(default: T): T {
      match this
      case Some(v) => v
      case None => default
    }
  }
}
